=== FILE: README.md ===
# REST_ARCH decision rules, modelled in Dafny

REST_ARCH is a Python 2 service framework. Around its gunicorn, celery,
SQLAlchemy, YAML and click plumbing sit a number of small decision and text
rules, and this project models those rules:

- **Settings registry** (`rest_arch/conf.py`, module `Conf`). It covers:
  - the config-name rule;
  - value validation against the defaults' types, including the
    empty-allowed wrapper;
  - `explicit` mode;
  - the one-way `loaded` latch;
  - reads before and after load;
  - the application `Config` and its post-update hook.
- **Request context** (`rest_arch/ctx.py`, module `Ctx`): four dictionaries,
  their setters, getters and clears.
- **Logging** (`rest_arch/log.py`, module `Log`): `obj2str`, the save and
  restore of `logging_meta`, and the `[app rpc req] k => v ## body` line.
- **Database layer** (`rest_arch/db.py`, module `Db`). It covers:
  - the nesting-depth scope key;
  - the routing session's bind choice;
  - the connection-recycle jitter;
  - the session manager's name map;
  - per-database pool options;
  - the SQL comment prefix.
- **Async dispatch** (`rest_arch/async.py`, module `AsyncTasks`). It covers:
  - memory-queue versus broker dispatch;
  - the suppression list;
  - the two-tier retry classification and the retry budget;
  - the queue table;
  - `AsyncRouter`.
- **In-process queue** (`rest_arch/mock_queue.py`, module `MockQueue`): task
  creation, the call each task makes, signal fan-out and the worker loop.
- **App config lookups** (`rest_arch/skt/config.py`, module `AppConfig`):
  - env and cluster;
  - `services.<type>` precedence;
  - slug and logger name;
  - port, canonical port and worker count;
  - the bind string;
  - message consumers;
  - the pinned framework requirement.
- **Bootstrap validators** (`rest_arch/skt/cmds/bootstrap/__init__.py`,
  module `Bootstrap`).
- **Version text** (`tools/bump.py`, module `Bump`, and `setup.py`, module
  `SetupVersion`). `bump.py` writes the `version_info` tuple and `setup.py`
  reads it back. The round trip between them is proved.

Two support modules hold shared definitions:

- `Py` models Python 2 values (`Obj`), truth testing, `isinstance`, `repr`
  of a byte string and UTF-8 encoding. Integers come in the two Python 2
  widths: `int` within ±`sys.maxint` of a 64-bit build, and `long`.
- `Text` models the `str` methods the rules use: `split`, `rsplit`, `strip`,
  `join`, `int()` and `str()` of integers.

`Wrappers` holds `Option` and `Result`.

The modelling choices:

- Every operation is a pure function over immutable values.
- Python exceptions are `Failure` values.
- A dictionary's iteration order is a parameter `order` that lists its keys
  once each (`Py.IterationOrder`).
- Environment queries, `random.choice` (an index `pick`),
  `random.uniform(0.75, 1)` (a real `u` in that range) and
  `EmptyValue.is_empty` (a predicate `isEmpty`) are inputs.
- `PLACE_HOLDER` is an input `placeholder`.
- `repr` of values other than byte strings is an input `reprOf`.

Three behaviours of the code are easy to misread from its names, and the model follows the code:

- `make_session` without `force_scope` outside development passes
  `scopefunc=None`, which gives SQLAlchemy's per-thread registry rather than
  a process-wide session. `Db.ScopeFor` returns `ByThread` for that case.
- The application `Config` is `explicit` and its defaults do not list
  `ASYNC_ENABLED`. That name can therefore never be stored, and
  `_after_update_config` reads it first. So every load of the application
  registry ends in `AttributeError`, and the broker registry that the hook
  would build is never reached (`Conf.AppGateAlwaysRaises`).
- `_get_version` matches `.*version_info = \((.*?)\)` with a greedy prefix. It
  therefore reads the last `version_info = (` that has a `)` after it, not
  the first (`SetupVersion.Search`).

## Model

| member | source | states |
|---|---|---|
| Conf.ValidName | rest_arch/conf.py:147-152 | a name validates only if it is upper case without `__`; in explicit mode a name outside the defaults never validates; every other legit name does |
| Conf.BaseValidValue | rest_arch/conf.py:69-79 | empty values are rejected; with no expected type any non-empty value passes; a string type accepts any `basestring`; otherwise `isinstance` decides, so a `long` does not pass for an `int` |
| Conf.ValidValue | rest_arch/conf.py:154-167 | an empty-allowed wrapper always passes; an empty value of the wrapped default's type passes; otherwise the default's (unwrapped) type is required, a `long` not passing for an `int`; names without a default use the base check |
| Conf.SetAttr | rest_arch/conf.py:40-44 | a non-config name or an invalid value leaves the settings unchanged; a valid one is stored; no other key changes; class and latch are untouched |
| Conf.GetAttr | rest_arch/conf.py:136-145 | `BaseConfig` raises NotLoaded before load and AttributeError for an absent name after; `DefaultConfig` reads the stored value even before load (KeyError if absent), raises ConfigError for a value that fails validation, and unwraps an empty-allowed wrapper |
| Conf.New | rest_arch/conf.py:169-174 | a new registry is unloaded; `DefaultConfig` holds exactly the defaults whose names are config names, with their values unchecked |
| Conf.ApplyAll | rest_arch/conf.py:55-58 | the merge loop never changes the class or the latch (its effect on the settings is `Conf.ApplyAllEffect`) |
| Conf.ApplyAllEffect | rest_arch/conf.py:55-58 | after merging distinct names, an accepted entry is stored with its value, a rejected entry's name keeps its old value, and names not in the source keep theirs |
| Conf.AfterUpdate | rest_arch/conf.py:208-224 | only the application `Config` has a hook; it asks for a broker registry only when `ASYNC_ENABLED` reads truthy and `USE_MEMORY_MQ` reads falsy; a failed read of `ASYNC_ENABLED` is the hook's exception |
| Conf.UpdateConfig | rest_arch/conf.py:55-61 | after an update the registry is loaded and the hook has run on the merged, latched state |
| Conf.UpdateThenRead | rest_arch/conf.py:55-61 | after an update, reading an accepted entry yields its value (unwrapped if empty-allowed); a rejected entry reads as before |
| Conf.LoadedLatch | rest_arch/conf.py:59-60 | no sequence of assignments and updates resets `loaded`; any update sets it; assignments alone never change it |
| Conf.ExplicitKeepsKeysWithinDefaults | rest_arch/conf.py:147-152 | an explicit registry whose settings lie within its defaults keeps them there under any operations |
| Conf.ApplyKeepsWithinDefaults | rest_arch/conf.py:147-152 | one assignment or update keeps an explicit registry's settings within its defaults |
| Conf.ApplyAllKeepsWithinDefaults | rest_arch/conf.py:55-58 | the merge loop keeps an explicit registry's settings within its defaults |
| Conf.AppGateAlwaysRaises | rest_arch/conf.py:208-213 | for any history of assignments and updates, the next update of the application `Config` raises AttributeError for `ASYNC_ENABLED` |
| Conf.AppPoolDefaultsReadBeforeLoad | rest_arch/conf.py:197-199 | before load the application's `DB_POOL_SIZE`, `DB_MAX_OVERFLOW` and `DB_POOL_RECYCLE` read as 10, 1 and 1200 |
| Conf.AppDbSettingsReadBeforeLoad | rest_arch/conf.py:200 | before load the empty-allowed `DB_SETTINGS` reads as the empty dict, unwrapped |
| Conf.AppUnknownNameBeforeLoad | rest_arch/conf.py:136-140 | before load `ASYNC_ENABLED`, which the application defaults do not list, raises KeyError rather than AttributeError |
| Conf.LegitByCharacters | rest_arch/conf.py:49-53 | a name starting with a capital, with no lower-case letter and no two adjacent underscores is a config name |
| Conf.LegitDbNames | rest_arch/conf.py:197-200 | the four DB default names are config names |
| Conf.LegitOtherDefaultNames | rest_arch/conf.py:190-194 | the cache and logging default names are config names |
| Conf.LegitAppNames | rest_arch/conf.py:187-202 | every application default is a config name, and the registry's own attributes (`_settings`, `__DEFAULT_SETTINGS__`, `explicit`, ...) are not |
| Ctx.Fresh | rest_arch/ctx.py:9-15 | a new context has all four dictionaries empty |
| Ctx.ClearApiCtx | rest_arch/ctx.py:17-19 | empties call and logging metadata; connection and user dictionaries unchanged |
| Ctx.ClearConnCtx | rest_arch/ctx.py:21-22 | empties only the connection dictionary |
| Ctx.ClearUserRequestCtx | rest_arch/ctx.py:24-25 | empties only the user dictionary |
| Ctx.SetCallMeta | rest_arch/ctx.py:27-28 | binds the key in call metadata; every other key and dictionary unchanged |
| Ctx.SetConnMeta | rest_arch/ctx.py:30-31 | binds the key in the connection dictionary; everything else unchanged |
| Ctx.SetUserRequestCtx | rest_arch/ctx.py:33-34 | binds the key in the user dictionary; everything else unchanged |
| Ctx.GetCallMeta | rest_arch/ctx.py:36-37 | the stored value, or the placeholder for an absent key |
| Ctx.GetConnMeta | rest_arch/ctx.py:39-40 | the stored value, or the placeholder for an absent key |
| Ctx.GetUserRequestCtx | rest_arch/ctx.py:42-43 | the stored value, or KeyError for an absent key |
| Ctx.ClearAll | rest_arch/ctx.py:45-48 | all four dictionaries empty |
| Ctx.ClearAllIsFresh | rest_arch/ctx.py:45-48 | `clear_all` yields exactly a new context |
| Ctx.ClearsCommute | rest_arch/ctx.py:17-25 | the three partial clears commute pairwise and each is idempotent |
| Ctx.SetThenGet | rest_arch/ctx.py:27-43 | each getter returns what its setter stored; after the matching clear the lenient getters return the placeholder and the strict one raises KeyError |
| Log.Obj2Str | rest_arch/log.py:9-15 | unicode is UTF-8 encoded, `str`/`int`/`bool` go through `str`, a `long` is its decimal text with `L` (its `repr`), anything else goes through `repr` |
| Log.Obj2StrAgreesWithStr | rest_arch/log.py:9-15 | on strings, numbers, booleans and ASCII unicode the result is the `str` text, except that a `long` keeps the `L` of its `repr`; a byte string is returned as it is |
| Log.Enter | rest_arch/log.py:26-36 | the saved conflicts are exactly the shadowed keys with their old values; inside the block every key of kw maps to its kw value and other keys are unchanged |
| Log.Exit | rest_arch/log.py:37-41 | exit fails exactly when a key of kw was removed inside the block; otherwise shadowed keys get their old values, new keys are gone, other keys as the body left them |
| Log.LoggingMetaRestores | rest_arch/log.py:18-41 | for a body that keeps kw's keys, whether it returns or raises, after the block kw's keys read as before the block and every other key as the body left it; the block raises exactly when the body did |
| Log.LoggingMetaIdentity | rest_arch/log.py:18-41 | a block whose body does not touch the metadata leaves the original dictionary, returning it or raising the body's exception |
| Log.WithLoggingMeta | rest_arch/log.py:18-41 | the block raises exactly when its body raised or removed one of the block's keys; a removed key makes the `finally` clause's KeyError replace the body's exception, otherwise the body's exception propagates after the restore |
| Log.ClearInsideBlockRaises | rest_arch/log.py:38-41 | clearing the request context inside a non-empty block makes the exit's `pop` raise |
| Log.RequiredMeta | rest_arch/log.py:60-63 | the required block is bracketed |
| Log.RequiredMetaShowsCallMeta | rest_arch/log.py:60-63 | the block shows the app id, then the call's `seq` and `request_id` as stored, each replaced by the placeholder when not set |
| Log.Item | rest_arch/log.py:69-70 | a string key is written as it is (its `obj2str` is itself), then ` => ` and `obj2str` of the value |
| Log.ExtraMeta | rest_arch/log.py:66-71 | one item per metadata entry, the i-th being the i-th key in iteration order with its value |
| Log.ExtraMetaPairs | rest_arch/log.py:66-74 | the items joined after the required block are each preceded by one space |
| Log.FormatLine | rest_arch/log.py:58-78 | the line is the required block, then ` k => v` per entry in iteration order, then ` ## ` and the message |
| Log.FormatFrame | rest_arch/log.py:58-78 | whatever the metadata, the line starts with the required block and ends with ` ## ` and the message |
| Log.FormatWithoutMeta | rest_arch/log.py:66-78 | with no metadata the line is the required block, ` ## `, the message |
| Db.RunRestoresDepth | rest_arch/db.py:35-44 | any work, raising or not, leaves the depth where it started; every lookup uses this thread's id at that depth or deeper |
| Db.NestedLookupsAreDeeper | rest_arch/db.py:35-44 | every lookup inside a `session_stack` block is strictly deeper than the enclosing code |
| Db.ScopeFor | rest_arch/db.py:116-120 | the session-stack scope is used exactly in development or when forced |
| Db.NestedBlockGetsOwnSession | rest_arch/db.py:29-44 | under the session-stack scope every lookup inside a `session_stack` block is filed apart from the enclosing code's session; under the thread scope every depth of the thread shares one |
| Db.SlaveEngines | rest_arch/db.py:63-64 | the slave list holds exactly the engines of non-master roles |
| Db.NewRoutingSession | rest_arch/db.py:60-65 | construction fails exactly when no role other than `master` exists; otherwise the session is unpinned with a non-empty slave list of exactly the non-master engines |
| Db.GetBind | rest_arch/db.py:69-75 | a pinned name gives that engine (KeyError if unknown); else a flush gives `master`; else some slave |
| Db.UsingBind | rest_arch/db.py:77-79 | the pin is set to the name; engines and slaves unchanged |
| Db.EverySlaveReachable | rest_arch/db.py:74-75 | unpinned reads can return an engine exactly when it is a slave |
| Db.PinnedBindWins | rest_arch/db.py:69-79 | pinning a configured role routes reads and flushes to it; pinning the empty name behaves as unpinned |
| Db.Trunc | rest_arch/db.py:195 | `int()` of a float truncates toward zero |
| Db.RecycleSeconds | rest_arch/db.py:192-196 | a pool without a configured interval raises; otherwise for R >= 0 the result lies in [floor(3R/4), R] (for R < 0 in [R, 0]) |
| Db.JitterBounds | rest_arch/db.py:195 | `int(u*R)` lies in [floor(3R/4), R] for u in [0.75, 1] |
| Db.JitterWindowTight | rest_arch/db.py:192-196 | both ends of that window are reached |
| Db.MakeFactory | rest_arch/db.py:222-236 | succeeds exactly when the config has a `urls` dict; one engine per role with its DSN and role, each pool option from the database's config else the global default |
| Db.GetSession | rest_arch/db.py:207-212 | a registered name gives its factory; an unknown one raises KeyError |
| Db.AddSession | rest_arch/db.py:214-220 | a taken name raises; otherwise the map gains exactly that name with the built factory and nothing else changes |
| Db.CreateSessions | rest_arch/db.py:203-205 | on success the map holds exactly the old names and the listed ones, and every old entry is kept |
| Db.CreateSessionsRegistersAll | rest_arch/db.py:203-205 | creating from distinct new names succeeds exactly when every database's settings build, and then registers each under its own factory and nothing else |
| Db.AddThenGet | rest_arch/db.py:207-220 | after `add_session`, `get_session` of that name returns the new factory, a second `add_session` of it is refused, and other names resolve as before |
| Db.CloseSessions | rest_arch/db.py:238-249 | sessions are visited in iteration order; asked to close connections, the loop stops at the first database whose factory call raises (no session yet and no non-master role), and it raises exactly when some database would; otherwise every session is visited once; connections are invalidated exactly when asked and in a transaction; a failing `remove` does not stop the loop |
| Db.BuiltFactoryCallSucceeds | rest_arch/db.py:60-65 | a factory built from settings naming a non-master role never raises when called, so closing never stops there |
| Db.SqlCommenter | rest_arch/db.py:162-173 | without a request id the statement passes unchanged; with one it is prefixed by `/* E:rid=<rid>&rpcid=<seq>&role=<role>:E */ `, where `<seq>` is the call's `seq` or the placeholder and `<role>` the connection's role or `unknown`; parameters always pass through |
| Db.CommentNamesEngineRole | rest_arch/db.py:166-172 | on an engine the manager built, the comment is exactly `/* E:rid=<rid>&rpcid=<seq>&role=<role>:E */ <statement>` with that engine's role |
| AsyncTasks.SendTask | rest_arch/async.py:46-51 | memory mode appends exactly `(service, api, args, kwargs)` to the queue and publishes nothing; otherwise the message carries service, api and args, and the kwargs as both task kwargs and options |
| AsyncTasks.RetryFor | rest_arch/async.py:69-89 | a return asks no retry; a client error asks with the transport-error wait and budget, any other error with the unknown-error ones; call kwargs override either |
| AsyncTasks.AsyncApi | rest_arch/async.py:58-93 | calls to `ess` or `tds`, and the three order signals to `biz.member`, are dropped, whether the service is a byte string or unicode; otherwise the call completes or asks the retry `RetryFor` gives |
| AsyncTasks.NoneBudgetIsTaskDefault | rest_arch/async.py:57 | a retry without a budget of its own is held to the `@app.task` decorator's `TASK_MAX_RETRY_COUNT` |
| AsyncTasks.BudgetStaysSpent | rest_arch/async.py:80-89 | once the retry budget has run out it stays spent |
| AsyncTasks.Drive | rest_arch/async.py:57-93 | a call is skipped exactly when suppressed; it completes on a returning execution, surfaces its error on a failing one whose budget is spent, and the retry count grows by one per rescheduled execution |
| AsyncTasks.ClientErrorsExhaustBudget | rest_arch/async.py:74-81 | a call that keeps raising the client error with no own `max_retries` surfaces after exactly `TASK_TE_MAX_RETRY_COUNT` retries |
| AsyncTasks.OtherErrorsExhaustBudget | rest_arch/async.py:82-89 | a call that keeps raising any other exception with no own `max_retries` surfaces after exactly `TASK_UE_MAX_RETRY_COUNT` retries |
| AsyncTasks.SuccessWithinBudget | rest_arch/async.py:71-89 | a call that succeeds after k failures, each failure finding its own error tier's budget not yet spent, completes after exactly k retries |
| AsyncTasks.RegisterWorkerQueues | rest_arch/async.py:30-35 | each worker gets a queue with exchange `SKT` and routing key `api.<name>`; other queues are kept |
| AsyncTasks.WorkerEntries | rest_arch/async.py:31 | `for q in async_workers` iterates a list's elements; `null`, a number or a boolean is not iterable (TypeError); a non-empty dict or string yields strings, whose `q['name']` raises TypeError |
| AsyncTasks.WorkerName | rest_arch/async.py:32-34 | `q['name']` is the text of a dict entry's `name`; TypeError for a non-dict entry or an unhashable name, KeyError without `name` |
| AsyncTasks.WorkerNames | rest_arch/async.py:31-35 | the names of all entries, or the error of the first entry without one, which ends the loop |
| AsyncTasks.InitQueues | rest_arch/async.py:24-38 | worker queues are added only inside a container, with the broker, and with `async_workers` set, otherwise the table is unchanged; a malformed `async_workers` makes it raise that entry's error |
| AsyncTasks.MalformedWorkersRaise | rest_arch/async.py:30-35 | `async_workers: null` raises TypeError, and an entry without `name` raises KeyError after any well-formed entries before it |
| AsyncTasks.RouteForTask | rest_arch/async.py:112-120 | other tasks are not routed; `async_api` without args raises; the queue is `args[0]` or the `queue` option |
| AsyncTasks.RouteChoices | rest_arch/async.py:113-117 | a `queue` option that starts with the slug wins; one that does not is ignored; without the option a non-empty slug is its own queue and an empty slug gives no queue (None) |
| MockQueue.Create | rest_arch/mock_queue.py:22-28 | a signal task exactly when the service is None; api, args and kwargs kept |
| MockQueue.CallApi | rest_arch/mock_queue.py:30-47 | calls the API with exactly the positional args; a truthy `countdown` delays by that value, otherwise no delay |
| MockQueue.SlugOf | rest_arch/mock_queue.py:61 | the slug exists exactly when the key has a dot |
| MockQueue.Execute | rest_arch/mock_queue.py:50-65 | a plain task for `ees` (byte string or unicode) calls nothing; any other plain task calls its own service once |
| MockQueue.Subscribers | rest_arch/mock_queue.py:63-64 | exactly the client keys whose APIs include the signal |
| MockQueue.Planned | rest_arch/mock_queue.py:61-65 | each subscriber in order gets the call by its key's second piece, or no call when the key has no dot |
| MockQueue.Walk | rest_arch/mock_queue.py:63-65 | the calls made are the plan's calls, in order, from its start |
| MockQueue.WalkEnds | rest_arch/mock_queue.py:57-65 | every call but the last returned; without an exception the whole plan was called and none raised; with one, the next key had no dot or the last call raised |
| MockQueue.FanoutIsOverSubscribers | rest_arch/mock_queue.py:57-65 | walking all clients and skipping those without the signal is the same as carrying out the plan for the subscribers alone |
| MockQueue.FanoutCallsEverySubscriber | rest_arch/mock_queue.py:57-65 | with dotted keys and no failures, each subscriber is called once, in order, under its key's second piece |
| MockQueue.DotlessKeyStopsFanout | rest_arch/mock_queue.py:61-65 | a subscriber key without a dot raises before any call |
| MockQueue.Worker | rest_arch/mock_queue.py:68-74 | one task per dequeued tuple, in FIFO order |
| MockQueue.WorkerAppends | rest_arch/mock_queue.py:68-71 | a newly queued call becomes a task after the ones queued before it, which are unchanged |
| MockQueue.SentCallIsInvoked | rest_arch/async.py:46-49 | in memory mode a call sent to a service other than `ees` is dequeued after earlier calls and calls that service's API with the same args |
| AppConfig.Env | rest_arch/skt/config.py:58-60 | `dev` unless the machine file names an env |
| AppConfig.Cluster | rest_arch/skt/config.py:62-64 | None unless the machine file names a cluster |
| AppConfig.EmptyMachineIsDev | rest_arch/skt/env.py:18-27 | a machine without a file is dev, not prod, with no cluster |
| AppConfig.GetConf | rest_arch/skt/config.py:245-251 | a listed `services.<type>` section is used alone with the default; otherwise the root |
| AppConfig.SectionShadowsRoot | rest_arch/skt/config.py:248-250 | once the section exists the root's contents do not matter |
| AppConfig.AppName | rest_arch/skt/config.py:121-123 | the `app_name` entry, or KeyError |
| AppConfig.AppNameText | rest_arch/skt/config.py:121-123 | the app name's text when it is a string |
| AppConfig.AppSlug | rest_arch/skt/config.py:129-131 | a dot-free name: the text after the last dot, or the whole name |
| AppConfig.LoggerName | rest_arch/skt/config.py:188-190 | defined exactly when the app name is text |
| AppConfig.LoggerNameIsAppSlug | rest_arch/skt/config.py:188-190 | the logger name (last piece of `split`) equals the app slug (last piece of `rsplit`) |
| AppConfig.AppUri | rest_arch/skt/config.py:133-138 | the `app` entry; a missing one is a RuntimeError |
| AppConfig.AppUriFromSection | rest_arch/skt/config.py:133-138 | an app listed in `services` takes `app` from its own section, and a section without one is a RuntimeError whatever the root holds |
| AppConfig.ByAppName | rest_arch/skt/config.py:153 | a string name gives its map entry or the default; another hashable name gives the default; a list or dict name is a TypeError |
| AppConfig.Port | rest_arch/skt/config.py:144-153 | a truthy env port wins; in dev the class default; else the port map's entry for the app name (KeyError without one, TypeError for an unhashable one), else the default |
| AppConfig.PortMapOnlyOutsideDev | rest_arch/skt/config.py:148-153 | with an env port or in dev, the port map does not matter |
| AppConfig.PortOfListedApp | rest_arch/skt/config.py:153 | outside dev and without an env port, a listed app gets its entry and an unlisted one the class default |
| AppConfig.CanonicalPort | rest_arch/skt/config.py:155-169 | outside prod the port, and a failing port lookup (KeyError or TypeError for `app_name`) propagates unchanged; in prod the haproxy env port, else the haproxy map; a falsy result raises RuntimeError, or KeyError when `app_name` is missing for its message |
| AppConfig.DevPorts | rest_arch/skt/config.py:144-169 | in dev a wsgi app's port and canonical port are 8010, and a bare app's canonical port fails: RuntimeError, or KeyError without `app_name` |
| AppConfig.Workers | rest_arch/skt/config.py:171-179 | a truthy env count wins; outside prod 1; in prod the map's entry for the app name (KeyError without one, TypeError for an unhashable one), else 2 |
| AppConfig.WorkerMapOnlyInProd | rest_arch/skt/config.py:174-179 | with an env count or outside prod the worker map does not matter; an unlisted production app runs 2 workers |
| AppConfig.BindAddress | rest_arch/skt/config.py:185-186 | defined exactly for integers of either width and booleans, and starts with `0.0.0.0:` |
| AppConfig.AppBinds | rest_arch/skt/config.py:185-186 | the bind address of the port, failing when the port does |
| AppConfig.BindAddressRoundTrip | rest_arch/skt/config.py:185-186 | `int()` of the text after `0.0.0.0:` gives the port back, for an `int` or a `long` |
| AppConfig.AppBindsReadsBackPort | rest_arch/skt/config.py:144-186 | whatever integer port the app resolves to, its bind string reads back to it |
| AppConfig.MessageConsumers | rest_arch/skt/config.py:201-208 | the entry when present and truthy; otherwise AppConfigLoadFailException |
| AppConfig.ConsumersReadRootOnly | rest_arch/skt/config.py:201-208 | `message_consumer` is read from the root only: one held only by the class's `services` section is found by `_get_conf` but here gives AppConfigLoadFailException, and `services` never changes the answer |
| AppConfig.LastMention | rest_arch/skt/config.py:196-198 | the chosen line mentions `rest_arch` and no later line does; none is chosen only if no line does |
| AppConfig.ArchDeps | rest_arch/skt/config.py:192-199 | without a mention, the pin `rest_arch==<version>`; with one, exactly the stripped last mentioning line (the `or` fallback to the pin is never taken then) |
| AppConfig.MentionStripsNonEmpty | rest_arch/skt/config.py:197-199 | a line that mentions `rest_arch` never strips to the empty (falsy) text |
| AppConfig.ArchDepsLastLineWins | rest_arch/skt/config.py:192-199 | a later line mentioning `rest_arch` replaces the answer with its stripped text; lines not mentioning it leave the answer unchanged |
| Bootstrap.ValidateAppId | rest_arch/skt/cmds/bootstrap/__init__.py:71-79 | anything not splitting into two parts is rejected; an accepted id is returned unchanged |
| Bootstrap.AppIdAcceptedIff | rest_arch/skt/cmds/bootstrap/__init__.py:72-79 | `team.proj` is accepted exactly when both parts are lower case |
| Bootstrap.AcceptedAppIdShape | rest_arch/skt/cmds/bootstrap/__init__.py:71-79 | every accepted id is two dot-free lower-case words joined by a dot |
| Bootstrap.ValidateServiceName | rest_arch/skt/cmds/bootstrap/__init__.py:82-91 | accepted exactly when non-empty, all letters, capitalised; empty and non-letter names get their own errors |
| Bootstrap.RenderFilename | rest_arch/skt/cmds/bootstrap/__init__.py:49-52 | a given filename is kept; otherwise the template must end in `.jinja` and the name is the template without it |
| Bootstrap.RenderFilenameOfTemplate | rest_arch/skt/cmds/bootstrap/__init__.py:49-52 | stripping the suffix is undone by adding it back |
| Bootstrap.AppSlug | rest_arch/skt/cmds/bootstrap/__init__.py:105 | a slug exists exactly when the id has at least two parts |
| Bootstrap.SlugOfValidAppId | rest_arch/skt/cmds/bootstrap/__init__.py:105 | for a validated `team.proj` the slug is `proj` |
| Bump.SanitizePiece | tools/bump.py:10-15 | a piece that `int()` accepts (whitespace allowed after a sign) becomes that integer (an `int` within ±`sys.maxint`, else a `long`); any other stays its stripped text |
| Bump.SanitizePieces | tools/bump.py:9-15 | one element per piece, in order |
| Bump.Pieces | tools/bump.py:9 | one more piece than dots in the stripped input |
| Bump.PiecesOfSpaceFree | tools/bump.py:9 | a version without whitespace is split as it stands |
| Bump.Sanitize | tools/bump.py:7-16 | one element per piece, in order, each the sanitised piece |
| Bump.RenderAllAsWritten | tools/bump.py:21-22 | one text per element, as written |
| Bump.RenderAll | tools/bump.py:21-22 | one text per element, every integer in decimal |
| Bump.VerStrAgreesWithinInt | tools/bump.py:19-22 | when no piece exceeds `sys.maxint`, the code as written and the corrected one produce the same text |
| Bump.LongPieceGetsSuffix | tools/bump.py:21 | a numeral above `sys.maxint` is written with a trailing `L`; corrected, it is the numeral alone |
| SetupVersion.Search | setup.py:11 | the match uses the last marker position with a `)` after it |
| SetupVersion.ExtractGroup | setup.py:11-12 | no group exactly when no marker has a `)` after it; the group never contains `)` |
| SetupVersion.Normalise | setup.py:13 | never longer than its input; no quote, comma or whitespace survives |
| SetupVersion.GetVersion | setup.py:11-13 | a version is found exactly when some marker has a `)` after it |
| SetupVersion.NormaliseAppend | setup.py:13 | the clean-up works character by character, so it distributes over concatenation |
| SetupVersion.NormaliseOfPlain | setup.py:13 | text without quotes, commas or whitespace is unchanged |
| SetupVersion.NormaliseIdempotent | setup.py:13 | cleaning twice is cleaning once |
| SetupVersion.NormaliseJoin | setup.py:13 | a `, `-joined tuple text reads back as the pieces joined by dots |
| SetupVersion.ExtractsLastVersionLine | setup.py:11-12 | with the last marker followed by a `)`-free body and `)`, the group is exactly that body |
| SetupVersion.Canonical | tools/bump.py:12 | a numeral becomes its decimal form without leading zeros and keeps its value; other text is unchanged |
| SetupVersion.ParseIntOfAlnum | tools/bump.py:10-14 | an alphanumeric piece parses exactly when it is a numeral |
| SetupVersion.PlainReadsBack | setup.py:13 | plain text is unchanged by the clean-up |
| SetupVersion.NumeralPieceRendered | tools/bump.py:11-22 | a numeral piece is written as its canonical decimal |
| SetupVersion.WordPieceRendered | tools/bump.py:13-21 | a non-numeric alphanumeric piece is written between single quotes |
| SetupVersion.QuotedReadsBack | setup.py:13 | a quoted plain word reads back as the word |
| SetupVersion.RenderedPieceReadsBack | setup.py:13 | each written piece has no `)` and reads back as its canonical form |
| SetupVersion.PiecesOfJoin | tools/bump.py:9-10 | a dotted version of alphanumeric pieces splits back into those pieces |
| SetupVersion.BodyReadsBack | setup.py:13 | the tuple text written for alphanumeric pieces has no `)` and reads back as the canonical pieces joined by dots |
| SetupVersion.VersionRoundTrip | setup.py:11-13 | writing a version of alphanumeric pieces into a file with no later `version_info = (` and reading it back gives the pieces joined by dots, numerals in canonical decimal |
| SetupVersion.LongVersionReadsBackWithL | setup.py:11-13 | as written, a version above `sys.maxint` reads back with an `L` appended |
| SetupVersion.SuffixedReadsBack | setup.py:13 | a numeral followed by `L` has no `)` and survives the clean-up |
| Text.SplitJoin | tools/bump.py:9 | joining the pieces of `split` with the separator rebuilds the text |
| Text.JoinSplit | rest_arch/skt/cmds/bootstrap/__init__.py:72 | splitting separator-free parts joined by the separator gives the parts back |
| Text.RSplitLastIsSplitLast | rest_arch/skt/config.py:131 | the last piece of `rsplit(sep, 1)` is the last piece of `split(sep)` |
| Text.ParseIntOfDecimal | rest_arch/skt/config.py:186 | `int(str(i)) == i` for every integer |
| Text.ParseIntSpaceAfterSign | tools/bump.py:12 | `int()` skips whitespace between the sign and the digits: `int('- 5') == -5` |
| Text.NonSpaceSurvivesStrip | rest_arch/skt/config.py:198 | `strip()` keeps every non-whitespace character, at its place after the removed leading whitespace |
| Py.ReprOfAlnum | tools/bump.py:21 | `repr` of letters and digits is the text in single quotes |
| Py.Utf8OfAscii | rest_arch/log.py:12 | encoding ASCII unicode to UTF-8 leaves the text unchanged |

## Left out

- Concurrency and timing are not modelled. This covers threads, thread-locals, `threading.local` identity, the gevent timeouts and sleeps, and the daemon worker thread. Time and threads are not values here. The thread id is a parameter.
- The SQLAlchemy side of the database layer is not modelled, because it is foreign library state and reflection. This covers:
  - engine creation and the pool patch;
  - `close_connections` invalidation;
  - `gen_id`;
  - the SQL logger;
  - the `ModelMeta` metaclass;
  - `gen_commit_deco`.

  `Db.CloseSessions` records only whether invalidation and removal happen. Whether the registry already holds a session for the current scope is a parameter, and an exception from `close_connections` is not modelled.
- Celery is not modelled. This covers `Celery()` construction, `apply_async` and `Task.retry`'s own bookkeeping. `Drive` models only its budget test. These are foreign calls.
- `find_client` and `run_api` are not modelled, and neither are the client context managers. The client's answer is an input: `Attempt` in `AsyncTasks`, `raises` in `MockQueue`.
- YAML loading, file reads and writes, `sys.exit`, `mkdir_p`, git init and the `os.system` call in `tools/bump.py:26` are I/O. Parsed dictionaries and file lines are inputs.
- `from_object` and `import_module` are left out: the settings source is given as its `dir()` entries in order.
- The `HEAD` side of the merge conflict in `rest_arch/conf.py` is not modelled. The registry follows the `master` side.
- CeleryConfig loading in `_after_update_config` is not modelled, because it is unreachable: the hook raises before it (`Conf.AppGateAlwaysRaises`).
- `env.require('gevent_patched')` in the context constructor is an environment check and is left out.
- `hasattr` guards on thread-locals are left out; the model always has the attribute.
- Floats are not modelled, except the jitter factor as a real. `obj2str` and `str` of a float, and `isinstance(x, float)`, are outside the `Obj` values.
- Case and character classes are ASCII only. `islower`, `isupper`, `isalpha` and `strip` are not modelled on non-ASCII unicode.
- The format of `repr` for values other than byte strings is an input function `reprOf`.
- AsyncTasks.TaskSettings: `ASYNC_ENABLED`, `USE_MEMORY_MQ` and the `TASK_*` values are inputs. The registry built by `Config` (rest_arch/conf.py:188-201, 226) lists none of them, so these reads raise: a KeyError before loading and an AttributeError after (rest_arch/async.py:15, 29, 47, 57; rest_arch/mock_queue.py:76). `AsyncTasks` and `MockQueue` therefore model the async layer as it would run under a registry that lists these names.
- AsyncTasks.WorkerName: a hashable `name` that is not text (a number, a boolean or `null`) is registered by Python under a non-string key. The queue table here is keyed by text, so the model stops with `NonTextName` there.
- Py.StrOf: `str` of a value other than a string, number, boolean or `None` is taken to be its `repr`, the `reprOf` input. A class with its own `__str__`, such as a `uuid.UUID` request id, prints differently under `str`. So for such values the required block of a log line (`Log.RequiredMeta`) and the comment of `Db.SqlCommenter` may differ from the source.
- Log.Exit: when a `pop` fails part-way, the keys already popped are not tracked. The model reports only that the exit raised.
- Log.FormatLine: an encoding error from `'{0}'.format` on non-ASCII unicode is not modelled.
- Db.GetBind: `random.choice` is an index `pick` reduced modulo the slave count, not a random draw.
- Db.RecycleSeconds: `random.uniform` is a real `u` in [0.75, 1]. Rounding of the float product is not modelled.
- AsyncTasks.SendTask: the broker message is a record of what is published; celery's routing of it is not modelled.
- SetupVersion.VersionRoundTrip: the round trip is proved for versions whose pieces are letters and digits only. Pieces with quotes, spaces, commas, backslashes or `)` are not covered, because the clean-up does not undo `repr` escapes.
- SetupVersion.GetVersion: `re.S` matching is modelled through the marker positions and the first `)` after one. Other regular-expression behaviour is not modelled.

## Findings

| source | as written | input that shows it | evidently intended | confidence | as-written member | corrected member |
|---|---|---|---|---|---|---|
| tools/bump.py:21 | `isinstance(point, int)` excludes Python 2 `long`, so a piece above `sys.maxint` is written with `repr`, which appends `L`; `setup.py` then reads the version back with that `L` | version `9223372036854775808` is written as `9223372036854775808L` and read back as `9223372036854775808L` | every integer piece is written in decimal (`isinstance(point, (int, long))`), so the version reads back as written | not executed | Bump.LongPieceGetsSuffix | SetupVersion.VersionRoundTrip |

=== FILE: app_config.dfy ===
/** The machine and application configuration lookups: the environment name
    and cluster from the machine file, and from the app file the
    `services.<type>` lookup precedence, the app slug and logger name, the
    port, canonical port and worker count chosen from environment variables,
    the environment and port maps, the bind address, the message consumers
    and the pinned framework requirement. The YAML files are given as their
    parsed root dictionaries; environment variables as the value
    `EnvvarReader.get_int` returned (an integer or None). */
module AppConfig {
  import opened Wrappers
  import opened Py
  import Text

  const DefaultAppPort: int := 8010
  const DefaultWorkersDev: int := 1
  const DefaultWorkersProd: int := 2

  datatype AppError =
    | MissingKey(key: string)        // KeyError from `config[key]`
    | NotText(what: string)          // a string method called on a non-string
    | NotADict(what: string)         // `.get` called on a non-dict
    | NotAContainer                  // `in` on a value that is not a container
    | Unsubscriptable                // `services[type]` on a list or a string
    | MissingApp                     // RuntimeError: no `app`
    | NoCanonicalPort                // RuntimeError: no canonical port
    | NoConsumers                    // AppConfigLoadFailException
    | BadPortFormat                  // TypeError from `'%d' % port`
    | Unhashable                     // TypeError: a list or dict used as a dict key

  // ---------------------------------------------------------------------------
  // the machine configuration

  /** `ArchConfig.env`: `dev` unless the file says otherwise. */
  function Env(arch: map<string, Obj>): (e: Obj)
    ensures "env" !in arch ==> e == Str("dev")
    ensures "env" in arch ==> e == arch["env"]
  {
    Get(arch, "env").GetOr(Str("dev"))
  }

  /** `ArchConfig.cluster`: None unless the file names one. */
  function Cluster(arch: map<string, Obj>): (c: Obj)
    ensures "cluster" !in arch ==> c == NoneObj
    ensures "cluster" in arch ==> c == arch["cluster"]
  {
    Get(arch, "cluster").GetOr(NoneObj)
  }

  predicate IsInDev(arch: map<string, Obj>) {
    TextOf(Env(arch)) == Some("dev")
  }

  predicate IsInProd(arch: map<string, Obj>) {
    TextOf(Env(arch)) == Some("prod")
  }

  /** A machine without a configuration file is a development machine. */
  lemma EmptyMachineIsDev()
    ensures IsInDev(map[]) && !IsInProd(map[]) && Cluster(map[]) == NoneObj
  {
  }

  // ---------------------------------------------------------------------------
  // the application configuration

  /** `BareAppConfig` and its `WsgiAppConfig` subclass differ in their type
      name and defaults. */
  datatype AppClass = Bare | Wsgi

  function TypeName(cls: AppClass): string {
    match cls
    case Bare => "bare"
    case Wsgi => "wsgi"
  }

  function DefaultPort(cls: AppClass): Obj {
    match cls
    case Bare => NoneObj
    case Wsgi => Int(DefaultAppPort)
  }

  /** Python's `x in container` for the containers YAML produces. */
  function Contains(container: Obj, x: string): (r: Result<bool, AppError>)
  {
    match container
    case Dict(m) => Success(x in m)
    case List(xs) => Success(Str(x) in xs || Unicode(x) in xs)
    case Str(s) => Success(Text.Contains(s, x))
    case Unicode(u) => Success(Text.Contains(u, x))
    case _ => Failure(NotAContainer)
  }

  /** `_get_conf`: when `services` lists the class's type, the lookup is made
      in that section alone (with the default); otherwise in the root. */
  function GetConf(cls: AppClass, config: map<string, Obj>, key: string, default: Obj)
    : (r: Result<Obj, AppError>)
    ensures "services" !in config ==> r == Success(Get(config, key).GetOr(default))
    ensures "services" in config && config["services"].Dict?
            && TypeName(cls) in config["services"].items
            && config["services"].items[TypeName(cls)].Dict? ==>
              r == Success(Get(config["services"].items[TypeName(cls)].items, key).GetOr(default))
    ensures "services" in config && config["services"].Dict?
            && TypeName(cls) !in config["services"].items ==>
              r == Success(Get(config, key).GetOr(default))
  {
    if "services" !in config then Success(Get(config, key).GetOr(default))
    else
      var listed :- Contains(config["services"], TypeName(cls));
      if !listed then Success(Get(config, key).GetOr(default))
      else match config["services"]
        case Dict(services) =>
          (match services[TypeName(cls)]
           case Dict(section) => Success(Get(section, key).GetOr(default))
           case _ => Failure(NotADict("services." + TypeName(cls))))
        case _ => Failure(Unsubscriptable)
  }

  /** Once the class's section exists, the root is never consulted: two
      files with the same `services` give the same answer whatever else
      their roots hold. */
  lemma SectionShadowsRoot(cls: AppClass, c1: map<string, Obj>, c2: map<string, Obj>,
                           key: string, default: Obj)
    requires "services" in c1 && "services" in c2 && c1["services"] == c2["services"]
    requires c1["services"].Dict? && TypeName(cls) in c1["services"].items
    ensures GetConf(cls, c1, key, default) == GetConf(cls, c2, key, default)
  {
  }

  /** `app_name`: a KeyError when the file has none. */
  function AppName(config: map<string, Obj>): (r: Result<Obj, AppError>)
    ensures r.Success? <==> "app_name" in config
    ensures r.Success? ==> r.value == config["app_name"]
  {
    if "app_name" in config then Success(config["app_name"]) else Failure(MissingKey("app_name"))
  }

  function AppNameText(config: map<string, Obj>): (r: Result<string, AppError>)
    ensures r.Success? <==> "app_name" in config && TextOf(config["app_name"]).Some?
    ensures r.Success? ==> r.value == TextOf(config["app_name"]).value
  {
    var name :- AppName(config);
    match TextOf(name)
    case Some(t) => Success(t)
    case None => Failure(NotText("app_name"))
  }

  /** `app_slug`: the part of the app name after its last dot, or the whole
      name when it has none. */
  function AppSlug(config: map<string, Obj>): (r: Result<string, AppError>)
    ensures r.Success? <==> AppNameText(config).Success?
    ensures r.Success? ==> '.' !in r.value
    ensures r.Success? && '.' !in AppNameText(config).value ==> r.value == AppNameText(config).value
    ensures r.Success? && '.' in AppNameText(config).value ==>
              Text.EndsWith(AppNameText(config).value, "." + r.value)
  {
    var name :- AppNameText(config);
    var parts := Text.RSplitOnce(name, '.');
    match Text.LastIndexOf(name, '.')
    case None => Success(parts[0])
    case Some(k) =>
      assert name == name[..k] + "." + name[k + 1..];
      Success(parts[1])
  }

  /** `logger_name`: the last piece of the app name split on dots. */
  function LoggerName(config: map<string, Obj>): (r: Result<string, AppError>)
    ensures r.Success? <==> AppNameText(config).Success?
  {
    var name :- AppNameText(config);
    var parts := Text.Split(name, '.');
    Success(parts[|parts| - 1])
  }

  /** The two names are computed differently but always agree. */
  lemma LoggerNameIsAppSlug(config: map<string, Obj>)
    ensures LoggerName(config) == AppSlug(config)
  {
    if AppNameText(config).Success? {
      Text.RSplitLastIsSplitLast(AppNameText(config).value, '.');
    }
  }

  /** `app_uri`: the `app` entry; its absence is a RuntimeError. */
  function AppUri(cls: AppClass, config: map<string, Obj>): (r: Result<Obj, AppError>)
    ensures r.Success? ==> r.value != NoneObj
    ensures GetConf(cls, config, "app", NoneObj) == Success(NoneObj) ==> r == Failure(MissingApp)
    ensures GetConf(cls, config, "app", NoneObj).Success?
            && GetConf(cls, config, "app", NoneObj).value != NoneObj ==>
              r == GetConf(cls, config, "app", NoneObj)
  {
    var app :- GetConf(cls, config, "app", NoneObj);
    if app == NoneObj then Failure(MissingApp) else Success(app)
  }

  /** `m.get(name, default)` for a map keyed by app name. A string matches
      the key with the same text; any other hashable value matches no key;
      a list or a dictionary cannot be a key at all, a TypeError. */
  function ByAppName(m: map<string, Obj>, name: Obj, default: Obj): (r: Result<Obj, AppError>)
    ensures r.Failure? <==> name.List? || name.Dict?
    ensures r.Failure? ==> r.error == Unhashable
    ensures TextOf(name).Some? ==> r == Success(Get(m, TextOf(name).value).GetOr(default))
    ensures r.Success? && TextOf(name).None? ==> r.value == default
  {
    match name
    case List(_) => Failure(Unhashable)
    case Dict(_) => Failure(Unhashable)
    case _ =>
      match TextOf(name)
      case Some(t) => Success(Get(m, t).GetOr(default))
      case None => Success(default)
  }

  /** `port`: a truthy `SKT_APP_PORT` wins; in development the class default
      is used; elsewhere the port map's entry for the app, else the default. */
  function Port(cls: AppClass, config: map<string, Obj>, arch: map<string, Obj>,
                envPort: Obj, portMap: map<string, Obj>): (r: Result<Obj, AppError>)
    ensures Truthy(envPort) ==> r == Success(envPort)
    ensures !Truthy(envPort) && IsInDev(arch) ==> r == Success(DefaultPort(cls))
    ensures !Truthy(envPort) && !IsInDev(arch) ==>
              (if "app_name" in config then r == ByAppName(portMap, config["app_name"], DefaultPort(cls))
               else r == Failure(MissingKey("app_name")))
  {
    if Truthy(envPort) then Success(envPort)
    else if IsInDev(arch) then Success(DefaultPort(cls))
    else
      var name :- AppName(config);
      ByAppName(portMap, name, DefaultPort(cls))
  }

  /** The port map is consulted only outside development and only when no
      port is set in the environment. */
  lemma PortMapOnlyOutsideDev(cls: AppClass, config: map<string, Obj>, arch: map<string, Obj>,
                              envPort: Obj, m1: map<string, Obj>, m2: map<string, Obj>)
    requires Truthy(envPort) || IsInDev(arch)
    ensures Port(cls, config, arch, envPort, m1) == Port(cls, config, arch, envPort, m2)
  {
  }

  /** Outside development an app listed in the port map under its name gets
      that entry; an app the map does not list gets the class default. */
  lemma PortOfListedApp(cls: AppClass, config: map<string, Obj>, arch: map<string, Obj>,
                        envPort: Obj, portMap: map<string, Obj>, name: string)
    requires !Truthy(envPort) && !IsInDev(arch)
    requires "app_name" in config && TextOf(config["app_name"]) == Some(name)
    ensures name in portMap ==> Port(cls, config, arch, envPort, portMap) == Success(portMap[name])
    ensures name !in portMap ==> Port(cls, config, arch, envPort, portMap) == Success(DefaultPort(cls))
  {
  }

  /** `canonical_port`: outside production the port; in production the
      `SKT_APP_HAPROXY_PORT` variable, else the haproxy map's entry. A falsy
      answer is a RuntimeError, whose message reads `app_name` first, so
      without one it is that KeyError instead. Outside production a port
      lookup that fails propagates its own error. */
  function CanonicalPort(cls: AppClass, config: map<string, Obj>, arch: map<string, Obj>,
                         envPort: Obj, portMap: map<string, Obj>,
                         envHaproxyPort: Obj, haproxyMap: map<string, Obj>)
    : (r: Result<Obj, AppError>)
    ensures r.Success? ==> Truthy(r.value)
    ensures !IsInProd(arch) && Port(cls, config, arch, envPort, portMap).Success? ==>
              r == (if Truthy(Port(cls, config, arch, envPort, portMap).value)
                    then Port(cls, config, arch, envPort, portMap)
                    else if "app_name" in config then Failure(NoCanonicalPort)
                    else Failure(MissingKey("app_name")))
    ensures !IsInProd(arch) && Port(cls, config, arch, envPort, portMap).Failure? ==>
              r == Port(cls, config, arch, envPort, portMap)
    ensures IsInProd(arch) && Truthy(envHaproxyPort) ==> r == Success(envHaproxyPort)
    ensures IsInProd(arch) && !Truthy(envHaproxyPort) ==>
              (if "app_name" !in config then r == Failure(MissingKey("app_name"))
               else match ByAppName(haproxyMap, config["app_name"], NoneObj)
                 case Failure(e) => r == Failure(e)
                 case Success(p) => r == (if Truthy(p) then Success(p) else Failure(NoCanonicalPort)))
  {
    var port :-
      if !IsInProd(arch) then Port(cls, config, arch, envPort, portMap)
      else if Truthy(envHaproxyPort) then Success(envHaproxyPort)
      else
        var name :- AppName(config);
        ByAppName(haproxyMap, name, NoneObj);
    if !Truthy(port) then
      var _ :- AppName(config);
      Failure(NoCanonicalPort)
    else Success(port)
  }

  /** A development wsgi app without an explicit port listens on 8010, and
      that is also its canonical port; a bare app has none, so asking for
      its canonical port fails, with a KeyError when the file has no
      `app_name` to name in the message. */
  lemma DevPorts(config: map<string, Obj>, arch: map<string, Obj>, portMap: map<string, Obj>,
                 haproxyMap: map<string, Obj>, envHaproxyPort: Obj)
    requires IsInDev(arch)
    ensures Port(Wsgi, config, arch, NoneObj, portMap) == Success(Int(8010))
    ensures CanonicalPort(Wsgi, config, arch, NoneObj, portMap, envHaproxyPort, haproxyMap)
            == Success(Int(8010))
    ensures CanonicalPort(Bare, config, arch, NoneObj, portMap, envHaproxyPort, haproxyMap)
            == if "app_name" in config then Failure(NoCanonicalPort) else Failure(MissingKey("app_name"))
  {
  }

  /** `get_app_n_workers`: a truthy `SKT_APP_WORKER_NUM` wins; outside
      production one worker; in production the worker map's entry for the
      app, else two. */
  function Workers(config: map<string, Obj>, arch: map<string, Obj>, envWorkers: Obj,
                   workerMap: map<string, Obj>): (r: Result<Obj, AppError>)
    ensures Truthy(envWorkers) ==> r == Success(envWorkers)
    ensures !Truthy(envWorkers) && !IsInProd(arch) ==> r == Success(Int(DefaultWorkersDev))
    ensures !Truthy(envWorkers) && IsInProd(arch) ==>
              (if "app_name" in config
               then r == ByAppName(workerMap, config["app_name"], Int(DefaultWorkersProd))
               else r == Failure(MissingKey("app_name")))
  {
    if Truthy(envWorkers) then Success(envWorkers)
    else if !IsInProd(arch) then Success(Int(DefaultWorkersDev))
    else
      var name :- AppName(config);
      ByAppName(workerMap, name, Int(DefaultWorkersProd))
  }

  /** The worker map is consulted only in production and only when no count
      is set in the environment; a production app the map does not list
      runs two workers. */
  lemma WorkerMapOnlyInProd(config: map<string, Obj>, arch: map<string, Obj>, envWorkers: Obj,
                            m1: map<string, Obj>, m2: map<string, Obj>, name: string)
    ensures Truthy(envWorkers) || !IsInProd(arch) ==>
              Workers(config, arch, envWorkers, m1) == Workers(config, arch, envWorkers, m2)
    ensures !Truthy(envWorkers) && IsInProd(arch) && "app_name" in config
            && TextOf(config["app_name"]) == Some(name) && name !in m1 ==>
              Workers(config, arch, envWorkers, m1) == Success(Int(2))
  {
  }

  /** `'0.0.0.0:%d' % port`: integers of either width (booleans included)
      print in decimal; anything else is a TypeError. */
  function BindAddress(port: Obj): (r: Result<string, AppError>)
    ensures r.Success? <==> IsInstance(port, IntType) || port.Long?
    ensures r.Success? ==> Text.StartsWith(r.value, "0.0.0.0:")
  {
    match port
    case Int(p) => Success("0.0.0.0:" + Text.IntToDecimal(p))
    case Long(p) => Success("0.0.0.0:" + Text.IntToDecimal(p))
    case Bool(b) => Success("0.0.0.0:" + Text.IntToDecimal(if b then 1 else 0))
    case _ => Failure(BadPortFormat)
  }

  /** `get_app_binds`: the bind address of `port`. */
  function AppBinds(cls: AppClass, config: map<string, Obj>, arch: map<string, Obj>,
                    envPort: Obj, portMap: map<string, Obj>): (r: Result<string, AppError>)
    ensures Port(cls, config, arch, envPort, portMap).Failure? ==> r.Failure?
    ensures Port(cls, config, arch, envPort, portMap).Success? ==>
              r == BindAddress(Port(cls, config, arch, envPort, portMap).value)
  {
    var port :- Port(cls, config, arch, envPort, portMap);
    BindAddress(port)
  }

  /** The port can be read back from the bind address: the text after
      `0.0.0.0:` parses to it, whether it is an `int` or a `long`. */
  lemma BindAddressRoundTrip(p: int)
    ensures BindAddress(Long(p)).Success?
    ensures Text.ParseInt(BindAddress(Long(p)).value[|"0.0.0.0:"|..]) == Some(p)
    ensures -MaxInt - 1 <= p <= MaxInt ==> BindAddress(Int(p)) == BindAddress(Long(p))
  {
    var a := BindAddress(Long(p)).value;
    assert a[|"0.0.0.0:"|..] == Text.IntToDecimal(p);
    Text.ParseIntOfDecimal(p);
  }

  /** Whatever integer port the app resolves to, its bind address reads back
      to that port. */
  lemma AppBindsReadsBackPort(cls: AppClass, config: map<string, Obj>, arch: map<string, Obj>,
                              envPort: Obj, portMap: map<string, Obj>, p: MachineInt)
    requires Port(cls, config, arch, envPort, portMap) == Success(Int(p))
    ensures AppBinds(cls, config, arch, envPort, portMap).Success?
    ensures Text.ParseInt(AppBinds(cls, config, arch, envPort, portMap).value[|"0.0.0.0:"|..]) == Some(p as int)
  {
    BindAddressRoundTrip(p);
  }

  /** An app listed in `services` takes its `app` from its own section; the
      root's `app` is never seen. */
  lemma AppUriFromSection(cls: AppClass, config: map<string, Obj>, section: map<string, Obj>)
    requires "services" in config && config["services"].Dict?
    requires TypeName(cls) in config["services"].items
    requires config["services"].items[TypeName(cls)] == Dict(section)
    ensures "app" !in section ==> AppUri(cls, config) == Failure(MissingApp)
    ensures "app" in section && section["app"] != NoneObj ==> AppUri(cls, config) == Success(section["app"])
  {
  }

  /** `message_consumers`: an absent or empty `message_consumer` entry is an
      error. */
  function MessageConsumers(config: map<string, Obj>): (r: Result<Obj, AppError>)
    ensures r.Success? <==> "message_consumer" in config && Truthy(config["message_consumer"])
    ensures r.Success? ==> r.value == config["message_consumer"]
    ensures r.Failure? ==> r.error == NoConsumers
  {
    var consumers := Get(config, "message_consumer").GetOr(NoneObj);
    if !Truthy(consumers) then Failure(NoConsumers) else Success(consumers)
  }

  /** `message_consumers` reads the root with `self.config.get`, not
      `_get_conf`: a `message_consumer` that only the class's `services`
      section holds is found by `_get_conf` but not here, and the root alone
      decides. */
  lemma ConsumersReadRootOnly(cls: AppClass, config: map<string, Obj>, section: map<string, Obj>,
                              services: Obj)
    requires "services" in config && config["services"].Dict?
    requires TypeName(cls) in config["services"].items
    requires config["services"].items[TypeName(cls)] == Dict(section)
    requires "message_consumer" !in config
    requires "message_consumer" in section && Truthy(section["message_consumer"])
    ensures GetConf(cls, config, "message_consumer", NoneObj) == Success(section["message_consumer"])
    ensures MessageConsumers(config) == Failure(NoConsumers)
    ensures MessageConsumers(config["services" := services]) == MessageConsumers(config)
  {
  }

  /** A line that mentions `rest_arch` keeps its `r` when stripped, so it
      never strips to the empty text that would fall back to the pin. */
  lemma MentionStripsNonEmpty(line: string)
    requires Text.Contains(line, "rest_arch")
    ensures |Text.Strip(line)| > 0
  {
    var i: nat :| i <= |line| && Text.OccursAt(line, "rest_arch", i);
    assert line[i..i + 9][0] == 'r';
    Text.NonSpaceSurvivesStrip(line, i);
  }

  /** `arch_deps`: the last line of the requirements file that mentions
      `rest_arch`, stripped; without one, a pin on the running version. */
  function ArchDeps(lines: seq<string>, version: string): (r: string)
    ensures (forall i :: 0 <= i < |lines| ==> !Text.Contains(lines[i], "rest_arch")) ==>
              r == "rest_arch==" + version
    ensures forall i :: 0 <= i < |lines| && Text.Contains(lines[i], "rest_arch")
                        && (forall j :: i < j < |lines| ==> !Text.Contains(lines[j], "rest_arch")) ==>
              r == Text.Strip(lines[i])
  {
    match LastMention(lines)
    case Some(line) =>
      MentionStripsNonEmpty(line);
      if |Text.Strip(line)| > 0 then Text.Strip(line) else "rest_arch==" + version
    case None => "rest_arch==" + version
  }

  function LastMention(lines: seq<string>): (r: Option<string>)
    ensures r.Some? ==> exists i :: 0 <= i < |lines| && lines[i] == r.value
                          && Text.Contains(lines[i], "rest_arch")
                          && forall j :: i < j < |lines| ==> !Text.Contains(lines[j], "rest_arch")
    ensures r.None? ==> forall i :: 0 <= i < |lines| ==> !Text.Contains(lines[i], "rest_arch")
  {
    if |lines| == 0 then None
    else if Text.Contains(lines[|lines| - 1], "rest_arch") then Some(lines[|lines| - 1])
    else LastMention(lines[..|lines| - 1])
  }

  /** Reading one more line: a line that mentions `rest_arch` replaces the
      answer, any other line leaves it as it was. */
  lemma ArchDepsLastLineWins(lines: seq<string>, line: string, version: string)
    ensures Text.Contains(line, "rest_arch") ==>
              ArchDeps(lines + [line], version) == Text.Strip(line)
    ensures !Text.Contains(line, "rest_arch") ==>
              ArchDeps(lines + [line], version) == ArchDeps(lines, version)
  {
    assert (lines + [line])[..|lines|] == lines;
  }
}

=== FILE: async_tasks.dfy ===
/** Asynchronous API calls: dispatching a call to the in-memory queue or the
    broker, the worker-side wrapper that drops some calls and asks for
    retries with a delay and budget depending on the error, the broker
    queue table built from the app's `async_workers`, and the router that
    picks a call's queue. Celery and the broker are outside the model; what
    `Task.retry` does with a retry request is modelled separately, as
    `Drive`, from celery's documented behaviour. */
module AsyncTasks {
  import opened Wrappers
  import opened Py
  import Text

  /** The settings the async layer reads. */
  datatype TaskSettings = TaskSettings(
    useMemoryMq: bool,
    maxRetry: Obj,            // TASK_MAX_RETRY_COUNT, `async_api`'s own default
    teMaxRetry: Obj,          // TASK_TE_MAX_RETRY_COUNT
    thriftErrorWait: Obj,     // TASK_THRIFT_ERROR_RETRY_WAIT
    ueMaxRetry: Obj,          // TASK_UE_MAX_RETRY_COUNT
    unknownErrorWait: Obj)    // TASK_UNKOWN_ERROR_RETRY_WAIT

  /** A `(service_slug, api, args, kwargs)` tuple. */
  datatype QueuedCall = QueuedCall(service: Obj, api: string, args: seq<Obj>, kwargs: map<string, Obj>)

  /** What a published broker message carries: its positional and
      keyword arguments, and the `apply_async` options. */
  datatype Message = Message(taskArgs: seq<Obj>, taskKwargs: map<string, Obj>, options: map<string, Obj>)

  datatype Dispatch = Enqueued(queue: seq<QueuedCall>) | Published(message: Message)

  /** `send_task`: in memory mode the call joins the tail of the in-process
      queue; otherwise it is published as an `async_api` task whose keyword
      arguments double as the publishing options. */
  function SendTask(useMemoryMq: bool, queue: seq<QueuedCall>, service: Obj, api: string,
                    args: seq<Obj>, kwargs: map<string, Obj>): (d: Dispatch)
    ensures d.Enqueued? <==> useMemoryMq
    ensures d.Enqueued? ==> |d.queue| == |queue| + 1 && d.queue[..|queue|] == queue
                            && d.queue[|queue|] == QueuedCall(service, api, args, kwargs)
    ensures d.Published? ==> |d.message.taskArgs| == 2 + |args|
                             && d.message.taskArgs[0] == service && d.message.taskArgs[1] == Str(api)
                             && d.message.taskArgs[2..] == args
                             && d.message.taskKwargs == kwargs && d.message.options == kwargs
  {
    if useMemoryMq then Enqueued(queue + [QueuedCall(service, api, args, kwargs)])
    else Published(Message([service, Str(api)] + args, kwargs, kwargs))
  }

  /** The calls `async_api` drops without calling anything: every call to
      `ess` and `tds`, and three order signals of `biz.member`. Python 2
      compares `str` and `unicode` by their text, so a slug arriving as
      unicode is dropped alike. */
  predicate Suppressed(service: Obj, api: string) {
    TextOf(service) == Some("ess") || TextOf(service) == Some("tds")
    || (TextOf(service) == Some("biz.member")
        && (api == "signal_post_make_order" || api == "signal_post_process_order"
            || api == "signal_post_process_refund"))
  }

  /** How one execution of the remote call ended: a value, an error the
      client declares (`client.error`), or any other exception. */
  datatype Attempt = Returned(value: Obj) | ClientError | OtherError

  datatype RetryRequest = RetryRequest(countdown: Obj, maxRetries: Obj)

  /** What one run of the `async_api` task does. */
  datatype TaskRun = Dropped | Done | RetryAsked(request: RetryRequest)

  /** The `retry_exc` wrapper: a declared client error asks for a retry
      with the transport-error budget and wait, any other exception with the
      unknown-error ones; the call's own `max_retries`/`retry_wait` keyword
      arguments override either. */
  function RetryFor(s: TaskSettings, kwargs: map<string, Obj>, a: Attempt): (r: Option<RetryRequest>)
    ensures r.None? <==> a.Returned?
    ensures a.ClientError? ==>
              r == Some(RetryRequest(Get(kwargs, "retry_wait").GetOr(s.thriftErrorWait),
                                     Get(kwargs, "max_retries").GetOr(s.teMaxRetry)))
    ensures a.OtherError? ==>
              r == Some(RetryRequest(Get(kwargs, "retry_wait").GetOr(s.unknownErrorWait),
                                     Get(kwargs, "max_retries").GetOr(s.ueMaxRetry)))
  {
    match a
    case Returned(_) => None
    case ClientError =>
      Some(RetryRequest(Get(kwargs, "retry_wait").GetOr(s.thriftErrorWait),
                        Get(kwargs, "max_retries").GetOr(s.teMaxRetry)))
    case OtherError =>
      Some(RetryRequest(Get(kwargs, "retry_wait").GetOr(s.unknownErrorWait),
                        Get(kwargs, "max_retries").GetOr(s.ueMaxRetry)))
  }

  /** `async_api`: suppressed calls are dropped before any client is looked
      up; otherwise the call runs once and either completes (its value is
      discarded) or asks for a retry. */
  function AsyncApi(s: TaskSettings, service: Obj, api: string, kwargs: map<string, Obj>,
                    a: Attempt): (r: TaskRun)
    ensures r.Dropped? <==> Suppressed(service, api)
    ensures r.Done? <==> !Suppressed(service, api) && a.Returned?
    ensures r.RetryAsked? ==> Some(r.request) == RetryFor(s, kwargs, a)
  {
    if Suppressed(service, api) then Dropped
    else match RetryFor(s, kwargs, a)
      case None => Done
      case Some(req) => RetryAsked(req)
  }

  /** Celery's budget test in `Task.retry`, under Python 2 comparison: a
      `max_retries` of None stands for `async_api`'s own default
      (`TASK_MAX_RETRY_COUNT`, given to the `@app.task` decorator); a budget that
      is still None never runs out; an integer (or boolean) runs out once
      that many retries have happened; any other value compares greater than
      every integer, so it never runs out either. */
  predicate BudgetSpent(retries: nat, maxRetries: Obj, taskDefault: Obj) {
    var budget := if maxRetries == NoneObj then taskDefault else maxRetries;
    match budget
    case Int(m) => retries >= m
    case Long(m) => retries >= m
    case Bool(b) => retries >= (if b then 1 else 0)
    case _ => false
  }

  /** A call without a budget of its own is held to `async_api`'s default. */
  lemma NoneBudgetIsTaskDefault(retries: nat, taskDefault: Obj)
    ensures BudgetSpent(retries, NoneObj, taskDefault) == BudgetSpent(retries, taskDefault, NoneObj)
  {
  }

  /** Once a budget has run out it stays spent. */
  lemma BudgetStaysSpent(retries: nat, later: nat, maxRetries: Obj, taskDefault: Obj)
    requires retries <= later && BudgetSpent(retries, maxRetries, taskDefault)
    ensures BudgetSpent(later, maxRetries, taskDefault)
  {
  }

  /** The fate of an `async_api` call over successive executions whose outcomes are
      `attempts`: it is dropped, completes after some retries, surfaces its
      error once the budget is spent, or is still pending when the given
      outcomes run out. */
  datatype Fate = Skipped | Completed(retries: nat) | Surfaced(retries: nat) | Pending(retries: nat)

  /** Celery re-running `async_api`: each retry request is granted while its
      budget lasts. Retries are counted from `retries`, and each execution
      uses up one outcome, so the count never exceeds the outcomes given. */
  function Drive(s: TaskSettings, service: Obj, api: string, kwargs: map<string, Obj>,
                 attempts: seq<Attempt>, retries: nat): (f: Fate)
    ensures f.Skipped? <==> Suppressed(service, api) && |attempts| > 0
    ensures !f.Skipped? ==> retries <= f.retries
    ensures f.Pending? ==> f.retries == retries + |attempts|
    ensures f.Completed? || f.Surfaced? ==> f.retries < retries + |attempts|
    ensures f.Completed? ==> attempts[f.retries - retries].Returned?
    ensures f.Surfaced? ==> !attempts[f.retries - retries].Returned?
    decreases |attempts|
  {
    if |attempts| == 0 then Pending(retries)
    else
      match AsyncApi(s, service, api, kwargs, attempts[0])
      case Dropped => Skipped
      case Done => Completed(retries)
      case RetryAsked(req) =>
        if BudgetSpent(retries, req.maxRetries, s.maxRetry) then Surfaced(retries)
        else
          var f := Drive(s, service, api, kwargs, attempts[1..], retries + 1);
          assert f.Completed? ==> attempts[f.retries - retries] == attempts[1..][f.retries - (retries + 1)];
          assert f.Surfaced? ==> attempts[f.retries - retries] == attempts[1..][f.retries - (retries + 1)];
          f
  }

  /** The budget a failed execution is held to: the call's own
      `max_retries`, else the tier of its error. */
  function BudgetFor(s: TaskSettings, kwargs: map<string, Obj>, a: Attempt): Obj
    requires !a.Returned?
  {
    RetryFor(s, kwargs, a).value.maxRetries
  }

  /** A call that keeps failing with the client's declared error, with no
      `max_retries` of its own, is rescheduled exactly
      `TASK_TE_MAX_RETRY_COUNT` times and then surfaces. */
  lemma {:induction false} ClientErrorsExhaustBudget(s: TaskSettings, service: Obj, api: string,
                                                     kwargs: map<string, Obj>,
                                                     attempts: seq<Attempt>, retries: nat, m: MachineInt)
    requires !Suppressed(service, api)
    requires "max_retries" !in kwargs && s.teMaxRetry == Int(m)
    requires retries <= m && |attempts| > m - retries
    requires forall i :: 0 <= i < |attempts| ==> attempts[i] == ClientError
    ensures Drive(s, service, api, kwargs, attempts, retries) == Surfaced(m)
    decreases |attempts|
  {
    if retries < m {
      ClientErrorsExhaustBudget(s, service, api, kwargs, attempts[1..], retries + 1, m);
    }
  }

  /** The same for any other exception, against `TASK_UE_MAX_RETRY_COUNT`. */
  lemma {:induction false} OtherErrorsExhaustBudget(s: TaskSettings, service: Obj, api: string,
                                                    kwargs: map<string, Obj>,
                                                    attempts: seq<Attempt>, retries: nat, m: MachineInt)
    requires !Suppressed(service, api)
    requires "max_retries" !in kwargs && s.ueMaxRetry == Int(m)
    requires retries <= m && |attempts| > m - retries
    requires forall i :: 0 <= i < |attempts| ==> attempts[i] == OtherError
    ensures Drive(s, service, api, kwargs, attempts, retries) == Surfaced(m)
    decreases |attempts|
  {
    if retries < m {
      OtherErrorsExhaustBudget(s, service, api, kwargs, attempts[1..], retries + 1, m);
    }
  }

  /** A call whose first failures each find their own tier's budget not yet
      spent, and whose next execution returns, completes after exactly as
      many retries as it failed. */
  lemma {:induction false} SuccessWithinBudget(s: TaskSettings, service: Obj, api: string,
                                               kwargs: map<string, Obj>,
                                               attempts: seq<Attempt>, retries: nat, k: nat)
    requires !Suppressed(service, api)
    requires retries <= k && k - retries < |attempts|
    requires forall i :: 0 <= i < k - retries ==>
               !attempts[i].Returned?
               && !BudgetSpent(retries + i, BudgetFor(s, kwargs, attempts[i]), s.maxRetry)
    requires attempts[k - retries].Returned?
    ensures Drive(s, service, api, kwargs, attempts, retries) == Completed(k)
    decreases |attempts|
  {
    if retries < k {
      assert !BudgetSpent(retries + 0, BudgetFor(s, kwargs, attempts[0]), s.maxRetry);
      forall i | 0 <= i < k - (retries + 1)
        ensures !attempts[1..][i].Returned?
                && !BudgetSpent(retries + 1 + i, BudgetFor(s, kwargs, attempts[1..][i]), s.maxRetry)
      {
        assert attempts[1..][i] == attempts[i + 1];
      }
      SuccessWithinBudget(s, service, api, kwargs, attempts[1..], retries + 1, k);
    }
  }

  // ---------------------------------------------------------------------------
  // broker queues

  datatype QueueSpec = QueueSpec(exchange: string, routingKey: string)

  /** The queue a worker named `name` consumes: exchange `SKT`, routing key
      `api.<name>`. */
  function WorkerQueue(name: string): QueueSpec {
    QueueSpec("SKT", "api." + name)
  }

  /** The loop of `init_celery_app` over `async_workers`: each worker's queue
      is added or replaced; queues of other names are kept. */
  method RegisterWorkerQueues(queues: map<string, QueueSpec>, workers: seq<string>)
    returns (table: map<string, QueueSpec>)
    ensures forall n :: n in table <==> n in queues || n in workers
    ensures forall n :: n in workers ==> table[n] == WorkerQueue(n)
    ensures forall n :: n in queues && n !in workers ==> table[n] == queues[n]
  {
    table := queues;
    var i := 0;
    while i < |workers|
      invariant 0 <= i <= |workers|
      invariant forall n :: n in table <==> n in queues || n in workers[..i]
      invariant forall n :: n in workers[..i] ==> table[n] == WorkerQueue(n)
      invariant forall n :: n in queues && n !in workers[..i] ==> table[n] == queues[n]
    {
      assert workers[..i + 1] == workers[..i] + [workers[i]];
      table := table[workers[i] := WorkerQueue(workers[i])];
      i := i + 1;
    }
    assert workers[..i] == workers;
  }

  /** Why reading `async_workers` raises: the value cannot be iterated, an
      entry cannot be subscripted with `'name'` (it is not a dict), an entry
      has no `name` (KeyError), or the name cannot be a dictionary key.
      `NonTextName` stands for a hashable name that is not text, which
      Python registers under a non-string key the table here cannot hold. */
  datatype QueueError = WorkersNotIterable | EntryNotDict | MissingName | UnhashableName | NonTextName

  /** What `for q in async_workers` iterates over. A list yields its
      elements; a non-empty dict or string yields strings, on which
      `q['name']` raises, and an empty one yields nothing; anything else is
      not iterable. */
  function WorkerEntries(v: Obj): (r: Result<seq<Obj>, QueueError>)
    ensures v.List? ==> r == Success(v.elems)
    ensures r.Failure? ==> r.error == WorkersNotIterable || r.error == EntryNotDict
    ensures r == Failure(WorkersNotIterable) <==> !(v.List? || v.Dict? || IsInstance(v, BaseStringType))
  {
    match v
    case List(xs) => Success(xs)
    case Dict(m) => if |m| == 0 then Success([]) else Failure(EntryNotDict)
    case Str(s) => if |s| == 0 then Success([]) else Failure(EntryNotDict)
    case Unicode(u) => if |u| == 0 then Success([]) else Failure(EntryNotDict)
    case _ => Failure(WorkersNotIterable)
  }

  /** `q['name']` of one entry, as the key of the queue table. */
  function WorkerName(q: Obj): (r: Result<string, QueueError>)
    ensures r.Success? <==> q.Dict? && "name" in q.items && IsInstance(q.items["name"], BaseStringType)
    ensures r.Success? ==> Some(r.value) == TextOf(q.items["name"])
    ensures !q.Dict? ==> r == Failure(EntryNotDict)
    ensures q.Dict? && "name" !in q.items ==> r == Failure(MissingName)
    ensures q.Dict? && "name" in q.items && (q.items["name"].List? || q.items["name"].Dict?) ==>
              r == Failure(UnhashableName)
  {
    if !q.Dict? then Failure(EntryNotDict)
    else if "name" !in q.items then Failure(MissingName)
    else match q.items["name"]
      case Str(s) => Success(s)
      case Unicode(u) => Success(u)
      case List(_) => Failure(UnhashableName)
      case Dict(_) => Failure(UnhashableName)
      case _ => Failure(NonTextName)
  }

  /** The names of all entries, or the error of the first entry that has
      none: the loop raises there, before any later entry is read. */
  function WorkerNames(entries: seq<Obj>): (r: Result<seq<string>, QueueError>)
    ensures r.Success? <==> forall i :: 0 <= i < |entries| ==> WorkerName(entries[i]).Success?
    ensures r.Success? ==> |r.value| == |entries|
                           && forall i :: 0 <= i < |entries| ==> r.value[i] == WorkerName(entries[i]).value
    ensures r.Failure? ==> exists i :: 0 <= i < |entries| && WorkerName(entries[i]).Failure?
                                       && r.error == WorkerName(entries[i]).error
                                       && forall j :: 0 <= j < i ==> WorkerName(entries[j]).Success?
  {
    if |entries| == 0 then Success([])
    else
      var name :- WorkerName(entries[0]);
      var rest :- WorkerNames(entries[1..]);
      Success([name] + rest)
  }

  /** `init_celery_app`'s queue set-up: only inside a container, with the
      broker in use and `async_workers` configured, are worker queues added;
      a malformed `async_workers` raises out of it. */
  method InitQueues(inContainer: bool, useMemoryMq: bool, asyncWorkers: Option<Obj>,
                    queues: map<string, QueueSpec>) returns (r: Result<map<string, QueueSpec>, QueueError>)
    ensures !(inContainer && !useMemoryMq && asyncWorkers.Some?) ==> r == Success(queues)
    ensures inContainer && !useMemoryMq && asyncWorkers.Some? ==>
              match WorkerEntries(asyncWorkers.value)
              case Failure(e) => r == Failure(e)
              case Success(entries) =>
                match WorkerNames(entries)
                case Failure(e) => r == Failure(e)
                case Success(names) =>
                  r.Success?
                  && (forall n :: n in r.value <==> n in queues || n in names)
                  && (forall n :: n in names ==> r.value[n] == WorkerQueue(n))
                  && (forall n :: n in queues && n !in names ==> r.value[n] == queues[n])
  {
    if !(inContainer && !useMemoryMq && asyncWorkers.Some?) {
      return Success(queues);
    }
    var entries := WorkerEntries(asyncWorkers.value);
    if entries.Failure? {
      return Failure(entries.error);
    }
    var names := WorkerNames(entries.value);
    if names.Failure? {
      return Failure(names.error);
    }
    var table := RegisterWorkerQueues(queues, names.value);
    return Success(table);
  }

  /** `async_workers: null` raises before any queue is added, and so does a
      list holding an entry without a `name`, whatever the entries before it. */
  lemma MalformedWorkersRaise(before: seq<Obj>, q: map<string, Obj>)
    requires forall i :: 0 <= i < |before| ==> WorkerName(before[i]).Success?
    requires "name" !in q
    ensures WorkerEntries(NoneObj) == Failure(WorkersNotIterable)
    ensures WorkerNames(before + [Dict(q)]) == Failure(MissingName)
  {
    WorkerNamesOfPrefix(before, Dict(q));
  }

  lemma {:induction false} WorkerNamesOfPrefix(before: seq<Obj>, q: Obj)
    requires forall i :: 0 <= i < |before| ==> WorkerName(before[i]).Success?
    requires WorkerName(q).Failure?
    ensures WorkerNames(before + [q]) == WorkerName(q).PropagateFailure()
    decreases |before|
  {
    if |before| > 0 {
      assert (before + [q])[1..] == before[1..] + [q];
      WorkerNamesOfPrefix(before[1..], q);
    } else {
      assert before + [q] == [q];
      assert [q][1..] == [];
    }
  }

  // ---------------------------------------------------------------------------
  // routing

  datatype RouteError = ArgsMissing | ArgsEmpty | QueueNotText | SlugNotText

  /** `AsyncRouter.route_for_task`: `async_api` tasks go to the queue named
      by their service slug, unless the call's `queue` option extends that
      slug; other tasks are left to celery's defaults. */
  function RouteForTask(task: string, args: Option<seq<Obj>>, kwargs: Option<map<string, Obj>>)
    : (r: Result<Option<Obj>, RouteError>)
    ensures task != "rest_arch.async.async_api" ==> r == Success(None)
    ensures task == "rest_arch.async.async_api" && args.None? ==> r == Failure(ArgsMissing)
    ensures task == "rest_arch.async.async_api" && args.Some? && |args.value| == 0 ==>
              r == Failure(ArgsEmpty)
    ensures r.Success? && r.value.Some? ==>
              r.value.value == args.value[0]
              || (kwargs.Some? && r.value.value == Get(kwargs.value, "queue").GetOr(NoneObj))
    ensures (task == "rest_arch.async.async_api" && args.Some? && |args.value| > 0
             && (kwargs.None? || |kwargs.value| == 0)) ==> r == Success(Some(args.value[0]))
  {
    if task != "rest_arch.async.async_api" then Success(None)
    else if args.None? then Failure(ArgsMissing)
    else if |args.value| == 0 then Failure(ArgsEmpty)
    else
      var slug := args.value[0];
      if kwargs.Some? && |kwargs.value| > 0 then
        var q := Get(kwargs.value, "queue").GetOr(Str(""));
        if TextOf(q).None? then Failure(QueueNotText)
        else if TextOf(slug).None? then Failure(SlugNotText)
        else if Text.StartsWith(TextOf(q).value, TextOf(slug).value) then
          Success(Some(Get(kwargs.value, "queue").GetOr(NoneObj)))
        else Success(Some(slug))
      else Success(Some(slug))
  }

  /** With a text slug: an explicit queue that extends the slug is used, a
      queue that does not is ignored, and with no `queue` option at all a
      non-empty slug is its own queue, while an empty slug yields no queue
      (the `''.startswith('')` case falls through to `kwargs.get('queue')`). */
  lemma RouteChoices(slug: string, queue: string, kwargs: map<string, Obj>)
    requires |kwargs| > 0
    ensures "queue" in kwargs && kwargs["queue"] == Str(queue) && Text.StartsWith(queue, slug) ==>
              RouteForTask("rest_arch.async.async_api", Some([Str(slug)]), Some(kwargs))
              == Success(Some(Str(queue)))
    ensures "queue" in kwargs && kwargs["queue"] == Str(queue) && !Text.StartsWith(queue, slug) ==>
              RouteForTask("rest_arch.async.async_api", Some([Str(slug)]), Some(kwargs))
              == Success(Some(Str(slug)))
    ensures "queue" !in kwargs && slug != "" ==>
              RouteForTask("rest_arch.async.async_api", Some([Str(slug)]), Some(kwargs))
              == Success(Some(Str(slug)))
    ensures "queue" !in kwargs && slug == "" ==>
              RouteForTask("rest_arch.async.async_api", Some([Str(slug)]), Some(kwargs))
              == Success(Some(NoneObj))
  {
  }
}

=== FILE: bootstrap.dfy ===
/** The checks `skt bootstrap` applies to its two prompts, the output file
    name it derives from a template name, and the slug it takes from the app
    id. Rendering, directories and `git init` are not modelled. */
module Bootstrap {
  import opened Wrappers
  import Text

  /** The `click.BadParameter` and `ValueError` cases, one per message. */
  datatype BootstrapError =
    | NotTwoParts          // "AppId should be like 'team.proj', with 2 elements"
    | NotLowerCase         // "... all in lower case"
    | EmptyServiceName
    | NotAllLetters
    | NotCapitalised
    | NotAJinjaTemplate

  /** `validate_app_id`: exactly two dot-separated parts, each lower case
      (some letter, no capital). The value itself is returned. */
  function ValidateAppId(value: string): (r: Result<string, BootstrapError>)
    ensures |Text.Split(value, '.')| != 2 ==> r == Failure(NotTwoParts)
    ensures r.Success? ==> r.value == value
  {
    var parts := Text.Split(value, '.');
    if |parts| != 2 then Failure(NotTwoParts)
    else if !(Text.IsLower(parts[0]) && Text.IsLower(parts[1])) then Failure(NotLowerCase)
    else Success(value)
  }

  /** An app id is accepted exactly when it is two lower-case words without
      dots joined by one dot. */
  lemma AppIdAcceptedIff(team: string, proj: string)
    requires '.' !in team && '.' !in proj
    ensures ValidateAppId(team + "." + proj).Success? <==> Text.IsLower(team) && Text.IsLower(proj)
  {
    Text.JoinSplit([team, proj], '.');
    assert Text.Join([team, proj], ".") == team + "." + proj;
  }

  lemma AcceptedAppIdShape(value: string)
    requires ValidateAppId(value).Success?
    ensures exists team: string, proj: string ::
              value == team + "." + proj && '.' !in team && '.' !in proj
              && Text.IsLower(team) && Text.IsLower(proj)
  {
    var parts := Text.Split(value, '.');
    Text.SplitJoin(value, '.');
    Text.SplitPiecesLackSep(value, '.');
    assert parts == [parts[0], parts[1]];
    assert Text.Join(parts, ".") == parts[0] + "." + parts[1];
    assert '.' !in parts[0] && '.' !in parts[1];
  }

  /** `validate_service_name`: non-empty, letters only, and a capital first
      letter, checked in that order. */
  function ValidateServiceName(value: string): (r: Result<string, BootstrapError>)
    ensures r.Success? <==> Text.IsAlpha(value) && Text.IsUpperChar(value[0])
    ensures r.Success? ==> r.value == value
    ensures |value| == 0 ==> r == Failure(EmptyServiceName)
    ensures |value| > 0 && !Text.IsAlpha(value) ==> r == Failure(NotAllLetters)
  {
    if |value| == 0 then Failure(EmptyServiceName)
    else if !Text.IsAlpha(value) then Failure(NotAllLetters)
    else if !Text.IsUpperChar(value[0]) then Failure(NotCapitalised)
    else Success(value)
  }

  /** The output file name of `render_template`: the one given, or else the
      template name without its required `.jinja` suffix. */
  function RenderFilename(template: string, filename: Option<string>): (r: Result<string, BootstrapError>)
    ensures filename.Some? ==> r == Success(filename.value)
    ensures filename.None? ==> (r.Success? <==> Text.EndsWith(template, ".jinja"))
    ensures filename.None? && r.Success? ==> r.value + ".jinja" == template
  {
    match filename
    case Some(f) => Success(f)
    case None =>
      if !Text.EndsWith(template, ".jinja") then Failure(NotAJinjaTemplate)
      else
        var f := template[..|template| - |".jinja"|];
        assert f + ".jinja" == template;
        Success(f)
  }

  /** Stripping the suffix is undone by adding it back. */
  lemma RenderFilenameOfTemplate(f: string)
    ensures RenderFilename(f + ".jinja", None) == Success(f)
  {
    var t := f + ".jinja";
    assert t[|t| - 6..] == ".jinja";
    assert t[..|t| - 6] == f;
  }

  /** The slug and package name in `bootstrap`: the second part of the app id. */
  function AppSlug(appId: string): (r: Option<string>)
    ensures r.Some? <==> |Text.Split(appId, '.')| >= 2
  {
    var parts := Text.Split(appId, '.');
    if |parts| >= 2 then Some(parts[1]) else None
  }

  /** For an app id that passed validation the slug always exists and is
      the project half, `proj` of `team.proj`. */
  lemma SlugOfValidAppId(team: string, proj: string)
    requires '.' !in team && '.' !in proj
    requires ValidateAppId(team + "." + proj).Success?
    ensures AppSlug(team + "." + proj) == Some(proj)
  {
    Text.JoinSplit([team, proj], '.');
    assert Text.Join([team, proj], ".") == team + "." + proj;
  }
}

=== FILE: bump.dfy ===
/** `tools/bump.py`: a dotted version such as `1.2.0b1` becomes the text of
    the `version_info` tuple, `1, 2, 0, '0b1'`... piece by piece: numeric
    pieces as numbers, the others quoted. The interpreter is a 64-bit
    CPython 2, where `int()` of a numeral beyond `sys.maxint` gives a `long`. */
module Bump {
  import opened Wrappers
  import Text
  import Py

  /** `sys.maxint` on a 64-bit build. */
  const MaxInt: int := Py.MaxInt

  /** An element of the sanitised list: an `int`, a `long`, or the stripped
      text of a piece that is not a numeral. */
  datatype Point = IntPoint(n: int) | LongPoint(n: int) | StrPoint(s: string)

  /** One piece: stripped, then `int(point)` tried. */
  function SanitizePiece(piece: string): (pt: Point)
    ensures pt.StrPoint? <==> Text.ParseInt(Text.Strip(piece)).None?
    ensures pt.StrPoint? ==> pt.s == Text.Strip(piece)
    ensures !pt.StrPoint? ==> Text.ParseInt(Text.Strip(piece)) == Some(pt.n)
    ensures pt.IntPoint? <==> !pt.StrPoint? && -MaxInt - 1 <= pt.n <= MaxInt
  {
    var p := Text.Strip(piece);
    match Text.ParseInt(p)
    case Some(n) => if -MaxInt - 1 <= n <= MaxInt then IntPoint(n) else LongPoint(n)
    case None => StrPoint(p)
  }

  function SanitizePieces(pieces: seq<string>): (pts: seq<Point>)
    ensures |pts| == |pieces|
    ensures forall i :: 0 <= i < |pieces| ==> pts[i] == SanitizePiece(pieces[i])
  {
    if |pieces| == 0 then [] else [SanitizePiece(pieces[0])] + SanitizePieces(pieces[1..])
  }

  /** The dot-separated pieces of the stripped version. */
  function Pieces(ver: string): (parts: seq<string>)
    ensures |parts| == Text.Count(Text.Strip(ver), '.') + 1
  {
    Text.SplitCount(Text.Strip(ver), '.');
    Text.Split(Text.Strip(ver), '.')
  }

  /** A version without whitespace is split as it stands. */
  lemma PiecesOfSpaceFree(ver: string)
    requires forall k :: 0 <= k < |ver| ==> !Text.IsSpace(ver[k])
    ensures Pieces(ver) == Text.Split(ver, '.')
  {
    Text.StripOfSpaceFree(ver);
  }

  /** `_sanitize`: one element per dot-separated piece of the stripped
      input, in order, so one more than the number of dots. */
  function Sanitize(ver: string): (pts: seq<Point>)
    ensures |pts| == |Pieces(ver)|
    ensures forall i :: 0 <= i < |pts| ==> pts[i] == SanitizePiece(Pieces(ver)[i])
  {
    SanitizePieces(Pieces(ver))
  }

  /** The text pieces of a byte string are byte strings. */
  lemma SanitizeKeepsBytes(ver: string)
    requires Py.IsBytes(ver)
    ensures forall i :: 0 <= i < |Sanitize(ver)| && Sanitize(ver)[i].StrPoint? ==>
              Py.IsBytes(Sanitize(ver)[i].s)
  {
    var t := Text.Strip(ver);
    var P := (c: char) => c as int < 256;
    assert Text.AllChars(t, P);
    Text.SplitKeeps(t, '.', P);
    var pieces := Pieces(ver);
    forall i | 0 <= i < |pieces|
      ensures Py.IsBytes(Text.Strip(pieces[i]))
    {
      assert Text.AllChars(pieces[i], P);
    }
  }

  predicate PointsPrintable(pts: seq<Point>) {
    forall i :: 0 <= i < |pts| && pts[i].StrPoint? ==> Py.IsBytes(pts[i].s)
  }

  /** The text of one element as the source writes it: `str` of an `int`,
      `repr` of anything else, which for a `long` carries an `L`. */
  function RenderAsWritten(pt: Point): string
    requires pt.StrPoint? ==> Py.IsBytes(pt.s)
  {
    match pt
    case IntPoint(n) => Text.IntToDecimal(n)
    case LongPoint(n) => Text.IntToDecimal(n) + "L"
    case StrPoint(s) => Py.ReprBytes(s)
  }

  /** The text of one element as intended: every integer in decimal. */
  function Render(pt: Point): string
    requires pt.StrPoint? ==> Py.IsBytes(pt.s)
  {
    match pt
    case IntPoint(n) => Text.IntToDecimal(n)
    case LongPoint(n) => Text.IntToDecimal(n)
    case StrPoint(s) => Py.ReprBytes(s)
  }

  function RenderAllAsWritten(pts: seq<Point>): (texts: seq<string>)
    requires PointsPrintable(pts)
    ensures |texts| == |pts|
    ensures forall i :: 0 <= i < |pts| ==> texts[i] == RenderAsWritten(pts[i])
  {
    if |pts| == 0 then [] else [RenderAsWritten(pts[0])] + RenderAllAsWritten(pts[1..])
  }

  function RenderAll(pts: seq<Point>): (texts: seq<string>)
    requires PointsPrintable(pts)
    ensures |texts| == |pts|
    ensures forall i :: 0 <= i < |pts| ==> texts[i] == Render(pts[i])
  {
    if |pts| == 0 then [] else [Render(pts[0])] + RenderAll(pts[1..])
  }

  /** `_get_ver_str` as written: the elements joined by `, `. */
  function VerStrAsWritten(ver: string): string
    requires Py.IsBytes(ver)
  {
    SanitizeKeepsBytes(ver);
    Text.Join(RenderAllAsWritten(Sanitize(ver)), ", ")
  }

  /** `_get_ver_str` with `isinstance(point, (int, long))`. */
  function VerStr(ver: string): string
    requires Py.IsBytes(ver)
  {
    SanitizeKeepsBytes(ver);
    Text.Join(RenderAll(Sanitize(ver)), ", ")
  }

  lemma VerStrIsJoin(ver: string)
    requires Py.IsBytes(ver)
    ensures PointsPrintable(Sanitize(ver))
    ensures VerStr(ver) == Text.Join(RenderAll(Sanitize(ver)), ", ")
  {
    SanitizeKeepsBytes(ver);
  }

  /** The two agree on every version whose numeric pieces fit in an `int`. */
  lemma VerStrAgreesWithinInt(ver: string)
    requires Py.IsBytes(ver)
    requires forall i :: 0 <= i < |Sanitize(ver)| ==> !Sanitize(ver)[i].LongPoint?
    ensures VerStrAsWritten(ver) == VerStr(ver)
  {
    SanitizeKeepsBytes(ver);
    assert RenderAllAsWritten(Sanitize(ver)) == RenderAll(Sanitize(ver));
  }

  /** A decimal numeral has no dot and no whitespace. */
  lemma DecimalIsPlain(n: nat)
    ensures '.' !in Text.NatToDecimal(n)
    ensures forall k :: 0 <= k < |Text.NatToDecimal(n)| ==> !Text.IsSpace(Text.NatToDecimal(n)[k])
    ensures Py.IsBytes(Text.NatToDecimal(n))
  {
    var d := Text.NatToDecimal(n);
    assert forall k :: 0 <= k < |d| ==> Text.IsDigitChar(d[k]);
  }

  /** A one-piece version holding a numeral beyond `sys.maxint` is written
      with a trailing `L`; the intended text is the numeral alone. */
  lemma LongPieceGetsSuffix(n: nat)
    requires n > MaxInt
    ensures Py.IsBytes(Text.NatToDecimal(n))
    ensures VerStrAsWritten(Text.NatToDecimal(n)) == Text.NatToDecimal(n) + "L"
    ensures VerStr(Text.NatToDecimal(n)) == Text.NatToDecimal(n)
  {
    var d := Text.NatToDecimal(n);
    DecimalIsPlain(n);
    Text.StripOfSpaceFree(d);
    Text.SplitOfSepFree(d, '.');
    Text.ParseIntOfNatDecimal(n);
    assert SanitizePiece(d) == LongPoint(n);
    assert Sanitize(d) == [LongPoint(n)];
  }
}

=== FILE: conf.dfy ===
/** The typed settings registry of `rest_arch/conf.py`: `BaseConfig`, its
    `DefaultConfig` refinement with a defaults table and an `explicit` mode,
    and the application's `Config` with its defaults and post-load gate.

    A registry is an immutable record; every operation returns the new record.
    `EmptyValue.is_empty` lives in a helper module that is not part of this
    model, so it is the parameter `isEmpty`. */
module Conf {
  import opened Wrappers
  import opened Py
  import Text

  datatype ConfigError =
    | NotLoaded                              // NotLoadedError('settings not loaded')
    | MissingAttribute(name: string)         // AttributeError(name)
    | MissingKey(name: string)               // KeyError from `self._settings[name]`
    | InvalidSetting(name: string, value: Obj)  // ConfigError('invalid setting: ...')

  /** The class of a registry object. `gated` marks the application `Config`,
      whose `_after_update_config` decides whether a broker registry is built. */
  datatype Class =
    | BaseConfig
    | DefaultConfig(defaults: map<string, Obj>, explicit: bool, gated: bool)

  /** `_settings` and `_loaded` of one registry object. */
  datatype Registry = Registry(cls: Class, settings: map<string, Obj>, loaded: bool)

  /** `_is_legit_config_name`: upper case, and no double underscore. */
  predicate IsLegitName(name: string) {
    Text.IsUpper(name) && !Text.Contains(name, "__")
  }

  /** `_validate_config_name`, with the `explicit` restriction of `DefaultConfig`. */
  function ValidName(cls: Class, name: string): (ok: bool)
    ensures ok ==> IsLegitName(name)
    ensures cls.DefaultConfig? && cls.explicit && name !in cls.defaults ==> !ok
    ensures IsLegitName(name) && (cls.BaseConfig? || !cls.explicit || name in cls.defaults) ==> ok
  {
    match cls
    case BaseConfig => IsLegitName(name)
    case DefaultConfig(defaults, explicit, _) =>
      IsLegitName(name) && !(explicit && name !in defaults)
  }

  /** The type a check widens to: any string type is checked against `basestring`. */
  function Widen(t: PyType): PyType {
    if IsStringType(t) then BaseStringType else t
  }

  /** `BaseConfig._validate_config_value`. */
  function BaseValidValue(isEmpty: Obj -> bool, v: Obj, expected: Option<PyType>): (ok: bool)
    ensures isEmpty(v) ==> !ok
    ensures expected.None? ==> (ok <==> !isEmpty(v))
    ensures expected.Some? && IsStringType(expected.value) ==>
              (ok <==> !isEmpty(v) && (v.Str? || v.Unicode?))
    ensures expected.Some? && !IsStringType(expected.value) ==>
              (ok <==> !isEmpty(v) && IsInstance(v, expected.value))
  {
    if isEmpty(v) then false
    else match expected
      case None => true
      case Some(t) => IsInstance(v, Widen(t))
  }

  /** The type the defaults table prescribes: that of the default value, or of
      the value inside an empty-allowed default. */
  function DefaultType(d: Obj): PyType {
    if d.Empty? then TypeOf(d.val) else TypeOf(d)
  }

  /** `_validate_config_value` of the object's class. */
  function ValidValue(cls: Class, isEmpty: Obj -> bool, name: string, v: Obj): (ok: bool)
    ensures cls.BaseConfig? ==> (ok <==> !isEmpty(v))
    ensures cls.DefaultConfig? && v.Empty? ==> ok
    ensures (cls.DefaultConfig? && name in cls.defaults && cls.defaults[name].Empty? &&
             IsInstance(v, TypeOf(cls.defaults[name].val)) && isEmpty(v)) ==> ok
    ensures cls.DefaultConfig? && !v.Empty? && name in cls.defaults ==>
              (ok <==> IsInstance(v, Widen(DefaultType(cls.defaults[name]))) &&
                       (!isEmpty(v) || (cls.defaults[name].Empty? &&
                                        IsInstance(v, TypeOf(cls.defaults[name].val)))))
    ensures cls.DefaultConfig? && !v.Empty? && name !in cls.defaults ==> (ok <==> !isEmpty(v))
  {
    match cls
    case BaseConfig => BaseValidValue(isEmpty, v, None)
    case DefaultConfig(defaults, _, _) =>
      if v.Empty? then true
      else if name in defaults then
        var d := defaults[name];
        if d.Empty? && IsInstance(v, TypeOf(d.val)) && isEmpty(v) then true
        else BaseValidValue(isEmpty, v, Some(DefaultType(d)))
      else BaseValidValue(isEmpty, v, None)
  }

  /** `_validate_config_attr`. */
  predicate ValidAttr(cls: Class, isEmpty: Obj -> bool, name: string, v: Obj) {
    ValidName(cls, name) && ValidValue(cls, isEmpty, name, v)
  }

  /** `__setattr__`: a config name is stored only when it validates; an
      invalid one is dropped silently. Other names are plain object
      attributes and leave the settings alone. */
  function SetAttr(r: Registry, isEmpty: Obj -> bool, name: string, v: Obj): (r': Registry)
    ensures r'.cls == r.cls && r'.loaded == r.loaded
    ensures !IsLegitName(name) ==> r'.settings == r.settings
    ensures IsLegitName(name) && !ValidAttr(r.cls, isEmpty, name, v) ==> r'.settings == r.settings
    ensures ValidAttr(r.cls, isEmpty, name, v) ==> name in r'.settings && r'.settings[name] == v
    ensures forall k :: k != name ==> Get(r'.settings, k) == Get(r.settings, k)
  {
    if !IsLegitName(name) then r
    else if ValidAttr(r.cls, isEmpty, name, v) then r.(settings := r.settings[name := v])
    else r
  }

  /** `__getattr__` for a name that is not an ordinary attribute.

      `BaseConfig` refuses every read before load, and an absent name after.
      `DefaultConfig` reads the stored value even before load (a missing one
      is then a KeyError), refuses a stored value that no longer validates,
      and unwraps an empty-allowed value. */
  function GetAttr(r: Registry, isEmpty: Obj -> bool, name: string): (res: Result<Obj, ConfigError>)
    ensures r.cls.BaseConfig? && !r.loaded ==> res == Failure(NotLoaded)
    ensures r.loaded && name !in r.settings ==> res == Failure(MissingAttribute(name))
    ensures r.cls.BaseConfig? && r.loaded && name in r.settings ==> res == Success(r.settings[name])
    ensures r.cls.DefaultConfig? && !r.loaded && name !in r.settings ==> res == Failure(MissingKey(name))
    ensures r.cls.DefaultConfig? && name in r.settings ==>
              var v := r.settings[name];
              if ValidAttr(r.cls, isEmpty, name, v)
              then res == Success(if v.Empty? then v.val else v)
              else res == Failure(InvalidSetting(name, v))
  {
    match r.cls
    case BaseConfig =>
      if !r.loaded then Failure(NotLoaded)
      else if name !in r.settings then Failure(MissingAttribute(name))
      else Success(r.settings[name])
    case DefaultConfig(_, _, _) =>
      if name !in r.settings then
        Failure(if r.loaded then MissingAttribute(name) else MissingKey(name))
      else
        var v := r.settings[name];
        if !ValidAttr(r.cls, isEmpty, name, v) then Failure(InvalidSetting(name, v))
        else Success(if v.Empty? then v.val else v)
  }

  /** A freshly constructed registry: `_make_default` copies every default
      whose name validates, bypassing the value check. */
  function New(cls: Class): (r: Registry)
    ensures r.cls == cls && !r.loaded
    ensures cls.BaseConfig? ==> r.settings == map[]
    ensures cls.DefaultConfig? ==>
              r.settings.Keys <= cls.defaults.Keys &&
              forall k :: k in cls.defaults ==>
                (k in r.settings <==> IsLegitName(k)) &&
                (k in r.settings ==> r.settings[k] == cls.defaults[k])
  {
    match cls
    case BaseConfig => Registry(cls, map[], false)
    case DefaultConfig(defaults, _, _) =>
      Registry(cls, map k | k in defaults && ValidName(cls, k) :: defaults[k], false)
  }

  /** The `setattr` loop of `_update_config` over `dir(setting_obj)`. */
  function ApplyAll(r: Registry, isEmpty: Obj -> bool, src: seq<(string, Obj)>): (r': Registry)
    ensures r'.cls == r.cls && r'.loaded == r.loaded
    decreases |src|
  {
    if |src| == 0 then r
    else
      var (name, v) := src[0];
      var r1 := if IsLegitName(name) then SetAttr(r, isEmpty, name, v) else r;
      ApplyAll(r1, isEmpty, src[1..])
  }

  /** `_after_update_config`. For the application `Config` it reads
      `ASYNC_ENABLED` and then, if that is true, `USE_MEMORY_MQ`; the result
      says whether a broker registry is to be built, and a failed read is
      the exception it raises. */
  function AfterUpdate(r: Registry, isEmpty: Obj -> bool): (gate: Result<bool, ConfigError>)
    ensures !(r.cls.DefaultConfig? && r.cls.gated) ==> gate == Success(false)
    ensures gate == Success(true) ==>
              GetAttr(r, isEmpty, "ASYNC_ENABLED").Success? &&
              Truthy(GetAttr(r, isEmpty, "ASYNC_ENABLED").value) &&
              GetAttr(r, isEmpty, "USE_MEMORY_MQ").Success? &&
              !Truthy(GetAttr(r, isEmpty, "USE_MEMORY_MQ").value)
    ensures r.cls.DefaultConfig? && r.cls.gated && GetAttr(r, isEmpty, "ASYNC_ENABLED").Failure? ==>
              gate == Failure(GetAttr(r, isEmpty, "ASYNC_ENABLED").error)
  {
    if !(r.cls.DefaultConfig? && r.cls.gated) then Success(false)
    else
      var asyncEnabled :- GetAttr(r, isEmpty, "ASYNC_ENABLED");
      if !Truthy(asyncEnabled) then Success(false)
      else
        var memoryMq :- GetAttr(r, isEmpty, "USE_MEMORY_MQ");
        Success(!Truthy(memoryMq))
  }

  /** `_update_config`: merge, latch `loaded`, run the hook. The registry is
      returned together with the hook's outcome, since the hook runs after
      the merge and the latch have taken effect. */
  function UpdateConfig(r: Registry, isEmpty: Obj -> bool, src: seq<(string, Obj)>)
    : (out: (Registry, Result<bool, ConfigError>))
    ensures out.0.loaded && out.0.cls == r.cls
    ensures out.1 == AfterUpdate(out.0, isEmpty)
  {
    var r1 := ApplyAll(r, isEmpty, src).(loaded := true);
    (r1, AfterUpdate(r1, isEmpty))
  }

  // ---------------------------------------------------------------------------
  // The application registry

  /** `Config.__DEFAULT_SETTINGS__`. */
  const AppDefaults: map<string, Obj> := map[
    "MZDEVICE" := Str(""),
    "CACHE_SETTINGS" := Dict(map[]),
    "SQLLOGGER_SWITCH" := Func("<lambda>"),
    "DB_POOL_SIZE" := Int(10),
    "DB_MAX_OVERFLOW" := Int(1),
    "DB_POOL_RECYCLE" := Int(1200),
    "DB_SETTINGS" := Empty(Dict(map[]))
  ]

  /** `Config`: explicit, and gated by `_after_update_config`. */
  const AppClass: Class := DefaultConfig(AppDefaults, true, true)

  /** `CeleryConfig`: no defaults, not explicit, no hook. */
  const CeleryClass: Class := DefaultConfig(map[], false, false)

  // ---------------------------------------------------------------------------
  // Properties

  /** An update accepts a source entry when its name is a config name and the
      value validates for the registry's class. */
  predicate Accepted(cls: Class, isEmpty: Obj -> bool, entry: (string, Obj)) {
    IsLegitName(entry.0) && ValidAttr(cls, isEmpty, entry.0, entry.1)
  }

  predicate DistinctNames(src: seq<(string, Obj)>) {
    forall i, j :: 0 <= i < j < |src| ==> src[i].0 != src[j].0
  }

  /** What the merge loop does, entry by entry: an accepted entry is stored
      under its name, a rejected entry leaves that name as it was, and names
      the source does not list are untouched. */
  lemma {:induction false} ApplyAllEffect(r: Registry, isEmpty: Obj -> bool, src: seq<(string, Obj)>)
    requires DistinctNames(src)
    ensures forall i :: 0 <= i < |src| && Accepted(r.cls, isEmpty, src[i]) ==>
              Get(ApplyAll(r, isEmpty, src).settings, src[i].0) == Some(src[i].1)
    ensures forall i :: 0 <= i < |src| && !Accepted(r.cls, isEmpty, src[i]) ==>
              Get(ApplyAll(r, isEmpty, src).settings, src[i].0) == Get(r.settings, src[i].0)
    ensures forall k :: (forall i :: 0 <= i < |src| ==> src[i].0 != k) ==>
              Get(ApplyAll(r, isEmpty, src).settings, k) == Get(r.settings, k)
    decreases |src|
  {
    if |src| > 0 {
      var (name, v) := src[0];
      var r1 := if IsLegitName(name) then SetAttr(r, isEmpty, name, v) else r;
      assert DistinctNames(src[1..]) by {
        forall i, j | 0 <= i < j < |src[1..]| ensures src[1..][i].0 != src[1..][j].0 {
          assert src[1..][i] == src[i + 1] && src[1..][j] == src[j + 1];
        }
      }
      ApplyAllEffect(r1, isEmpty, src[1..]);
      var out := ApplyAll(r, isEmpty, src);
      assert out == ApplyAll(r1, isEmpty, src[1..]);
      forall i | 0 <= i < |src|
        ensures Accepted(r.cls, isEmpty, src[i]) ==> Get(out.settings, src[i].0) == Some(src[i].1)
        ensures !Accepted(r.cls, isEmpty, src[i]) ==> Get(out.settings, src[i].0) == Get(r.settings, src[i].0)
      {
        if i > 0 {
          assert src[i] == src[1..][i - 1];
          assert src[i].0 != name;
        } else {
          forall j | 0 <= j < |src[1..]| ensures src[1..][j].0 != name {
            assert src[1..][j] == src[j + 1];
          }
        }
      }
      forall k | forall i :: 0 <= i < |src| ==> src[i].0 != k
        ensures Get(out.settings, k) == Get(r.settings, k)
      {
        assert src[0].0 != k;
        forall j | 0 <= j < |src[1..]| ensures src[1..][j].0 != k {
          assert src[1..][j] == src[j + 1];
        }
      }
    }
  }

  /** After an update, reading an accepted entry yields the value it carried
      (the inner value when it is an empty-allowed wrapper); a rejected
      entry reads as whatever the name held before. */
  lemma UpdateThenRead(r: Registry, isEmpty: Obj -> bool, src: seq<(string, Obj)>, i: nat)
    requires r.cls.DefaultConfig? && DistinctNames(src) && i < |src|
    ensures var after := UpdateConfig(r, isEmpty, src).0;
            var (name, v) := src[i];
            if Accepted(r.cls, isEmpty, src[i])
            then GetAttr(after, isEmpty, name) == Success(if v.Empty? then v.val else v)
            else GetAttr(after, isEmpty, name) == GetAttr(r.(loaded := true), isEmpty, name)
  {
    ApplyAllEffect(r, isEmpty, src);
  }

  /** Once loaded, a registry stays loaded: no assignment or update resets it. */
  datatype Op = Assign(name: string, value: Obj) | Update(src: seq<(string, Obj)>)

  function Apply(r: Registry, isEmpty: Obj -> bool, op: Op): Registry {
    match op
    case Assign(name, v) => SetAttr(r, isEmpty, name, v)
    case Update(src) => UpdateConfig(r, isEmpty, src).0
  }

  function Run(r: Registry, isEmpty: Obj -> bool, ops: seq<Op>): Registry
    decreases |ops|
  {
    if |ops| == 0 then r else Run(Apply(r, isEmpty, ops[0]), isEmpty, ops[1..])
  }

  lemma {:induction false} LoadedLatch(r: Registry, isEmpty: Obj -> bool, ops: seq<Op>)
    ensures Run(r, isEmpty, ops).cls == r.cls
    ensures r.loaded ==> Run(r, isEmpty, ops).loaded
    ensures (exists i :: 0 <= i < |ops| && ops[i].Update?) ==> Run(r, isEmpty, ops).loaded
    ensures (forall i :: 0 <= i < |ops| ==> ops[i].Assign?) ==> Run(r, isEmpty, ops).loaded == r.loaded
    decreases |ops|
  {
    if |ops| > 0 {
      var r1 := Apply(r, isEmpty, ops[0]);
      LoadedLatch(r1, isEmpty, ops[1..]);
      if exists i :: 0 <= i < |ops| && ops[i].Update? {
        var i :| 0 <= i < |ops| && ops[i].Update?;
        if i > 0 {
          assert ops[1..][i - 1] == ops[i];
        }
      }
      if forall i :: 0 <= i < |ops| ==> ops[i].Assign? {
        assert ops[0].Assign?;
        assert forall i :: 0 <= i < |ops[1..]| ==> ops[1..][i] == ops[i + 1];
      }
    }
  }

  /** In explicit mode the settings never hold a name outside the defaults. */
  predicate WithinDefaults(r: Registry) {
    r.cls.DefaultConfig? && r.cls.explicit ==> r.settings.Keys <= r.cls.defaults.Keys
  }

  lemma {:induction false} ExplicitKeepsKeysWithinDefaults(r: Registry, isEmpty: Obj -> bool, ops: seq<Op>)
    requires WithinDefaults(r)
    ensures WithinDefaults(Run(r, isEmpty, ops))
    decreases |ops|
  {
    if |ops| > 0 {
      ApplyKeepsWithinDefaults(r, isEmpty, ops[0]);
      ExplicitKeepsKeysWithinDefaults(Apply(r, isEmpty, ops[0]), isEmpty, ops[1..]);
    }
  }

  lemma ApplyKeepsWithinDefaults(r: Registry, isEmpty: Obj -> bool, op: Op)
    requires WithinDefaults(r)
    ensures WithinDefaults(Apply(r, isEmpty, op))
  {
    match op
    case Assign(_, _) =>
    case Update(src) => ApplyAllKeepsWithinDefaults(r, isEmpty, src);
  }

  lemma {:induction false} ApplyAllKeepsWithinDefaults(r: Registry, isEmpty: Obj -> bool, src: seq<(string, Obj)>)
    requires WithinDefaults(r)
    ensures WithinDefaults(ApplyAll(r, isEmpty, src))
    decreases |src|
  {
    if |src| > 0 {
      var (name, v) := src[0];
      var r1 := if IsLegitName(name) then SetAttr(r, isEmpty, name, v) else r;
      ApplyAllKeepsWithinDefaults(r1, isEmpty, src[1..]);
    }
  }

  /** The application `Config` is explicit and its defaults do not list
      `ASYNC_ENABLED`, so that name can never be stored, and once loaded the
      gate's first read always raises AttributeError: whatever the settings
      source, every load ends in that exception. */
  lemma AppGateAlwaysRaises(isEmpty: Obj -> bool, ops: seq<Op>, src: seq<(string, Obj)>)
    ensures var r := Run(New(AppClass), isEmpty, ops);
            UpdateConfig(r, isEmpty, src).1 == Failure(MissingAttribute("ASYNC_ENABLED"))
  {
    var r := Run(New(AppClass), isEmpty, ops);
    ExplicitKeepsKeysWithinDefaults(New(AppClass), isEmpty, ops);
    LoadedLatch(New(AppClass), isEmpty, ops);
    ApplyAllKeepsWithinDefaults(r, isEmpty, src);
    var r1 := UpdateConfig(r, isEmpty, src).0;
    assert "ASYNC_ENABLED" !in AppDefaults;
    assert "ASYNC_ENABLED" !in r1.settings;
  }

  /** Before load, the application's pool defaults read as themselves. */
  lemma AppPoolDefaultsReadBeforeLoad(isEmpty: Obj -> bool)
    requires !isEmpty(Int(10)) && !isEmpty(Int(1)) && !isEmpty(Int(1200))
    ensures GetAttr(New(AppClass), isEmpty, "DB_POOL_SIZE") == Success(Int(10))
    ensures GetAttr(New(AppClass), isEmpty, "DB_MAX_OVERFLOW") == Success(Int(1))
    ensures GetAttr(New(AppClass), isEmpty, "DB_POOL_RECYCLE") == Success(Int(1200))
  {
    LegitDbNames();
    var r := New(AppClass);
    assert r.settings["DB_POOL_SIZE"] == Int(10);
    assert r.settings["DB_MAX_OVERFLOW"] == Int(1);
    assert r.settings["DB_POOL_RECYCLE"] == Int(1200);
  }

  /** Before load, the empty-allowed `DB_SETTINGS` reads as an empty dict. */
  lemma AppDbSettingsReadBeforeLoad(isEmpty: Obj -> bool)
    ensures GetAttr(New(AppClass), isEmpty, "DB_SETTINGS") == Success(Dict(map[]))
  {
    LegitDbNames();
    var r := New(AppClass);
    var v := Empty(Dict(map[]));
    assert "DB_SETTINGS" in AppDefaults && AppDefaults["DB_SETTINGS"] == v;
    assert "DB_SETTINGS" in r.settings && r.settings["DB_SETTINGS"] == v;
    assert ValidAttr(AppClass, isEmpty, "DB_SETTINGS", v);
  }

  /** Before load, a name outside the application defaults raises KeyError. */
  lemma AppUnknownNameBeforeLoad(isEmpty: Obj -> bool)
    ensures GetAttr(New(AppClass), isEmpty, "ASYNC_ENABLED") == Failure(MissingKey("ASYNC_ENABLED"))
  {
    assert "ASYNC_ENABLED" !in AppDefaults;
    assert "ASYNC_ENABLED" !in New(AppClass).settings;
  }

  /** A name that starts with a capital, has no lower-case letter and no
      doubled underscore is a config name. */
  lemma LegitByCharacters(name: string)
    requires |name| > 0 && Text.IsUpperChar(name[0])
    requires forall i :: 0 <= i < |name| ==> !Text.IsLowerChar(name[i])
    requires Text.NoAdjacent(name, '_')
    ensures IsLegitName(name)
  {
    Text.NoAdjacentNoPair(name, '_');
  }

  lemma LegitDbNames()
    ensures IsLegitName("DB_POOL_SIZE") && IsLegitName("DB_MAX_OVERFLOW")
    ensures IsLegitName("DB_POOL_RECYCLE") && IsLegitName("DB_SETTINGS")
  {
    LegitByCharacters("DB_POOL_SIZE");
    LegitByCharacters("DB_MAX_OVERFLOW");
    LegitByCharacters("DB_POOL_RECYCLE");
    LegitByCharacters("DB_SETTINGS");
  }

  lemma LegitOtherDefaultNames()
    ensures IsLegitName("MZDEVICE") && IsLegitName("CACHE_SETTINGS") && IsLegitName("SQLLOGGER_SWITCH")
  {
    LegitByCharacters("MZDEVICE");
    LegitByCharacters("CACHE_SETTINGS");
    LegitByCharacters("SQLLOGGER_SWITCH");
  }

  /** Every application default is a config name; the registry's own
      attributes are not, so they never reach the settings map. */
  lemma LegitAppNames()
    ensures forall k :: k in AppDefaults ==> IsLegitName(k)
    ensures !IsLegitName("__DEFAULT_SETTINGS__") && !IsLegitName("explicit")
    ensures !IsLegitName("_settings") && !IsLegitName("_loaded") && !IsLegitName("celeryconfig")
  {
    LegitDbNames();
    LegitOtherDefaultNames();
    assert AppDefaults.Keys == {"MZDEVICE", "CACHE_SETTINGS", "SQLLOGGER_SWITCH", "DB_POOL_SIZE",
                                "DB_MAX_OVERFLOW", "DB_POOL_RECYCLE", "DB_SETTINGS"};
    assert Text.OccursAt("__DEFAULT_SETTINGS__", "__", 0);
    assert Text.IsLowerChar("explicit"[0]) && Text.IsLowerChar("_settings"[1]);
    assert Text.IsLowerChar("_loaded"[1]) && Text.IsLowerChar("celeryconfig"[0]);
  }
}

=== FILE: ctx.dfy ===
/** The per-request context: four dictionaries that each thread (each
    greenlet, once gevent has patched `threading`) sees on its own. A value
    of `ConnCtx` is one thread's view. */
module Ctx {
  import opened Wrappers
  import opened Py

  datatype ConnCtx = ConnCtx(
    conn: map<string, Obj>,
    callMeta: map<string, Obj>,
    loggingMeta: map<string, Obj>,
    userRequest: map<string, Obj>)

  datatype CtxError = KeyError(key: string)

  /** Every dictionary starts out empty. */
  function Fresh(): (c: ConnCtx)
    ensures |c.conn| == 0 && |c.callMeta| == 0
    ensures |c.loggingMeta| == 0 && |c.userRequest| == 0
  {
    ConnCtx(map[], map[], map[], map[])
  }

  /** Drops the call metadata and the logging metadata; the connection and
      user dictionaries are kept. */
  function ClearApiCtx(c: ConnCtx): (c': ConnCtx)
    ensures |c'.callMeta| == 0 && |c'.loggingMeta| == 0
    ensures c'.conn == c.conn && c'.userRequest == c.userRequest
  {
    c.(callMeta := map[], loggingMeta := map[])
  }

  function ClearConnCtx(c: ConnCtx): (c': ConnCtx)
    ensures |c'.conn| == 0
    ensures c'.callMeta == c.callMeta && c'.loggingMeta == c.loggingMeta
    ensures c'.userRequest == c.userRequest
  {
    c.(conn := map[])
  }

  function ClearUserRequestCtx(c: ConnCtx): (c': ConnCtx)
    ensures |c'.userRequest| == 0
    ensures c'.conn == c.conn && c'.callMeta == c.callMeta
    ensures c'.loggingMeta == c.loggingMeta
  {
    c.(userRequest := map[])
  }

  /** Binds `key` in the call metadata; every other key and every other
      dictionary is unchanged. */
  function SetCallMeta(c: ConnCtx, key: string, value: Obj): (c': ConnCtx)
    ensures Get(c'.callMeta, key) == Some(value)
    ensures forall k :: k != key ==> Get(c'.callMeta, k) == Get(c.callMeta, k)
    ensures c'.conn == c.conn && c'.loggingMeta == c.loggingMeta
    ensures c'.userRequest == c.userRequest
  {
    c.(callMeta := c.callMeta[key := value])
  }

  function SetConnMeta(c: ConnCtx, key: string, value: Obj): (c': ConnCtx)
    ensures Get(c'.conn, key) == Some(value)
    ensures forall k :: k != key ==> Get(c'.conn, k) == Get(c.conn, k)
    ensures c'.callMeta == c.callMeta && c'.loggingMeta == c.loggingMeta
    ensures c'.userRequest == c.userRequest
  {
    c.(conn := c.conn[key := value])
  }

  function SetUserRequestCtx(c: ConnCtx, key: string, value: Obj): (c': ConnCtx)
    ensures Get(c'.userRequest, key) == Some(value)
    ensures forall k :: k != key ==> Get(c'.userRequest, k) == Get(c.userRequest, k)
    ensures c'.conn == c.conn && c'.callMeta == c.callMeta
    ensures c'.loggingMeta == c.loggingMeta
  {
    c.(userRequest := c.userRequest[key := value])
  }

  /** A missing call-metadata key reads as the placeholder value. */
  function GetCallMeta(c: ConnCtx, key: string, placeholder: Obj): (v: Obj)
    ensures key in c.callMeta ==> v == c.callMeta[key]
    ensures key !in c.callMeta ==> v == placeholder
  {
    Get(c.callMeta, key).GetOr(placeholder)
  }

  function GetConnMeta(c: ConnCtx, key: string, placeholder: Obj): (v: Obj)
    ensures key in c.conn ==> v == c.conn[key]
    ensures key !in c.conn ==> v == placeholder
  {
    Get(c.conn, key).GetOr(placeholder)
  }

  /** Unlike the other two getters, a missing user key raises `KeyError`. */
  function GetUserRequestCtx(c: ConnCtx, key: string): (r: Result<Obj, CtxError>)
    ensures r.Success? <==> key in c.userRequest
    ensures r.Success? ==> r.value == c.userRequest[key]
    ensures r.Failure? ==> r.error == KeyError(key)
  {
    if key in c.userRequest then Success(c.userRequest[key]) else Failure(KeyError(key))
  }

  function ClearAll(c: ConnCtx): (c': ConnCtx)
    ensures |c'.conn| == 0 && |c'.callMeta| == 0
    ensures |c'.loggingMeta| == 0 && |c'.userRequest| == 0
  {
    ClearUserRequestCtx(ClearConnCtx(ClearApiCtx(c)))
  }

  /** After `clear_all` the context is indistinguishable from a new one. */
  lemma ClearAllIsFresh(c: ConnCtx)
    ensures ClearAll(c) == Fresh()
  {
  }

  /** The three partial clears touch disjoint dictionaries, so their order
      does not matter, and each is idempotent. */
  lemma ClearsCommute(c: ConnCtx)
    ensures ClearApiCtx(ClearConnCtx(c)) == ClearConnCtx(ClearApiCtx(c))
    ensures ClearApiCtx(ClearUserRequestCtx(c)) == ClearUserRequestCtx(ClearApiCtx(c))
    ensures ClearConnCtx(ClearUserRequestCtx(c)) == ClearUserRequestCtx(ClearConnCtx(c))
    ensures ClearApiCtx(ClearApiCtx(c)) == ClearApiCtx(c)
    ensures ClearConnCtx(ClearConnCtx(c)) == ClearConnCtx(c)
    ensures ClearUserRequestCtx(ClearUserRequestCtx(c)) == ClearUserRequestCtx(c)
  {
  }

  /** A value stored by a setter is what the matching getter returns, and a
      placeholder is only ever returned for keys that were never set. */
  lemma SetThenGet(c: ConnCtx, key: string, value: Obj, placeholder: Obj)
    ensures GetCallMeta(SetCallMeta(c, key, value), key, placeholder) == value
    ensures GetConnMeta(SetConnMeta(c, key, value), key, placeholder) == value
    ensures GetUserRequestCtx(SetUserRequestCtx(c, key, value), key) == Success(value)
    ensures GetCallMeta(ClearApiCtx(c), key, placeholder) == placeholder
    ensures GetConnMeta(ClearConnCtx(c), key, placeholder) == placeholder
    ensures GetUserRequestCtx(ClearUserRequestCtx(c), key) == Failure(KeyError(key))
  {
  }
}

=== FILE: db.dfy ===
/** The database layer: how sessions are scoped, how a routing session picks
    an engine, the jittered pool-recycle interval, the registry of named
    session factories, and the request comment prefixed to every statement.
    SQLAlchemy itself (connections, transactions, the ORM) is not modelled:
    an engine is the record of what it was created with. */
module Db {
  import opened Wrappers
  import opened Py
  import Text
  import Ctx

  datatype DbError =
    | SlaveConfigError            // the assertion in `RoutingSession.__init__`
    | UnknownBind(name: Obj)      // `engines[self._name]` raised KeyError
    | NoMaster                    // `engines['master']` raised KeyError
    | NoSlaves                    // `random.choice([])` raised IndexError
    | RecycleOnClass              // `RecycleField` read on the class
    | BadConfig(db: string)       // a database's settings are not a dict
    | MissingUrls(db: string)     // `config['urls']` raised KeyError
    | BadUrls(db: string)         // `urls` has no `iteritems`
    | DuplicateSession(db: string)
    | SessionNotCreated(db: string)

  // ---------------------------------------------------------------------------
  // scoping: scope_func and session_stack

  /** `scope_func`: the registry key of the current session, the thread
      identity paired with the thread's nesting depth. A thread that never
      entered a `session_stack` block has depth 0, which is what the lazily
      created attribute starts at. */
  function ScopeKey(tid: int, depth: int): (key: (int, int))
  {
    (tid, depth)
  }

  /** What a thread does with the database: look its session up, raise, or
      run more work inside a `with session_stack():` block. */
  datatype Work = Lookup | Raise | Nested(body: seq<Work>)

  /** Where the thread's depth ends, whether an exception escaped, and the
      registry keys its lookups used, in order. */
  datatype Trace = Trace(depth: int, raised: bool, keys: seq<(int, int)>)

  function Run(tid: int, depth: int, ws: seq<Work>): (t: Trace)
    decreases ws
  {
    if |ws| == 0 then Trace(depth, false, [])
    else
      var first :=
        match ws[0]
        case Lookup => Trace(depth, false, [ScopeKey(tid, depth)])
        case Raise => Trace(depth, true, [])
        case Nested(body) =>
          // the `finally` clause lowers the depth on both exits
          var inner := Run(tid, depth + 1, body);
          Trace(inner.depth - 1, inner.raised, inner.keys);
      if first.raised then first
      else
        var rest := Run(tid, first.depth, ws[1..]);
        Trace(rest.depth, rest.raised, first.keys + rest.keys)
  }

  /** Whatever the work does, and whether or not it raises, the thread's
      depth is back where it started; every lookup happened at that depth or
      deeper, and inside a block strictly deeper, so a nested block never
      shares its enclosing code's session. */
  lemma {:induction false} RunRestoresDepth(tid: int, depth: int, ws: seq<Work>)
    ensures Run(tid, depth, ws).depth == depth
    ensures forall i :: 0 <= i < |Run(tid, depth, ws).keys| ==>
              Run(tid, depth, ws).keys[i].0 == tid && Run(tid, depth, ws).keys[i].1 >= depth
    decreases ws
  {
    if |ws| > 0 {
      match ws[0]
      case Lookup =>
        RunRestoresDepth(tid, depth, ws[1..]);
      case Raise =>
      case Nested(body) =>
        RunRestoresDepth(tid, depth + 1, body);
        RunRestoresDepth(tid, depth, ws[1..]);
    }
  }

  lemma NestedLookupsAreDeeper(tid: int, depth: int, body: seq<Work>)
    ensures forall i :: 0 <= i < |Run(tid, depth, [Nested(body)]).keys| ==>
              Run(tid, depth, [Nested(body)]).keys[i].1 > depth
  {
    RunRestoresDepth(tid, depth + 1, body);
    assert [Nested(body)][1..] == [];
  }

  /** How `make_session` scopes its registry: by `scope_func` in development
      or when forced, otherwise by SQLAlchemy's default thread-local registry. */
  datatype ScopePolicy = BySessionStack | ByThread

  function ScopeFor(inDev: bool, forceScope: bool): (p: ScopePolicy)
    ensures p == BySessionStack <==> inDev || forceScope
  {
    if inDev || forceScope then BySessionStack else ByThread
  }

  /** The slot a scoped-session registry files a session under: the whole
      scope key under `scope_func`, only the thread under SQLAlchemy's
      thread-local registry. */
  datatype Slot = StackSlot(tid: int, depth: int) | ThreadSlot(tid: int)

  function RegistrySlot(p: ScopePolicy, key: (int, int)): Slot {
    match p
    case BySessionStack => StackSlot(key.0, key.1)
    case ByThread => ThreadSlot(key.0)
  }

  /** Under the session-stack scope a lookup inside a `session_stack` block
      gets a session of its own, apart from the one the enclosing code sees;
      under the thread scope every depth of the thread shares one session. */
  lemma NestedBlockGetsOwnSession(inDev: bool, forceScope: bool, tid: int, depth: int, body: seq<Work>)
    ensures inDev || forceScope ==>
              forall i :: 0 <= i < |Run(tid, depth, [Nested(body)]).keys| ==>
                RegistrySlot(ScopeFor(inDev, forceScope), Run(tid, depth, [Nested(body)]).keys[i])
                != RegistrySlot(ScopeFor(inDev, forceScope), ScopeKey(tid, depth))
    ensures !(inDev || forceScope) ==>
              forall i :: 0 <= i < |Run(tid, depth, [Nested(body)]).keys| ==>
                RegistrySlot(ScopeFor(inDev, forceScope), Run(tid, depth, [Nested(body)]).keys[i])
                == RegistrySlot(ScopeFor(inDev, forceScope), ScopeKey(tid, depth))
  {
    NestedLookupsAreDeeper(tid, depth, body);
    RunRestoresDepth(tid, depth, [Nested(body)]);
  }

  // ---------------------------------------------------------------------------
  // engines and routing

  /** An engine, by the arguments it was created with. Its execution options
      carry its role. */
  datatype Engine = Engine(role: string, dsn: Obj, poolSize: Obj, maxOverflow: Obj, poolRecycle: Obj)

  function ExecutionOptions(e: Engine): map<string, Obj> {
    map["role" := Str(e.role)]
  }

  /** A session: its engines by role, the non-master engines in the order
      the dictionary listed them, and the name `using_bind` pinned (None
      until then). */
  datatype RoutingSession = RoutingSession(engines: map<string, Engine>, slaves: seq<Engine>, pinned: Obj)

  function SlaveEngines(engines: map<string, Engine>, order: seq<string>): (s: seq<Engine>)
    requires forall i :: 0 <= i < |order| ==> order[i] in engines
    ensures forall e :: e in s <==>
              exists i :: 0 <= i < |order| && order[i] != "master" && engines[order[i]] == e
  {
    if |order| == 0 then []
    else
      var rest := SlaveEngines(engines, order[1..]);
      assert forall e :: e in rest <==>
        exists i :: 1 <= i < |order| && order[i] != "master" && engines[order[i]] == e by {
        forall e | e in rest
          ensures exists i :: 1 <= i < |order| && order[i] != "master" && engines[order[i]] == e
        {
          var j :| 0 <= j < |order[1..]| && order[1..][j] != "master" && engines[order[1..][j]] == e;
          assert order[j + 1] == order[1..][j];
        }
        forall e, i | 1 <= i < |order| && order[i] != "master" && engines[order[i]] == e
          ensures e in rest
        {
          assert order[1..][i - 1] == order[i];
        }
      }
      if order[0] == "master" then rest else [engines[order[0]]] + rest
  }

  /** `RoutingSession.__init__`: the slave engines are every engine whose
      role is not `master`; a session without one fails its assertion. */
  function NewRoutingSession(engines: map<string, Engine>, order: seq<string>)
    : (r: Result<RoutingSession, DbError>)
    requires IterationOrder(order, engines.Keys)
    ensures r.Failure? <==> engines.Keys <= {"master"}
    ensures r.Failure? ==> r.error == SlaveConfigError
    ensures r.Success? ==> r.value.engines == engines && r.value.pinned == NoneObj
    ensures r.Success? ==> |r.value.slaves| > 0
    ensures r.Success? ==> forall e :: e in r.value.slaves <==>
              exists role :: role in engines && role != "master" && engines[role] == e
  {
    var slaves := SlaveEngines(engines, order);
    assert forall e :: e in slaves <==>
      exists role :: role in engines && role != "master" && engines[role] == e by {
      forall e, role | role in engines && role != "master" && engines[role] == e
        ensures e in slaves
      {
        var i :| 0 <= i < |order| && order[i] == role;
      }
    }
    assert |slaves| > 0 <==> !(engines.Keys <= {"master"}) by {
      if !(engines.Keys <= {"master"}) {
        var role :| role in engines && role != "master";
        assert engines[role] in slaves;
      }
      if |slaves| > 0 {
        assert slaves[0] in slaves;
        var role :| role in engines && role != "master" && engines[role] == slaves[0];
      }
    }
    if |slaves| == 0 then
      Failure(SlaveConfigError)
    else
      Success(RoutingSession(engines, slaves, NoneObj))
  }

  /** `get_bind`: a pinned name wins, then a flush goes to the master, and
      any other statement goes to a slave chosen by `pick` (the random
      choice). Failures are the KeyError/IndexError the source raises. */
  function GetBind(s: RoutingSession, flushing: bool, pick: nat): (r: Result<Engine, DbError>)
    ensures Truthy(s.pinned) ==>
              (r.Success? <==> (TextOf(s.pinned).Some? && TextOf(s.pinned).value in s.engines))
    ensures Truthy(s.pinned) && r.Success? ==> r.value == s.engines[TextOf(s.pinned).value]
    ensures !Truthy(s.pinned) && flushing ==>
              r == (if "master" in s.engines then Success(s.engines["master"]) else Failure(NoMaster))
    ensures !Truthy(s.pinned) && !flushing ==>
              (r.Success? <==> |s.slaves| > 0) && (r.Success? ==> r.value in s.slaves)
  {
    if Truthy(s.pinned) then
      match TextOf(s.pinned)
      case Some(name) =>
        if name in s.engines then Success(s.engines[name]) else Failure(UnknownBind(s.pinned))
      case None => Failure(UnknownBind(s.pinned))
    else if flushing then
      if "master" in s.engines then Success(s.engines["master"]) else Failure(NoMaster)
    else if |s.slaves| == 0 then Failure(NoSlaves)
    else Success(s.slaves[pick % |s.slaves|])
  }

  /** `using_bind`: pins the name and returns the same session. */
  function UsingBind(s: RoutingSession, name: Obj): (s': RoutingSession)
    ensures s'.engines == s.engines && s'.slaves == s.slaves && s'.pinned == name
  {
    s.(pinned := name)
  }

  /** Every slave can be chosen for a read, and nothing else can. */
  lemma EverySlaveReachable(s: RoutingSession, e: Engine)
    requires !Truthy(s.pinned)
    ensures (exists pick: nat :: GetBind(s, false, pick) == Success(e)) <==> e in s.slaves
  {
    if e in s.slaves {
      var i :| 0 <= i < |s.slaves| && s.slaves[i] == e;
      assert i % |s.slaves| == i;
      assert GetBind(s, false, i) == Success(e);
    }
  }

  /** Pinning a configured role sends every statement, reads and flushes
      alike, to that role's engine; pinning the empty name changes nothing. */
  lemma PinnedBindWins(s: RoutingSession, role: string, flushing: bool, pick: nat)
    requires role in s.engines && role != ""
    ensures GetBind(UsingBind(s, Str(role)), flushing, pick) == Success(s.engines[role])
    ensures GetBind(UsingBind(s, Str("")), flushing, pick) == GetBind(s.(pinned := NoneObj), flushing, pick)
  {
  }

  // ---------------------------------------------------------------------------
  // pool recycle jitter

  /** Python's `int(x)` on a float: truncation toward zero. */
  function Trunc(x: real): (n: int)
    ensures x >= 0.0 ==> n as real <= x < n as real + 1.0
    ensures x < 0.0 ==> n as real - 1.0 < x <= n as real
  {
    if x >= 0.0 then x.Floor else -((-x).Floor)
  }

  /** `RecycleField.__get__` on a pool: the configured interval scaled by a
      uniform draw `u` from [0.75, 1] and truncated. On the class itself it
      raises AttributeError. */
  function RecycleSeconds(origin: Option<int>, u: real): (r: Result<int, DbError>)
    requires 0.75 <= u <= 1.0
    ensures r.Failure? <==> origin.None?
    ensures r.Success? && origin.value >= 0 ==> (3 * origin.value) / 4 <= r.value <= origin.value
    ensures r.Success? && origin.value < 0 ==> origin.value <= r.value <= 0
  {
    match origin
    case None => Failure(RecycleOnClass)
    case Some(o) =>
      JitterBounds(o, u);
      Success(Trunc(u * o as real))
  }

  lemma JitterBounds(o: int, u: real)
    requires 0.75 <= u <= 1.0
    ensures o >= 0 ==> (3 * o) / 4 <= Trunc(u * o as real) <= o
    ensures o < 0 ==> o <= Trunc(u * o as real) <= 0
  {
    var x := u * o as real;
    if o >= 0 {
      MulNonneg(u - 0.75, o as real);
      MulNonneg(1.0 - u, o as real);
      var q := (3 * o) / 4;
      assert (q as real) * 4.0 <= 3.0 * o as real;
    } else {
      MulNonneg(u - 0.75, -(o as real));
      MulNonneg(1.0 - u, -(o as real));
    }
  }

  lemma MulNonneg(a: real, b: real)
    requires a >= 0.0 && b >= 0.0
    ensures a * b >= 0.0
  {
  }

  /** The jitter window is exactly [floor(3/4 of the interval), interval]:
      both ends are reached. */
  lemma JitterWindowTight(o: nat)
    ensures RecycleSeconds(Some(o), 1.0) == Success(o)
    ensures RecycleSeconds(Some(o), 0.75) == Success((3 * o) / 4)
  {
    var q := (3 * o) / 4;
    assert (q as real) * 4.0 <= 3.0 * o as real < (q as real + 1.0) * 4.0;
  }

  // ---------------------------------------------------------------------------
  // the session registry

  /** The global pool options (`DB_POOL_SIZE`, `DB_MAX_OVERFLOW`,
      `DB_POOL_RECYCLE`) a database's own settings may override. */
  datatype PoolDefaults = PoolDefaults(poolSize: Obj, maxOverflow: Obj, poolRecycle: Obj)

  /** A scoped session factory: the name in its `info`, its engines by role,
      and how its registry is scoped. */
  datatype Factory = Factory(name: string, engines: map<string, Engine>, scope: ScopePolicy)

  /** `DBManager._make_session`: one engine per URL, each with the database's
      own pool options or the global ones. */
  function MakeFactory(db: string, config: Obj, defaults: PoolDefaults, inDev: bool)
    : (r: Result<Factory, DbError>)
    ensures r.Success? <==> config.Dict? && "urls" in config.items && config.items["urls"].Dict?
    ensures r.Success? ==> r.value.name == db && r.value.engines.Keys == config.items["urls"].items.Keys
    ensures r.Success? ==> r.value.scope == ScopeFor(inDev, false)
    ensures r.Success? ==> forall role :: role in r.value.engines ==>
              var e := r.value.engines[role];
              e.role == role && e.dsn == config.items["urls"].items[role]
              && e.poolSize == Get(config.items, "pool_size").GetOr(defaults.poolSize)
              && e.maxOverflow == Get(config.items, "max_overflow").GetOr(defaults.maxOverflow)
              && e.poolRecycle == Get(config.items, "pool_recycle").GetOr(defaults.poolRecycle)
  {
    if !config.Dict? then Failure(BadConfig(db))
    else if "urls" !in config.items then Failure(MissingUrls(db))
    else
      match config.items["urls"]
      case Dict(urls) =>
        var poolSize := Get(config.items, "pool_size").GetOr(defaults.poolSize);
        var maxOverflow := Get(config.items, "max_overflow").GetOr(defaults.maxOverflow);
        var poolRecycle := Get(config.items, "pool_recycle").GetOr(defaults.poolRecycle);
        var engines := map role | role in urls :: Engine(role, urls[role], poolSize, maxOverflow, poolRecycle);
        Success(Factory(db, engines, ScopeFor(inDev, false)))
      case _ => Failure(BadUrls(db))
  }

  type Manager = map<string, Factory>

  /** `get_session`: a name that was never added raises KeyError. */
  function GetSession(m: Manager, name: string): (r: Result<Factory, DbError>)
    ensures r.Success? <==> name in m
    ensures r.Success? ==> r.value == m[name]
    ensures r.Failure? ==> r.error == SessionNotCreated(name)
  {
    if name in m then Success(m[name]) else Failure(SessionNotCreated(name))
  }

  /** `add_session`: a second session under a name already taken is
      refused; otherwise the new factory is registered under its name and
      every other entry is kept. */
  function AddSession(m: Manager, name: string, config: Obj, defaults: PoolDefaults, inDev: bool)
    : (r: Result<Manager, DbError>)
    ensures name in m ==> r == Failure(DuplicateSession(name))
    ensures name !in m ==> (r.Success? <==> MakeFactory(name, config, defaults, inDev).Success?)
    ensures r.Success? ==> r.value.Keys == m.Keys + {name}
    ensures r.Success? ==> forall n :: n in m ==> r.value[n] == m[n]
    ensures r.Success? ==> r.value[name] == MakeFactory(name, config, defaults, inDev).value
  {
    if name in m then Failure(DuplicateSession(name))
    else
      var f :- MakeFactory(name, config, defaults, inDev);
      Success(m[name := f])
  }

  /** `create_sessions`: adds every database of `DB_SETTINGS` in iteration
      order; the first failure propagates. */
  function CreateSessions(m: Manager, dbSettings: map<string, Obj>, order: seq<string>,
                          defaults: PoolDefaults, inDev: bool): (r: Result<Manager, DbError>)
    requires forall i :: 0 <= i < |order| ==> order[i] in dbSettings
    ensures r.Success? ==> forall n :: n in r.value <==> n in m || n in order
    ensures r.Success? ==> forall n :: n in m ==> r.value[n] == m[n]
    decreases |order|
  {
    if |order| == 0 then Success(m)
    else
      var m' :- AddSession(m, order[0], dbSettings[order[0]], defaults, inDev);
      CreateSessions(m', dbSettings, order[1..], defaults, inDev)
  }

  /** Every database listed in `order` has well-formed settings. */
  predicate AllBuild(dbSettings: map<string, Obj>, order: seq<string>, defaults: PoolDefaults,
                     inDev: bool)
    requires forall i :: 0 <= i < |order| ==> order[i] in dbSettings
  {
    forall i :: 0 <= i < |order| ==> MakeFactory(order[i], dbSettings[order[i]], defaults, inDev).Success?
  }

  lemma AllBuildTail(dbSettings: map<string, Obj>, order: seq<string>, defaults: PoolDefaults,
                     inDev: bool)
    requires |order| > 0 && forall i :: 0 <= i < |order| ==> order[i] in dbSettings
    ensures AllBuild(dbSettings, order, defaults, inDev) <==>
              MakeFactory(order[0], dbSettings[order[0]], defaults, inDev).Success?
              && AllBuild(dbSettings, order[1..], defaults, inDev)
  {
    assert forall i :: 1 <= i < |order| ==> order[i] == order[1..][i - 1];
  }

  /** Starting from a manager that holds none of them, a successful
      `create_sessions` holds exactly the old sessions and the databases of
      the settings, each built from its own settings; it fails only when
      some database's settings are malformed. */
  lemma {:induction false} CreateSessionsRegistersAll(m: Manager, dbSettings: map<string, Obj>,
                                                      order: seq<string>, defaults: PoolDefaults,
                                                      inDev: bool)
    requires forall i :: 0 <= i < |order| ==> order[i] in dbSettings
    requires forall i, j :: 0 <= i < j < |order| ==> order[i] != order[j]
    requires forall i :: 0 <= i < |order| ==> order[i] !in m
    ensures CreateSessions(m, dbSettings, order, defaults, inDev).Success? <==>
              AllBuild(dbSettings, order, defaults, inDev)
    ensures CreateSessions(m, dbSettings, order, defaults, inDev).Success? ==>
              var r := CreateSessions(m, dbSettings, order, defaults, inDev).value;
              (forall n :: n in r <==> n in m || n in order)
              && (forall n :: n in m ==> r[n] == m[n])
              && (forall i :: 0 <= i < |order| ==>
                    r[order[i]] == MakeFactory(order[i], dbSettings[order[i]], defaults, inDev).value)
    decreases |order|
  {
    if |order| > 0 {
      AllBuildTail(dbSettings, order, defaults, inDev);
      var a := AddSession(m, order[0], dbSettings[order[0]], defaults, inDev);
      if a.Success? {
        var tail := order[1..];
        assert forall i :: 0 <= i < |tail| ==> tail[i] == order[i + 1] && tail[i] != order[0];
        CreateSessionsRegistersAll(a.value, dbSettings, tail, defaults, inDev);
        var r := CreateSessions(m, dbSettings, order, defaults, inDev);
        assert r == CreateSessions(a.value, dbSettings, tail, defaults, inDev);
        if r.Success? {
          forall n
            ensures n in r.value <==> n in m || n in order
          {
            assert n in order <==> n == order[0] || n in tail;
          }
          forall i | 0 <= i < |order|
            ensures r.value[order[i]] == MakeFactory(order[i], dbSettings[order[i]], defaults, inDev).value
          {
            if i > 0 {
              assert order[i] == tail[i - 1];
            }
          }
        }
      }
    }
  }

  /** After a successful `add_session` the name resolves to the new factory
      and a second `add_session` under it is refused. */
  lemma AddThenGet(m: Manager, name: string, config: Obj, defaults: PoolDefaults, inDev: bool,
                   other: string)
    requires AddSession(m, name, config, defaults, inDev).Success?
    ensures var m' := AddSession(m, name, config, defaults, inDev).value;
            GetSession(m', name) == MakeFactory(name, config, defaults, inDev)
            && AddSession(m', name, config, defaults, inDev) == Failure(DuplicateSession(name))
            && (other != name ==> GetSession(m', other) == GetSession(m, other))
  {
  }

  /** What `close_sessions` does to one registered session. */
  datatype Closing = Closing(db: string, invalidated: bool, removed: bool)

  /** Calling a factory (`dbsession()`) to reach its session raises when the
      registry holds no session for the current scope yet and the new
      `RoutingSession` fails its slave assertion, which happens exactly when
      no role other than `master` is configured. */
  predicate SessionCallRaises(f: Factory, hasSession: bool)
  {
    !hasSession && f.engines.Keys <= {"master"}
  }

  /** `close_sessions`: the sessions are visited in iteration order. When
      asked to close connections, each factory is called for its session;
      that call is outside the `try`, so the first one that raises ends the
      loop, and every session after it is left alone. Otherwise the
      connections are invalidated when a transaction is open, and a failing
      `remove()` is logged and does not stop the others. */
  method CloseSessions(m: Manager, order: seq<string>, shouldCloseConnection: bool,
                       hasSession: string -> bool, inTransaction: string -> bool,
                       removeRaises: string -> bool)
    returns (steps: seq<Closing>, raised: bool)
    requires IterationOrder(order, m.Keys)
    ensures |steps| <= |order|
    ensures forall i :: 0 <= i < |steps| ==> steps[i].db == order[i]
    ensures forall i :: 0 <= i < |steps| ==>
              steps[i].invalidated == (shouldCloseConnection && inTransaction(steps[i].db))
              && steps[i].removed == !removeRaises(steps[i].db)
    ensures forall i :: 0 <= i < |steps| ==>
              !(shouldCloseConnection && SessionCallRaises(m[order[i]], hasSession(order[i])))
    ensures raised <==> shouldCloseConnection
                        && exists n :: n in m && SessionCallRaises(m[n], hasSession(n))
    ensures raised ==> |steps| < |order| && SessionCallRaises(m[order[|steps|]], hasSession(order[|steps|]))
    ensures !raised ==> |steps| == |m|
                        && forall n :: n in m <==> exists i :: 0 <= i < |steps| && steps[i].db == n
  {
    steps := [];
    raised := false;
    var i := 0;
    while i < |order|
      invariant 0 <= i <= |order|
      invariant |steps| == i
      invariant forall j :: 0 <= j < i ==> steps[j].db == order[j]
      invariant forall j :: 0 <= j < i ==>
                  steps[j].invalidated == (shouldCloseConnection && inTransaction(steps[j].db))
                  && steps[j].removed == !removeRaises(steps[j].db)
      invariant forall j :: 0 <= j < i ==>
                  !(shouldCloseConnection && SessionCallRaises(m[order[j]], hasSession(order[j])))
    {
      var name := order[i];
      if shouldCloseConnection && SessionCallRaises(m[name], hasSession(name)) {
        raised := true;
        break;
      }
      var invalidate := shouldCloseConnection && inTransaction(name);
      steps := steps + [Closing(name, invalidate, !removeRaises(name))];
      i := i + 1;
    }
    OrderCoversKeys(order, m.Keys);
    if !raised {
      forall n | n in m
        ensures exists j :: 0 <= j < |steps| && steps[j].db == n
        ensures !(shouldCloseConnection && SessionCallRaises(m[n], hasSession(n)))
      {
        var j :| 0 <= j < |order| && order[j] == n;
        assert steps[j].db == n;
      }
    } else {
      assert order[i] in m;
    }
  }

  /** A factory built from settings that name a non-master role never fails
      when called: closing with `should_close_connection` set cannot stop at
      such a database. */
  lemma BuiltFactoryCallSucceeds(db: string, config: Obj, defaults: PoolDefaults, inDev: bool,
                                 role: string, hasSession: bool)
    requires MakeFactory(db, config, defaults, inDev).Success?
    requires role in config.items["urls"].items && role != "master"
    ensures !SessionCallRaises(MakeFactory(db, config, defaults, inDev).value, hasSession)
  {
    assert role in MakeFactory(db, config, defaults, inDev).value.engines;
  }

  // ---------------------------------------------------------------------------
  // sql_commenter

  /** `sql_commenter`: while a request is being served (its id is in the call
      metadata) the statement is prefixed with a comment naming the request,
      the RPC id (or the placeholder when unset) and the engine's role, or
      `unknown` for a connection without one; the parameters always pass
      through. */
  function SqlCommenter(c: Ctx.ConnCtx, executionOptions: map<string, Obj>, statement: string,
                        params: Obj, placeholder: Obj, reprOf: Obj -> string)
    : (out: (string, Obj))
    ensures out.1 == params
    ensures "request_id" !in c.callMeta ==> out.0 == statement
    ensures "request_id" in c.callMeta ==>
              var rpc := if "seq" in c.callMeta then c.callMeta["seq"] else placeholder;
              var role := if "role" in executionOptions then StrOf(executionOptions["role"], reprOf)
                          else "unknown";
              out.0 == "/* E:rid=" + StrOf(c.callMeta["request_id"], reprOf)
                       + "&rpcid=" + StrOf(rpc, reprOf) + "&role=" + role + ":E */ " + statement
  {
    if "request_id" in c.callMeta then
      var rid := StrOf(Ctx.GetCallMeta(c, "request_id", placeholder), reprOf);
      var rpc := StrOf(Ctx.GetCallMeta(c, "seq", placeholder), reprOf);
      var role := StrOf(Get(executionOptions, "role").GetOr(Str("unknown")), reprOf);
      ("/* E:rid=" + rid + "&rpcid=" + rpc + "&role=" + role + ":E */ " + statement, params)
    else (statement, params)
  }

  /** On an engine the manager created, the comment names that engine's own
      role. */
  lemma CommentNamesEngineRole(c: Ctx.ConnCtx, e: Engine, statement: string, params: Obj,
                               placeholder: Obj, reprOf: Obj -> string)
    requires "request_id" in c.callMeta
    ensures SqlCommenter(c, ExecutionOptions(e), statement, params, placeholder, reprOf).0
            == "/* E:rid=" + StrOf(c.callMeta["request_id"], reprOf)
               + "&rpcid=" + StrOf(Ctx.GetCallMeta(c, "seq", placeholder), reprOf)
               + "&role=" + e.role + ":E */ " + statement
  {
  }
}

=== FILE: log.dfy ===
/** Structured logging: converting log arguments to text, the scoped
    `logging_meta` key/value pairs, and the `[app rpc request] k => v ## body`
    line layout of the formatter. */
module Log {
  import opened Wrappers
  import opened Py
  import Text
  import Ctx

  /** `obj2str`: unicode is encoded as UTF-8; strings, machine integers and
      booleans go through `str`; everything else through `repr`, which for a
      `long` is its decimal text with an `L`, and for other values is
      supplied. */
  function Obj2Str(o: Obj, reprOf: Obj -> string): (r: string)
    ensures o.Unicode? ==> r == Utf8Encode(o.u)
    ensures (o.Str? || o.Int? || o.Bool?) ==> r == StrOf(o, reprOf)
    ensures o.Long? ==> r == StrOf(o, reprOf) + "L"
    ensures !(o.Unicode? || o.Str? || o.Int? || o.Bool? || o.Long?) ==> r == reprOf(o)
  {
    match o
    case Unicode(u) => Utf8Encode(u)
    case Str(_) => StrOf(o, reprOf)
    case Int(_) => StrOf(o, reprOf)
    case Bool(_) => StrOf(o, reprOf)
    case Long(l) => Text.IntToDecimal(l) + "L"
    case _ => reprOf(o)
  }

  /** For every string and number, `obj2str` agrees with `str` except that a
      `long` keeps the `L` of its `repr`; a byte string comes back unchanged. */
  lemma Obj2StrAgreesWithStr(o: Obj, reprOf: Obj -> string)
    requires o.Str? || o.Int? || o.Bool? || o.Long? || o.Unicode?
    requires o.Unicode? ==> forall i :: 0 <= i < |o.u| ==> o.u[i] as int < 0x80
    ensures Obj2Str(o, reprOf) == StrOf(o, reprOf) + (if o.Long? then "L" else "")
    ensures o.Str? ==> Obj2Str(o, reprOf) == o.s
  {
    if o.Unicode? {
      Utf8OfAscii(o.u);
    }
  }

  // ---------------------------------------------------------------------------
  // logging_meta

  /** How leaving a block fails: a `pop` of a key the body removed raises
      `KeyError` (replacing any exception of the body), or the body's own
      exception propagates once the `finally` clause restored `restored`. */
  datatype MetaError = PopOfMissingKey | BodyRaised(restored: map<string, Obj>)

  /** What the body of a block did: the dictionary it leaves behind, and
      whether it raised. */
  datatype BodyOutcome = BodyOutcome(meta: map<string, Obj>, raised: bool)

  /** The state inside a `with logging_meta(**kw)` block: the merged
      dictionary, and the values the block's keys shadowed. */
  datatype Frame = Frame(meta: map<string, Obj>, conflicts: map<string, Obj>)

  function Enter(meta: map<string, Obj>, kw: map<string, Obj>): (f: Frame)
    ensures f.conflicts.Keys == kw.Keys * meta.Keys
    ensures forall k :: k in f.conflicts ==> f.conflicts[k] == meta[k]
    ensures forall k :: k in kw ==> Get(f.meta, k) == Some(kw[k])
    ensures forall k :: k !in kw ==> Get(f.meta, k) == Get(meta, k)
  {
    Frame(meta + kw, map k | k in kw.Keys * meta.Keys :: meta[k])
  }

  /** Leaving the block: pop every key of the block, then put the shadowed
      values back. The pop raises `KeyError` when the block's body removed
      one of those keys. */
  function Exit(meta: map<string, Obj>, kw: map<string, Obj>, conflicts: map<string, Obj>)
    : (r: Result<map<string, Obj>, MetaError>)
    ensures r.Failure? <==> !(kw.Keys <= meta.Keys)
    ensures r.Failure? ==> r.error == PopOfMissingKey
    ensures r.Success? ==> forall k :: k in conflicts ==> Get(r.value, k) == Some(conflicts[k])
    ensures r.Success? ==> forall k :: k !in conflicts && k in kw ==> k !in r.value
    ensures r.Success? ==> forall k :: k !in conflicts && k !in kw ==> Get(r.value, k) == Get(meta, k)
  {
    if kw.Keys <= meta.Keys then Success((meta - kw.Keys) + conflicts)
    else Failure(PopOfMissingKey)
  }

  /** The dictionary a block leaves behind when its `finally` clause ran to
      the end, whether the body returned or raised. */
  function Restored(r: Result<map<string, Obj>, MetaError>): map<string, Obj>
    requires r.Success? || r.error.BodyRaised?
  {
    if r.Success? then r.value else r.error.restored
  }

  /** A whole `with logging_meta(**kw)` block. The `finally` clause runs
      whether the body returns or raises: its `KeyError` wins when the body
      removed one of the block's keys; otherwise a raising body's exception
      propagates after the restore. */
  function WithLoggingMeta(meta: map<string, Obj>, kw: map<string, Obj>,
                           body: map<string, Obj> -> BodyOutcome)
    : (r: Result<map<string, Obj>, MetaError>)
    ensures r.Failure? <==> body(Enter(meta, kw).meta).raised || !(kw.Keys <= body(Enter(meta, kw).meta).meta.Keys)
    ensures r == Failure(PopOfMissingKey) <==> !(kw.Keys <= body(Enter(meta, kw).meta).meta.Keys)
    ensures r.Failure? && r.error.BodyRaised? ==> body(Enter(meta, kw).meta).raised
  {
    var f := Enter(meta, kw);
    var out := body(f.meta);
    var restored :- Exit(out.meta, kw, f.conflicts);
    if out.raised then Failure(BodyRaised(restored)) else Success(restored)
  }

  /** Leaving the block restores every key the block set to what it was
      before (absent keys become absent again), and keeps whatever the body
      did to every other key; the restore is the same whether the body
      returned or raised. */
  lemma LoggingMetaRestores(meta: map<string, Obj>, kw: map<string, Obj>,
                            body: map<string, Obj> -> BodyOutcome)
    requires kw.Keys <= body(Enter(meta, kw).meta).meta.Keys
    ensures WithLoggingMeta(meta, kw, body).Success? <==> !body(Enter(meta, kw).meta).raised
    ensures WithLoggingMeta(meta, kw, body).Success? || WithLoggingMeta(meta, kw, body).error.BodyRaised?
    ensures forall k :: k in kw ==> Get(Restored(WithLoggingMeta(meta, kw, body)), k) == Get(meta, k)
    ensures forall k :: k !in kw ==>
      Get(Restored(WithLoggingMeta(meta, kw, body)), k) == Get(body(Enter(meta, kw).meta).meta, k)
  {
    var f := Enter(meta, kw);
    var r := WithLoggingMeta(meta, kw, body);
    var d := Exit(body(f.meta).meta, kw, f.conflicts).value;
    assert Restored(r) == d;
    forall k | k in kw
      ensures Get(d, k) == Get(meta, k)
    {
      if k in meta {
        assert k in f.conflicts;
      } else {
        assert k !in f.conflicts;
      }
    }
  }

  /** A block whose body leaves the metadata alone hands back exactly the
      dictionary it started from: as its result when the body returns, and
      as the state the body's exception leaves when it raises. */
  lemma LoggingMetaIdentity(meta: map<string, Obj>, kw: map<string, Obj>, raised: bool)
    ensures WithLoggingMeta(meta, kw, m => BodyOutcome(m, raised))
            == if raised then Failure(BodyRaised(meta)) else Success(meta)
  {
    var body := m => BodyOutcome(m, raised);
    LoggingMetaRestores(meta, kw, body);
    var f := Enter(meta, kw);
    var r := Restored(WithLoggingMeta(meta, kw, body));
    forall k
      ensures (k in r <==> k in meta) && (k in r ==> r[k] == meta[k])
    {
      if k !in kw {
        assert Get(r, k) == Get(f.meta, k) == Get(meta, k);
      } else {
        assert Get(r, k) == Get(meta, k);
      }
    }
    assert r == meta;
  }

  /** Clearing the request context (`clear_api_ctx`) inside a non-empty block
      empties the very dictionary the block will pop from, so leaving it
      raises `KeyError`, whether or not the body raised as well. */
  lemma ClearInsideBlockRaises(c: Ctx.ConnCtx, kw: map<string, Obj>, raised: bool)
    requires |kw| > 0
    ensures WithLoggingMeta(c.loggingMeta, kw,
              m => BodyOutcome(Ctx.ClearApiCtx(c.(loggingMeta := m)).loggingMeta, raised))
            == Failure(PopOfMissingKey)
  {
    var k :| k in kw;
  }

  // ---------------------------------------------------------------------------
  // the formatter

  /** `[app_id rpc_id request_id]`, each printed with `str`. */
  function RequiredMeta(appId: Obj, c: Ctx.ConnCtx, placeholder: Obj, reprOf: Obj -> string)
    : (r: string)
    ensures |r| >= 4 && r[0] == '[' && r[|r| - 1] == ']'
  {
    "[" + StrOf(appId, reprOf)
    + " " + StrOf(Ctx.GetCallMeta(c, "seq", placeholder), reprOf)
    + " " + StrOf(Ctx.GetCallMeta(c, "request_id", placeholder), reprOf) + "]"
  }

  /** The required block shows the app id, then the call's `seq` and
      `request_id` as stored, or the placeholder for each one not set. */
  lemma RequiredMetaShowsCallMeta(appId: Obj, c: Ctx.ConnCtx, placeholder: Obj, reprOf: Obj -> string)
    ensures var s := if "seq" in c.callMeta then c.callMeta["seq"] else placeholder;
            var rid := if "request_id" in c.callMeta then c.callMeta["request_id"] else placeholder;
            RequiredMeta(appId, c, placeholder, reprOf)
            == "[" + StrOf(appId, reprOf) + " " + StrOf(s, reprOf) + " " + StrOf(rid, reprOf) + "]"
  {
  }

  /** `'{} => {}'.format(obj2str(k), obj2str(v))` for a string key. */
  function Item(k: string, v: Obj, reprOf: Obj -> string): (r: string)
    ensures r == k + " => " + Obj2Str(v, reprOf)
  {
    Obj2Str(Str(k), reprOf) + " => " + Obj2Str(v, reprOf)
  }

  /** One `k => v` item per logging-metadata entry, in iteration order. */
  function ExtraMeta(meta: map<string, Obj>, order: seq<string>, reprOf: Obj -> string)
    : (items: seq<string>)
    requires forall i :: 0 <= i < |order| ==> order[i] in meta
    ensures |items| == |order|
    ensures forall i :: 0 <= i < |order| ==> items[i] == Item(order[i], meta[order[i]], reprOf)
  {
    if |order| == 0 then []
    else [Item(order[0], meta[order[0]], reprOf)] + ExtraMeta(meta, order[1..], reprOf)
  }

  /** The items after the required block, each preceded by its space. */
  function Pairs(meta: map<string, Obj>, order: seq<string>, reprOf: Obj -> string): string
    requires forall i :: 0 <= i < |order| ==> order[i] in meta
  {
    if |order| == 0 then ""
    else " " + Item(order[0], meta[order[0]], reprOf) + Pairs(meta, order[1..], reprOf)
  }

  lemma {:induction false} ExtraMetaPairs(meta: map<string, Obj>, order: seq<string>,
                                          reprOf: Obj -> string)
    requires forall i :: 0 <= i < |order| ==> order[i] in meta
    ensures Text.Prefixed(ExtraMeta(meta, order, reprOf), " ") == Pairs(meta, order, reprOf)
    decreases |order|
  {
    if |order| > 0 {
      ExtraMetaPairs(meta, order[1..], reprOf);
      var items := ExtraMeta(meta, order, reprOf);
      assert items[1..] == ExtraMeta(meta, order[1..], reprOf);
    }
  }

  /** `RestFormatter._format`: the metadata items joined by spaces, then
      `" ## "`, then the message. The line reads: the required block, then
      ` key => value` for each metadata entry in iteration order, then
      ` ## ` and the message. */
  function FormatLine(appId: Obj, c: Ctx.ConnCtx, msg: Obj, order: seq<string>,
                      placeholder: Obj, reprOf: Obj -> string): (line: string)
    requires IterationOrder(order, c.loggingMeta.Keys)
    ensures line == RequiredMeta(appId, c, placeholder, reprOf)
                    + Pairs(c.loggingMeta, order, reprOf) + " ## " + Obj2Str(msg, reprOf)
  {
    var required := RequiredMeta(appId, c, placeholder, reprOf);
    var extra := ExtraMeta(c.loggingMeta, order, reprOf);
    Text.JoinAfterHead(required, extra, " ");
    ExtraMetaPairs(c.loggingMeta, order, reprOf);
    Text.Join([required] + extra, " ") + " ## " + Obj2Str(msg, reprOf)
  }

  /** Whatever the metadata, the line opens with the required block and
      closes with ` ## ` and the message. */
  lemma FormatFrame(appId: Obj, c: Ctx.ConnCtx, msg: Obj, order: seq<string>,
                    placeholder: Obj, reprOf: Obj -> string)
    requires IterationOrder(order, c.loggingMeta.Keys)
    ensures Text.StartsWith(FormatLine(appId, c, msg, order, placeholder, reprOf),
                            RequiredMeta(appId, c, placeholder, reprOf))
    ensures Text.EndsWith(FormatLine(appId, c, msg, order, placeholder, reprOf),
                          " ## " + Obj2Str(msg, reprOf))
  {
    var required := RequiredMeta(appId, c, placeholder, reprOf);
    var pairs := Pairs(c.loggingMeta, order, reprOf);
    var tail := " ## " + Obj2Str(msg, reprOf);
    assert FormatLine(appId, c, msg, order, placeholder, reprOf) == required + pairs + tail;
    Text.Affixes(required, pairs, tail);
  }

  /** With no metadata the line is just the required block and the message. */
  lemma FormatWithoutMeta(appId: Obj, c: Ctx.ConnCtx, msg: Obj, order: seq<string>,
                          placeholder: Obj, reprOf: Obj -> string)
    requires IterationOrder(order, c.loggingMeta.Keys)
    requires |c.loggingMeta| == 0
    ensures FormatLine(appId, c, msg, order, placeholder, reprOf)
            == RequiredMeta(appId, c, placeholder, reprOf) + " ## " + Obj2Str(msg, reprOf)
  {
    OrderCoversKeys(order, c.loggingMeta.Keys);
    assert Pairs(c.loggingMeta, order, reprOf) == "";
  }
}

=== FILE: mock_queue.dfy ===
/** The in-process queue used instead of a broker (`USE_MEMORY_MQ`): the
    worker turns each queued tuple into a task, a plain task calls one
    service, and a signal task calls every client that declares the signal.
    Threads, `gevent.sleep` and the remote call itself are not modelled: a
    call is the record of what would be invoked, and whether it raises is a
    parameter. */
module MockQueue {
  import opened Wrappers
  import opened Py
  import Text
  import AsyncTasks

  datatype Task =
    | SimpleTask(service: Obj, api: string, args: seq<Obj>, kwargs: map<string, Obj>)
    | SignalTask(api: string, args: seq<Obj>, kwargs: map<string, Obj>)

  /** `Task.create`: a call without a service is a signal. */
  function Create(c: AsyncTasks.QueuedCall): (t: Task)
    ensures t.SignalTask? <==> c.service == NoneObj
    ensures t.api == c.api && t.args == c.args && t.kwargs == c.kwargs
    ensures t.SimpleTask? ==> t.service == c.service
  {
    if c.service == NoneObj then SignalTask(c.api, c.args, c.kwargs)
    else SimpleTask(c.service, c.api, c.args, c.kwargs)
  }

  /** An invocation of `api` on `service`'s client with a task's positional
      arguments, after sleeping `delay` seconds when it is present. The
      task's keyword arguments are not passed on. */
  datatype ApiCall = ApiCall(service: Obj, api: string, args: seq<Obj>, delay: Option<Obj>)

  /** `Task.call_api`: a truthy `countdown` keyword argument delays the call. */
  function CallApi(t: Task, service: Obj): (call: ApiCall)
    ensures call.service == service && call.api == t.api && call.args == t.args
    ensures call.delay.Some? <==> "countdown" in t.kwargs && Truthy(t.kwargs["countdown"])
    ensures call.delay.Some? ==> call.delay.value == t.kwargs["countdown"]
  {
    var countdown := Get(t.kwargs, "countdown").GetOr(NoneObj);
    ApiCall(service, t.api, t.args, if Truthy(countdown) then Some(countdown) else None)
  }

  /** The calls a task's thread attempted, and whether it ended in an
      exception. */
  datatype Execution = Execution(calls: seq<ApiCall>, raised: bool)

  /** The slug `_get_slug` takes from a client key: its second dot-separated
      piece; a key without a dot raises IndexError. */
  function SlugOf(key: string): (r: Option<string>)
    ensures r.Some? <==> '.' in key
  {
    var parts := Text.Split(key, '.');
    Text.SplitCount(key, '.');
    CountIn(key, '.');
    if |parts| >= 2 then Some(parts[1]) else None
  }

  lemma {:induction false} CountIn(s: string, c: char)
    ensures Text.Count(s, c) > 0 <==> c in s
  {
    if |s| > 0 {
      CountIn(s[1..], c);
      assert s == [s[0]] + s[1..];
    }
  }

  /** `SignalTask.execute`, over the clients from `order` on: every client
      whose APIs include the signal is called by its slug; the first
      exception, from a key without a dot or from a call, ends the thread. */
  function Fanout(t: Task, clients: map<string, set<string>>, order: seq<string>,
                  raises: ApiCall -> bool): (e: Execution)
    requires forall i :: 0 <= i < |order| ==> order[i] in clients
    ensures |e.calls| <= |order|
    decreases |order|
  {
    if |order| == 0 then Execution([], false)
    else if t.api !in clients[order[0]] then Fanout(t, clients, order[1..], raises)
    else match SlugOf(order[0])
      case None => Execution([], true)
      case Some(slug) =>
        var call := CallApi(t, Str(slug));
        if raises(call) then Execution([call], true)
        else
          var rest := Fanout(t, clients, order[1..], raises);
          Execution([call] + rest.calls, rest.raised)
  }

  /** The call a signal makes to the subscriber under `key`: by the slug,
      the key's second dot-separated piece. */
  function SlugCall(t: Task, key: string): ApiCall
    requires '.' in key
  {
    CallApi(t, Str(SlugOf(key).value))
  }

  /** `execute` of either kind of task. A plain task for `ees` does nothing;
      a unicode `u'ees'` compares equal to it. */
  function Execute(t: Task, clients: map<string, set<string>>, order: seq<string>,
                   raises: ApiCall -> bool): (e: Execution)
    requires Py.IterationOrder(order, clients.Keys)
    ensures t.SimpleTask? && TextOf(t.service) == Some("ees") ==> e == Execution([], false)
    ensures t.SimpleTask? && TextOf(t.service) != Some("ees") ==>
              e.calls == [CallApi(t, t.service)] && e.raised == raises(CallApi(t, t.service))
  {
    match t
    case SimpleTask(service, _, _, _) =>
      if TextOf(service) == Some("ees") then Execution([], false)
      else
        var call := CallApi(t, service);
        Execution([call], raises(call))
    case SignalTask(_, _, _) => Fanout(t, clients, order, raises)
  }

  /** The subscribers of a signal, in iteration order. */
  function Subscribers(api: string, clients: map<string, set<string>>, order: seq<string>)
    : (subs: seq<string>)
    requires forall i :: 0 <= i < |order| ==> order[i] in clients
    ensures forall k :: k in subs <==> k in order && api in clients[k]
  {
    if |order| == 0 then []
    else if api in clients[order[0]] then [order[0]] + Subscribers(api, clients, order[1..])
    else Subscribers(api, clients, order[1..])
  }

  function CallsFor(t: Task, keys: seq<string>): seq<ApiCall>
    requires forall i :: 0 <= i < |keys| ==> '.' in keys[i]
  {
    if |keys| == 0 then []
    else [SlugCall(t, keys[0])] + CallsFor(t, keys[1..])
  }

  /** The call a signal plans for each subscriber, in order: by its slug,
      or none when its key has no dot (getting the slug raises). */
  function Planned(t: Task, keys: seq<string>): (plan: seq<Option<ApiCall>>)
    ensures |plan| == |keys|
    ensures forall i :: 0 <= i < |keys| ==>
              plan[i] == if '.' in keys[i] then Some(SlugCall(t, keys[i])) else None
  {
    if |keys| == 0 then []
    else [if '.' in keys[0] then Some(SlugCall(t, keys[0])) else None] + Planned(t, keys[1..])
  }

  /** Carrying out a plan: the calls are made in order until a step has no
      call or a call raises. */
  function Walk(plan: seq<Option<ApiCall>>, raises: ApiCall -> bool): (e: Execution)
    ensures |e.calls| <= |plan|
    ensures forall i :: 0 <= i < |e.calls| ==> plan[i] == Some(e.calls[i])
  {
    if |plan| == 0 then Execution([], false)
    else match plan[0]
      case None => Execution([], true)
      case Some(call) =>
        if raises(call) then Execution([call], true)
        else
          var rest := Walk(plan[1..], raises);
          var calls := [call] + rest.calls;
          assert forall i :: 1 <= i < |calls| ==> calls[i] == rest.calls[i - 1] && plan[i] == plan[1..][i - 1];
          Execution(calls, rest.raised)
  }

  /** How a walk ends: every call but the last returned; without an
      exception the whole plan was carried out and no call raised; with
      one, either the next step has no call (nothing more is called) or the
      last call made is the one that raised. */
  lemma {:induction false} WalkEnds(plan: seq<Option<ApiCall>>, raises: ApiCall -> bool)
    ensures var e := Walk(plan, raises);
            (forall i :: 0 <= i < |e.calls| - 1 ==> !raises(e.calls[i]))
            && (!e.raised ==> |e.calls| == |plan| && forall i :: 0 <= i < |e.calls| ==> !raises(e.calls[i]))
            && (e.raised ==> (|e.calls| < |plan| && plan[|e.calls|].None?)
                             || (|e.calls| > 0 && raises(e.calls[|e.calls| - 1])))
    decreases |plan|
  {
    if |plan| > 0 && plan[0].Some? && !raises(plan[0].value) {
      WalkEnds(plan[1..], raises);
      var rest := Walk(plan[1..], raises);
      var e := Walk(plan, raises);
      assert e.calls == [plan[0].value] + rest.calls && e.raised == rest.raised;
      assert forall i :: 1 <= i < |e.calls| ==> e.calls[i] == rest.calls[i - 1];
      if |rest.calls| < |plan| - 1 {
        assert plan[|e.calls|] == plan[1..][|rest.calls|];
      }
    }
  }

  /** `SignalTask.execute` walks all clients and skips the ones without the
      signal; that is the same as carrying out the plan for the subscribers
      alone. */
  lemma {:induction false} FanoutIsOverSubscribers(t: Task, clients: map<string, set<string>>,
                                                   order: seq<string>, raises: ApiCall -> bool)
    requires forall i :: 0 <= i < |order| ==> order[i] in clients
    ensures Fanout(t, clients, order, raises) == Walk(Planned(t, Subscribers(t.api, clients, order)), raises)
    decreases |order|
  {
    if |order| > 0 {
      FanoutIsOverSubscribers(t, clients, order[1..], raises);
      var subs := Subscribers(t.api, clients, order);
      if t.api in clients[order[0]] {
        assert subs == [order[0]] + Subscribers(t.api, clients, order[1..]);
        assert Planned(t, subs)[1..] == Planned(t, subs[1..]);
      }
    }
  }

  /** When every subscriber's key has a dot and no call raises, a signal
      reaches each subscriber exactly once, in iteration order, under the
      slug taken from its key. */
  lemma {:induction false} FanoutCallsEverySubscriber(t: Task, clients: map<string, set<string>>,
                                                      order: seq<string>, raises: ApiCall -> bool)
    requires forall i :: 0 <= i < |order| ==> order[i] in clients
    requires forall i :: 0 <= i < |order| && t.api in clients[order[i]] ==> '.' in order[i]
    requires forall c :: !raises(c)
    ensures forall k :: k in Subscribers(t.api, clients, order) ==> '.' in k
    ensures Fanout(t, clients, order, raises)
            == Execution(CallsFor(t, Subscribers(t.api, clients, order)), false)
    decreases |order|
  {
    if |order| > 0 {
      FanoutCallsEverySubscriber(t, clients, order[1..], raises);
      assert forall i :: 1 <= i < |order| ==> order[1..][i - 1] == order[i];
    }
  }

  /** A subscriber whose key has no dot stops the fan-out: nothing after it
      is called. */
  lemma {:induction false} DotlessKeyStopsFanout(t: Task, clients: map<string, set<string>>,
                                                 order: seq<string>, raises: ApiCall -> bool)
    requires forall i :: 0 <= i < |order| ==> order[i] in clients
    requires |order| > 0 && t.api in clients[order[0]] && '.' !in order[0]
    ensures Fanout(t, clients, order, raises) == Execution([], true)
  {
  }

  /** `worker`: every queued tuple, in FIFO order, becomes a task. */
  function Worker(queue: seq<AsyncTasks.QueuedCall>): (tasks: seq<Task>)
    ensures |tasks| == |queue|
    ensures forall i :: 0 <= i < |queue| ==> tasks[i] == Create(queue[i])
  {
    if |queue| == 0 then [] else [Create(queue[0])] + Worker(queue[1..])
  }

  /** In memory mode, a call sent to a service other than `ees` is taken off
      the queue after the calls queued before it and invokes that service's
      API with the same positional arguments. */
  lemma SentCallIsInvoked(queue: seq<AsyncTasks.QueuedCall>, service: string, api: string,
                          args: seq<Obj>, kwargs: map<string, Obj>,
                          clients: map<string, set<string>>, order: seq<string>,
                          raises: ApiCall -> bool)
    requires service != "ees"
    requires Py.IterationOrder(order, clients.Keys)
    ensures var d := AsyncTasks.SendTask(true, queue, Str(service), api, args, kwargs);
            d.Enqueued?
            && Worker(d.queue)[..|queue|] == Worker(queue)
            && Execute(Worker(d.queue)[|queue|], clients, order, raises).calls
               == [ApiCall(Str(service), api, args,
                           if "countdown" in kwargs && Truthy(kwargs["countdown"])
                           then Some(kwargs["countdown"]) else None)]
  {
    var c := AsyncTasks.QueuedCall(Str(service), api, args, kwargs);
    var d := AsyncTasks.SendTask(true, queue, Str(service), api, args, kwargs);
    assert d.queue == queue + [c];
    WorkerAppends(queue, c);
    var t := Create(c);
    assert t == SimpleTask(Str(service), api, args, kwargs);
    assert TextOf(t.service) == Some(service);
    assert TextOf(t.service) != Some("ees");
  }

  /** The worker takes an appended call after the ones already queued. */
  lemma WorkerAppends(queue: seq<AsyncTasks.QueuedCall>, c: AsyncTasks.QueuedCall)
    ensures Worker(queue + [c])[..|queue|] == Worker(queue)
    ensures Worker(queue + [c])[|queue|] == Create(c)
  {
    var w := Worker(queue + [c]);
    forall i | 0 <= i < |queue|
      ensures w[..|queue|][i] == Worker(queue)[i]
    {
      assert (queue + [c])[i] == queue[i];
    }
  }
}

=== FILE: py.dfy ===
/** The Python 2 values that flow through the framework: settings values,
    request-context entries and log arguments, with the parts of `type`,
    `isinstance`, truth testing, `str`, `repr` and UTF-8 encoding that the
    framework's decisions depend on. */
module Py {
  import Text
  import opened Wrappers

  /** `sys.maxint` on a 64-bit build. */
  const MaxInt: int := 0x7FFF_FFFF_FFFF_FFFF

  /** The values of a Python 2 `int`; anything beyond is a `long`. */
  type MachineInt = i: int | -MaxInt - 1 <= i <= MaxInt

  /** A Python value. `Int` is a machine `int` and `Long` an arbitrary
      precision `long`, a distinct type (`isinstance(10L, int)` is false).
      `Empty` is `utils.EmptyValue`, the wrapper marking a
      setting that may legitimately be left empty; `Other` is an instance of
      any other class, known by its class name. */
  datatype Obj =
    | Str(s: string)
    | Unicode(u: string)
    | Int(i: MachineInt)
    | Long(l: int)
    | Bool(b: bool)
    | NoneObj
    | Dict(items: map<string, Obj>)
    | List(elems: seq<Obj>)
    | Func(name: string)
    | Empty(val: Obj)
    | Other(cls: string)

  /** The classes `type(v)` can return, plus `basestring`. */
  datatype PyType =
    | StrType | UnicodeType | BaseStringType | IntType | LongType | BoolType | NoneType
    | DictType | ListType | FunctionType | EmptyValueType | ClassType(name: string)

  function TypeOf(v: Obj): PyType {
    match v
    case Str(_) => StrType
    case Unicode(_) => UnicodeType
    case Int(_) => IntType
    case Long(_) => LongType
    case Bool(_) => BoolType
    case NoneObj => NoneType
    case Dict(_) => DictType
    case List(_) => ListType
    case Func(_) => FunctionType
    case Empty(_) => EmptyValueType
    case Other(c) => ClassType(c)
  }

  /** `issubclass(t, basestring)`. */
  predicate IsStringType(t: PyType) {
    t == StrType || t == UnicodeType || t == BaseStringType
  }

  /** `isinstance(v, t)`: `bool` is a subclass of `int`, and `str` and
      `unicode` are the subclasses of `basestring`. */
  predicate IsInstance(v: Obj, t: PyType) {
    TypeOf(v) == t
    || (t == IntType && v.Bool?)
    || (t == BaseStringType && (v.Str? || v.Unicode?))
  }

  /** Python truth testing. `EmptyValue` and other instances use the default
      object truth, which is true. */
  predicate Truthy(v: Obj) {
    match v
    case Str(s) => |s| > 0
    case Unicode(u) => |u| > 0
    case Int(i) => i != 0
    case Long(l) => l != 0
    case Bool(b) => b
    case NoneObj => false
    case Dict(m) => |m| > 0
    case List(xs) => |xs| > 0
    case Func(_) => true
    case Empty(_) => true
    case Other(_) => true
  }

  /** The text of a `str`/`unicode` value, or nothing for other values. */
  function TextOf(v: Obj): (r: Option<string>)
    ensures r.Some? <==> IsInstance(v, BaseStringType)
  {
    match v
    case Str(s) => Some(s)
    case Unicode(u) => Some(u)
    case _ => None
  }

  /** `str(v)`. The exact text is known for strings, numbers, booleans and
      `None`; for containers, functions and other instances it is their
      `repr`, which the caller supplies. */
  function StrOf(v: Obj, reprOf: Obj -> string): string {
    match v
    case Str(s) => s
    case Unicode(u) => u
    case Int(i) => Text.IntToDecimal(i)
    case Long(l) => Text.IntToDecimal(l)
    case Bool(b) => if b then "True" else "False"
    case NoneObj => "None"
    case _ => reprOf(v)
  }

  /** `order` lists every key of a dictionary exactly once, in the unspecified
      order in which `iteritems`/`itervalues` visit them. */
  predicate IterationOrder(order: seq<string>, keys: set<string>) {
    (forall i, j :: 0 <= i < j < |order| ==> order[i] != order[j])
    && (forall k | k in order :: k in keys) && (forall k | k in keys :: k in order)
  }

  /** An iteration order lists every key exactly once. */
  lemma OrderCoversKeys(order: seq<string>, keys: set<string>)
    requires IterationOrder(order, keys)
    ensures |order| == |keys|
  {
    var s := set i | 0 <= i < |order| :: order[i];
    assert s == keys;
    DistinctCard(order);
  }

  lemma {:induction false} DistinctCard(order: seq<string>)
    requires forall i, j :: 0 <= i < j < |order| ==> order[i] != order[j]
    ensures |set i | 0 <= i < |order| :: order[i]| == |order|
    decreases |order|
  {
    if |order| > 0 {
      var rest := order[1..];
      DistinctCard(rest);
      var s := set i | 0 <= i < |order| :: order[i];
      var t := set i | 0 <= i < |rest| :: rest[i];
      assert s == t + {order[0]} by {
        forall x | x in s ensures x in t + {order[0]} {
          var i :| 0 <= i < |order| && order[i] == x;
          if i > 0 { assert rest[i - 1] == x; }
        }
      }
      assert forall i :: 0 <= i < |rest| ==> rest[i] == order[i + 1] != order[0];
      assert order[0] !in t;
    }
  }

  /** A Python 2 `str` holds bytes. */
  predicate IsBytes(s: string) {
    forall i :: 0 <= i < |s| ==> s[i] as int < 256
  }

  function HexDigit(d: nat): (c: char)
    requires d < 16
  {
    "0123456789abcdef"[d]
  }

  /** One byte inside a `repr` quoted by `quote`. */
  function ReprByte(c: char, quote: char): string
    requires c as int < 256
  {
    if c == quote || c == '\\' then ['\\', c]
    else if c == '\t' then "\\t"
    else if c == '\n' then "\\n"
    else if c == '\r' then "\\r"
    else if c < ' ' || c as int >= 0x7f then
      ['\\', 'x', HexDigit(c as int / 16), HexDigit(c as int % 16)]
    else [c]
  }

  function ReprBody(s: string, quote: char): string
    requires IsBytes(s)
  {
    if |s| == 0 then "" else ReprByte(s[0], quote) + ReprBody(s[1..], quote)
  }

  /** `repr(s)` for a byte string: single quotes unless the text holds a
      single quote and no double quote; backslash escapes for the quote,
      the backslash, tab, newline, return and non-printable bytes. */
  function ReprBytes(s: string): (r: string)
    requires IsBytes(s)
    ensures |r| >= 2 + |s|
    ensures r[0] == r[|r| - 1] && (r[0] == '\'' || r[0] == '"')
  {
    var quote := if '\'' in s && '"' !in s then '"' else '\'';
    ReprBodyLength(s, quote);
    [quote] + ReprBody(s, quote) + [quote]
  }

  lemma {:induction false} ReprBodyLength(s: string, quote: char)
    requires IsBytes(s)
    ensures |ReprBody(s, quote)| >= |s|
  {
    if |s| > 0 {
      ReprBodyLength(s[1..], quote);
    }
  }

  lemma {:induction false} ReprBodyOfAlnum(s: string, quote: char)
    requires forall i :: 0 <= i < |s| ==> Text.IsAlnumChar(s[i])
    requires !Text.IsAlnumChar(quote)
    ensures IsBytes(s) && ReprBody(s, quote) == s
  {
    if |s| > 0 {
      ReprBodyOfAlnum(s[1..], quote);
      assert s == [s[0]] + s[1..];
    }
  }

  /** Letters and digits are printed as they are, between single quotes. */
  lemma ReprOfAlnum(s: string)
    requires forall i :: 0 <= i < |s| ==> Text.IsAlnumChar(s[i])
    ensures IsBytes(s) && ReprBytes(s) == "'" + s + "'"
  {
    ReprBodyOfAlnum(s, '\'');
    assert forall i :: 0 <= i < |s| ==> s[i] != '\'';
  }

  /** UTF-8 encoding of one code point, as byte-valued characters. */
  function Utf8Char(c: char): (r: string)
    ensures 1 <= |r| <= 4 && IsBytes(r)
    ensures (c as int < 0x80) == (r == [c])
  {
    var n := c as int;
    if n < 0x80 then [c]
    else if n < 0x800 then
      [(0xC0 + n / 0x40) as char, (0x80 + n % 0x40) as char]
    else if n < 0x10000 then
      [(0xE0 + n / 0x1000) as char, (0x80 + (n / 0x40) % 0x40) as char,
       (0x80 + n % 0x40) as char]
    else
      [(0xF0 + n / 0x40000) as char, (0x80 + (n / 0x1000) % 0x40) as char,
       (0x80 + (n / 0x40) % 0x40) as char, (0x80 + n % 0x40) as char]
  }

  /** `u.encode('utf8')`. */
  function Utf8Encode(u: string): (r: string)
    ensures IsBytes(r) && |r| >= |u|
  {
    if |u| == 0 then "" else Utf8Char(u[0]) + Utf8Encode(u[1..])
  }

  /** Encoding ASCII text leaves it as it is. */
  lemma {:induction false} Utf8OfAscii(u: string)
    requires forall i :: 0 <= i < |u| ==> u[i] as int < 0x80
    ensures Utf8Encode(u) == u
  {
    if |u| > 0 {
      Utf8OfAscii(u[1..]);
      assert u == [u[0]] + u[1..];
    }
  }
}

=== FILE: setup_version.dfy ===
/** `setup.py`'s `_get_version`: the package version is read back from the
    `version_info = (...)` line that `tools/bump.py` writes, by a regular
    expression, with quotes and whitespace dropped and commas turned into
    dots. Reading the file is not modelled: its text is the input. */
module SetupVersion {
  import opened Wrappers
  import Text
  import Py
  import Bump

  const Marker: string := "version_info = ("

  /** The first `c` at or after `from`. */
  function FirstIndexFrom(s: string, c: char, from: nat): (r: Option<nat>)
    requires from <= |s|
    ensures r.Some? ==> from <= r.value < |s| && s[r.value] == c
    ensures r.Some? ==> forall k :: from <= k < r.value ==> s[k] != c
    ensures r.None? ==> forall k :: from <= k < |s| ==> s[k] != c
    decreases |s| - from
  {
    if from == |s| then None
    else if s[from] == c then Some(from)
    else FirstIndexFrom(s, c, from + 1)
  }

  /** The pattern `.*version_info = \((.*?)\)` can place its literal part at
      `j`: the marker is there and some `)` follows it. */
  predicate Matchable(text: string, j: nat) {
    Text.OccursAt(text, Marker, j) && FirstIndexFrom(text, ')', j + |Marker|).Some?
  }

  /** The greedy `.*` backtracks from the end, so the match uses the last
      place at or before `i` where the rest of the pattern fits. */
  function Search(text: string, i: nat): (r: Option<nat>)
    requires i <= |text|
    ensures r.Some? ==> r.value <= i && Matchable(text, r.value)
    ensures r.Some? ==> forall j: nat :: r.value < j <= i ==> !Matchable(text, j)
    ensures r.None? ==> forall j: nat :: j <= i ==> !Matchable(text, j)
  {
    if Matchable(text, i) then Some(i)
    else if i == 0 then None
    else Search(text, i - 1)
  }

  /** `match(...).group(1)`: the text between the chosen marker and the first
      `)` after it; `None` when the pattern does not match, where the source
      raises AttributeError on `None.group`. */
  function ExtractGroup(text: string): (r: Option<string>)
    ensures r.None? <==> forall j: nat :: j <= |text| ==> !Matchable(text, j)
    ensures r.Some? ==> ')' !in r.value
  {
    match Search(text, |text|)
    case None => None
    case Some(i) =>
      var k := FirstIndexFrom(text, ')', i + |Marker|).value;
      var g := text[i + |Marker|..k];
      assert forall m :: 0 <= m < |g| ==> g[m] == text[i + |Marker| + m];
      Some(g)
  }

  /** The replacement applied to one character: quotes and `\s` vanish, a
      comma becomes a dot. */
  function NormaliseChar(c: char): string {
    if c == '\'' || c == '"' || Text.IsSpace(c) then ""
    else if c == ',' then "."
    else [c]
  }

  /** `re.sub(r'(\'|"|\s+)', '', s).replace(',', '.')`. */
  function Normalise(s: string): (r: string)
    ensures |r| <= |s|
    ensures forall k :: 0 <= k < |r| ==> r[k] != '\'' && r[k] != '"' && r[k] != ',' && !Text.IsSpace(r[k])
  {
    if |s| == 0 then "" else NormaliseChar(s[0]) + Normalise(s[1..])
  }

  /** `_get_version` on the text of the package's `__init__.py`. */
  function GetVersion(text: string): (r: Option<string>)
    ensures r.Some? <==> exists j: nat | j <= |text| :: Matchable(text, j)
  {
    match ExtractGroup(text)
    case None => None
    case Some(g) => Some(Normalise(g))
  }

  lemma {:induction false} NormaliseAppend(a: string, b: string)
    ensures Normalise(a + b) == Normalise(a) + Normalise(b)
    decreases |a|
  {
    if |a| > 0 {
      assert (a + b)[0] == a[0];
      assert (a + b)[1..] == a[1..] + b;
      NormaliseAppend(a[1..], b);
      calc {
        Normalise(a + b);
        NormaliseChar(a[0]) + Normalise(a[1..] + b);
        NormaliseChar(a[0]) + (Normalise(a[1..]) + Normalise(b));
        (NormaliseChar(a[0]) + Normalise(a[1..])) + Normalise(b);
      }
    } else {
      assert a + b == b;
    }
  }

  /** Text without quotes, whitespace or commas is left alone. */
  lemma {:induction false} NormaliseOfPlain(s: string)
    requires forall k :: 0 <= k < |s| ==> s[k] != '\'' && s[k] != '"' && s[k] != ',' && !Text.IsSpace(s[k])
    ensures Normalise(s) == s
    decreases |s|
  {
    if |s| > 0 {
      NormaliseOfPlain(s[1..]);
      assert s == [s[0]] + s[1..];
    }
  }

  /** Normalising is idempotent: the version read back is already normal. */
  lemma NormaliseIdempotent(s: string)
    ensures Normalise(Normalise(s)) == Normalise(s)
  {
    NormaliseOfPlain(Normalise(s));
  }

  function NormaliseAll(parts: seq<string>): (r: seq<string>)
    ensures |r| == |parts|
    ensures forall i :: 0 <= i < |parts| ==> r[i] == Normalise(parts[i])
  {
    if |parts| == 0 then [] else [Normalise(parts[0])] + NormaliseAll(parts[1..])
  }

  /** The tuple's `, ` separators read back as dots. */
  lemma {:induction false} NormaliseJoin(parts: seq<string>)
    ensures Normalise(Text.Join(parts, ", ")) == Text.Join(NormaliseAll(parts), ".")
    decreases |parts|
  {
    if |parts| > 1 {
      var rest := Text.Join(parts[1..], ", ");
      NormaliseJoin(parts[1..]);
      assert NormaliseAll(parts)[1..] == NormaliseAll(parts[1..]);
      calc {
        Normalise(Text.Join(parts, ", "));
        Normalise(parts[0] + ", " + rest);
        { NormaliseAppend(parts[0] + ", ", rest); }
        Normalise(parts[0] + ", ") + Normalise(rest);
        { NormaliseAppend(parts[0], ", "); }
        Normalise(parts[0]) + Normalise(", ") + Normalise(rest);
        { assert Normalise(", ") == "."; }
        Normalise(parts[0]) + "." + Text.Join(NormaliseAll(parts[1..]), ".");
        Text.Join(NormaliseAll(parts), ".");
      }
    }
  }

  predicate NoCloseParen(s: string) {
    forall k :: 0 <= k < |s| ==> s[k] != ')'
  }

  /** A file whose last `version_info = (` line is followed by the body and
      a `)` yields that body. */
  lemma ExtractsLastVersionLine(p: string, body: string, s: string)
    requires NoCloseParen(body)
    requires forall j: nat :: |p| < j <= |p + Marker + body + ")" + s| ==>
               !Text.OccursAt(p + Marker + body + ")" + s, Marker, j)
    ensures ExtractGroup(p + Marker + body + ")" + s) == Some(body)
  {
    var text := p + Marker + body + ")" + s;
    var start := |p| + |Marker|;
    var k := start + |body|;
    assert text[|p|..start] == Marker;
    assert text[k] == ')';
    assert text[start..k] == body;
    assert forall m :: start <= m < k ==> text[m] == body[m - start];
    var f := FirstIndexFrom(text, ')', start);
    assert f == Some(k);
    assert Matchable(text, |p|);
    var r := Search(text, |text|);
    assert r.Some? && r.value == |p|;
  }

  /** The normal form of a version piece as read back: a numeral is
      rewritten without leading zeros, keeping its value; anything else is
      kept. */
  function Canonical(piece: string): (r: string)
    ensures Text.AllDigits(piece) && |piece| > 0 ==>
              Text.AllDigits(r) && |r| > 0 && (|r| > 1 ==> r[0] != '0')
              && Text.DigitsValue(r) == Text.DigitsValue(piece)
    ensures !(Text.AllDigits(piece) && |piece| > 0) ==> r == piece
  {
    if |piece| > 0 && Text.AllDigits(piece) then
      Text.DigitsValueOfDecimal(Text.DigitsValue(piece));
      Text.NatToDecimal(Text.DigitsValue(piece))
    else piece
  }

  function CanonicalAll(pieces: seq<string>): (r: seq<string>)
    ensures |r| == |pieces|
    ensures forall i :: 0 <= i < |pieces| ==> r[i] == Canonical(pieces[i])
  {
    if |pieces| == 0 then [] else [Canonical(pieces[0])] + CanonicalAll(pieces[1..])
  }

  predicate AlnumPiece(piece: string) {
    forall k :: 0 <= k < |piece| ==> Text.IsAlnumChar(piece[k])
  }

  lemma ParseIntOfDigits(ds: string)
    requires |ds| > 0 && Text.AllDigits(ds)
    ensures Text.ParseInt(ds) == Some(Text.DigitsValue(ds) as int)
  {
    assert forall k :: 0 <= k < |ds| ==> !Text.IsSpace(ds[k]);
    Text.StripOfSpaceFree(ds);
  }

  /** An alphanumeric piece parses exactly when it is a non-empty numeral. */
  lemma ParseIntOfAlnum(piece: string)
    requires AlnumPiece(piece)
    ensures Text.ParseInt(piece).Some? <==> |piece| > 0 && Text.AllDigits(piece)
    ensures Text.Strip(piece) == piece
  {
    assert forall k :: 0 <= k < |piece| ==> !Text.IsSpace(piece[k]);
    Text.StripOfSpaceFree(piece);
    if |piece| > 0 && Text.AllDigits(piece) {
      ParseIntOfDigits(piece);
    }
  }

  /** Characters that `_get_version`'s clean-up and the pattern leave alone. */
  predicate PlainChar(c: char) {
    c != ')' && c != '\'' && c != '"' && c != ',' && !Text.IsSpace(c)
  }

  predicate Plain(s: string) {
    forall k :: 0 <= k < |s| ==> PlainChar(s[k])
  }

  lemma AlnumIsPlain(s: string)
    requires AlnumPiece(s)
    ensures Plain(s) && Py.IsBytes(s)
  {
    forall k | 0 <= k < |s|
      ensures PlainChar(s[k]) && s[k] as int < 256
    {
      assert Text.IsAlnumChar(s[k]);
    }
  }

  /** Text without quotes, whitespace, commas or parentheses reads back
      unchanged. */
  lemma PlainReadsBack(s: string)
    requires Plain(s)
    ensures Normalise(s) == s
  {
    assert forall k :: 0 <= k < |s| ==> PlainChar(s[k]);
    NormaliseOfPlain(s);
  }

  /** A numeral piece is written in decimal. */
  lemma NumeralPieceRendered(piece: string)
    requires |piece| > 0 && Text.AllDigits(piece)
    ensures !Bump.SanitizePiece(piece).StrPoint?
    ensures Bump.Render(Bump.SanitizePiece(piece)) == Canonical(piece)
  {
    ParseIntOfDigits(piece);
    assert forall k :: 0 <= k < |piece| ==> !Text.IsSpace(piece[k]);
    Text.StripOfSpaceFree(piece);
    var n := Bump.SanitizePiece(piece).n;
    assert n == Text.DigitsValue(piece);
    assert Text.IntToDecimal(n) == Text.NatToDecimal(Text.DigitsValue(piece));
  }

  /** Any other alphanumeric piece is written quoted. */
  lemma WordPieceRendered(piece: string)
    requires AlnumPiece(piece) && !(|piece| > 0 && Text.AllDigits(piece))
    ensures Bump.SanitizePiece(piece) == Bump.StrPoint(piece)
    ensures Py.IsBytes(piece)
    ensures Bump.Render(Bump.SanitizePiece(piece)) == "'" + piece + "'"
  {
    WordPieceKept(piece);
    WordQuoted(piece);
  }

  lemma WordQuoted(piece: string)
    requires AlnumPiece(piece)
    ensures Py.IsBytes(piece)
    ensures Bump.Render(Bump.StrPoint(piece)) == "'" + piece + "'"
  {
    Py.ReprOfAlnum(piece);
  }

  lemma WordPieceKept(piece: string)
    requires AlnumPiece(piece) && !(|piece| > 0 && Text.AllDigits(piece))
    ensures Bump.SanitizePiece(piece) == Bump.StrPoint(piece)
  {
    ParseIntOfAlnum(piece);
  }

  lemma DigitsArePlain(d: string)
    requires Text.AllDigits(d)
    ensures Plain(d)
  {
    forall k | 0 <= k < |d|
      ensures PlainChar(d[k])
    {
      assert Text.IsDigitChar(d[k]);
    }
  }

  lemma NumeralReadsBack(piece: string)
    requires |piece| > 0 && Text.AllDigits(piece)
    ensures NoCloseParen(Bump.Render(Bump.SanitizePiece(piece)))
    ensures Normalise(Bump.Render(Bump.SanitizePiece(piece))) == Canonical(piece)
  {
    NumeralPieceRendered(piece);
    DigitsArePlain(Canonical(piece));
    PlainReadsBack(Canonical(piece));
  }

  lemma WordReadsBack(piece: string)
    requires AlnumPiece(piece) && !(|piece| > 0 && Text.AllDigits(piece))
    ensures Py.IsBytes(piece)
    ensures NoCloseParen(Bump.Render(Bump.SanitizePiece(piece)))
    ensures Normalise(Bump.Render(Bump.SanitizePiece(piece))) == Canonical(piece)
  {
    WordPieceRendered(piece);
    AlnumIsPlain(piece);
    QuotedReadsBack(piece);
  }

  /** A quoted plain word reads back as the word. */
  lemma QuotedReadsBack(w: string)
    requires Plain(w)
    ensures NoCloseParen("'" + w + "'")
    ensures Normalise("'" + w + "'") == w
  {
    var r := "'" + w + "'";
    forall k | 0 <= k < |r|
      ensures r[k] != ')'
    {
      if 0 < k < |r| - 1 {
        assert r[k] == w[k - 1] && PlainChar(w[k - 1]);
      }
    }
    PlainReadsBack(w);
    assert Normalise("'") == "";
    calc {
      Normalise(r);
      { NormaliseAppend("'" + w, "'"); }
      Normalise("'" + w) + Normalise("'");
      { NormaliseAppend("'", w); }
      Normalise("'") + Normalise(w) + Normalise("'");
      "" + w + "";
    }
    assert "" + w + "" == w;
  }


  /** How the corrected `_get_ver_str` writes one alphanumeric piece, and
      what reading it back gives. */
  lemma RenderedPieceReadsBack(piece: string)
    requires AlnumPiece(piece)
    ensures var pt := Bump.SanitizePiece(piece);
            (pt.StrPoint? ==> Py.IsBytes(pt.s))
            && NoCloseParen(Bump.Render(pt))
            && Normalise(Bump.Render(pt)) == Canonical(piece)
  {
    if |piece| > 0 && Text.AllDigits(piece) {
      NumeralReadsBack(piece);
    } else {
      WordPieceKept(piece);
      WordReadsBack(piece);
    }
  }

  lemma JoinNoCloseParen(texts: seq<string>)
    requires forall i :: 0 <= i < |texts| ==> NoCloseParen(texts[i])
    ensures NoCloseParen(Text.Join(texts, ", "))
  {
    var P := (c: char) => c != ')';
    forall i | 0 <= i < |texts|
      ensures Text.AllChars(texts[i], P)
    {
      assert NoCloseParen(texts[i]);
    }
    Text.JoinKeeps(texts, ", ", P);
  }

  /** An alphanumeric piece has no dot. */
  lemma AlnumLacksDot(piece: string)
    requires AlnumPiece(piece)
    ensures '.' !in piece
  {
    forall k | 0 <= k < |piece|
      ensures piece[k] != '.'
    {
      assert Text.IsAlnumChar(piece[k]);
    }
  }

  /** The characters of a version built from alphanumeric pieces. */
  lemma JoinOfAlnum(pieces: seq<string>)
    requires forall i :: 0 <= i < |pieces| ==> AlnumPiece(pieces[i])
    ensures forall k :: 0 <= k < |Text.Join(pieces, ".")| ==>
              Text.Join(pieces, ".")[k] == '.' || Text.IsAlnumChar(Text.Join(pieces, ".")[k])
  {
    var P := (c: char) => c == '.' || Text.IsAlnumChar(c);
    forall i | 0 <= i < |pieces|
      ensures Text.AllChars(pieces[i], P)
    {
      assert AlnumPiece(pieces[i]);
    }
    Text.JoinKeeps(pieces, ".", P);
  }

  lemma SplitOfAlnumJoin(pieces: seq<string>)
    requires |pieces| >= 1 && forall i :: 0 <= i < |pieces| ==> AlnumPiece(pieces[i])
    ensures Text.Split(Text.Join(pieces, "."), '.') == pieces
  {
    forall i | 0 <= i < |pieces|
      ensures '.' !in pieces[i]
    {
      AlnumLacksDot(pieces[i]);
    }
    Text.JoinSplit(pieces, '.');
  }

  lemma VersionCharIsPlain(c: char)
    requires c == '.' || Text.IsAlnumChar(c)
    ensures !Text.IsSpace(c) && c as int < 256
  {
  }

  /** The version text built from alphanumeric pieces. */
  lemma PiecesOfJoin(pieces: seq<string>)
    requires |pieces| >= 1 && forall i :: 0 <= i < |pieces| ==> AlnumPiece(pieces[i])
    ensures Py.IsBytes(Text.Join(pieces, "."))
    ensures Bump.Pieces(Text.Join(pieces, ".")) == pieces
  {
    var v := Text.Join(pieces, ".");
    JoinOfAlnum(pieces);
    forall k | 0 <= k < |v|
      ensures !Text.IsSpace(v[k]) && v[k] as int < 256
    {
      VersionCharIsPlain(v[k]);
    }
    Bump.PiecesOfSpaceFree(v);
    SplitOfAlnumJoin(pieces);
  }

  /** Each element the corrected `_get_ver_str` writes for an alphanumeric
      piece has no `)` and cleans up to the piece in normal form. */
  lemma PieceTexts(pieces: seq<string>)
    requires |pieces| >= 1 && forall i :: 0 <= i < |pieces| ==> AlnumPiece(pieces[i])
    ensures Py.IsBytes(Text.Join(pieces, "."))
    ensures Bump.PointsPrintable(Bump.Sanitize(Text.Join(pieces, ".")))
    ensures var texts := Bump.RenderAll(Bump.Sanitize(Text.Join(pieces, ".")));
            |texts| == |pieces|
            && forall i :: 0 <= i < |pieces| ==>
                 NoCloseParen(texts[i]) && Normalise(texts[i]) == Canonical(pieces[i])
  {
    var v := Text.Join(pieces, ".");
    PiecesOfJoin(pieces);
    Bump.SanitizeKeepsBytes(v);
    var texts := Bump.RenderAll(Bump.Sanitize(v));
    forall i | 0 <= i < |pieces|
      ensures NoCloseParen(texts[i]) && Normalise(texts[i]) == Canonical(pieces[i])
    {
      RenderedPieceReadsBack(pieces[i]);
    }
  }

  /** The tuple text the corrected `_get_ver_str` writes for alphanumeric
      pieces has no `)`, and cleaning it up gives the pieces in normal form
      joined by dots. */
  lemma BodyReadsBack(pieces: seq<string>)
    requires |pieces| >= 1 && forall i :: 0 <= i < |pieces| ==> AlnumPiece(pieces[i])
    ensures Py.IsBytes(Text.Join(pieces, "."))
    ensures NoCloseParen(Bump.VerStr(Text.Join(pieces, ".")))
    ensures Normalise(Bump.VerStr(Text.Join(pieces, "."))) == Text.Join(CanonicalAll(pieces), ".")
  {
    var v := Text.Join(pieces, ".");
    PieceTexts(pieces);
    var texts := Bump.RenderAll(Bump.Sanitize(v));
    Bump.VerStrIsJoin(v);
    JoinNoCloseParen(texts);
    NormaliseJoin(texts);
    NormaliseAllIsCanonical(texts, pieces);
  }

  lemma NormaliseAllIsCanonical(texts: seq<string>, pieces: seq<string>)
    requires |texts| == |pieces|
    requires forall i :: 0 <= i < |pieces| ==> Normalise(texts[i]) == Canonical(pieces[i])
    ensures NormaliseAll(texts) == CanonicalAll(pieces)
  {
  }

  /** Round trip: a version of alphanumeric pieces written by the corrected
      `_get_ver_str` into the last `version_info` line of a file is read
      back by `_get_version` as the same pieces, numerals in normal form. */
  lemma VersionRoundTrip(pieces: seq<string>, p: string, s: string)
    requires |pieces| >= 1 && forall i :: 0 <= i < |pieces| ==> AlnumPiece(pieces[i])
    requires Py.IsBytes(Text.Join(pieces, "."))
    requires var text := p + Marker + Bump.VerStr(Text.Join(pieces, ".")) + ")" + s;
             forall j: nat :: |p| < j <= |text| ==> !Text.OccursAt(text, Marker, j)
    ensures GetVersion(p + Marker + Bump.VerStr(Text.Join(pieces, ".")) + ")" + s)
            == Some(Text.Join(CanonicalAll(pieces), "."))
  {
    BodyReadsBack(pieces);
    ExtractsLastVersionLine(p, Bump.VerStr(Text.Join(pieces, ".")), s);
  }

  /** As written, a numeral beyond `sys.maxint` comes back with an `L`. */
  lemma LongVersionReadsBackWithL(n: nat, p: string, s: string)
    requires n > Bump.MaxInt
    requires Py.IsBytes(Text.NatToDecimal(n))
    requires var text := p + Marker + Bump.VerStrAsWritten(Text.NatToDecimal(n)) + ")" + s;
             forall j: nat :: |p| < j <= |text| ==> !Text.OccursAt(text, Marker, j)
    ensures GetVersion(p + Marker + Bump.VerStrAsWritten(Text.NatToDecimal(n)) + ")" + s)
            == Some(Text.NatToDecimal(n) + "L")
  {
    var d := Text.NatToDecimal(n);
    Bump.LongPieceGetsSuffix(n);
    SuffixedReadsBack(d);
    ExtractsLastVersionLine(p, d + "L", s);
  }

  /** A numeral with an `L` after it has no `)` and is left alone by the
      clean-up. */
  lemma SuffixedReadsBack(d: string)
    requires Text.AllDigits(d)
    ensures NoCloseParen(d + "L") && Normalise(d + "L") == d + "L"
  {
    DigitsArePlain(d);
    assert PlainChar('L');
    var r := d + "L";
    forall k | 0 <= k < |r|
      ensures PlainChar(r[k])
    {
      if k < |d| {
        assert r[k] == d[k];
      }
    }
    PlainReadsBack(r);
  }
}

=== FILE: text.dfy ===
/** The Python 2 string operations the framework relies on, over byte strings
    in the C locale: character classes, `isupper`/`islower`/`isalpha`,
    `startswith`/`endswith`, `split`/`rsplit`/`join`, `strip`, `str(int)`
    and `int(str)`. Cased and alphabetic characters are the ASCII letters. */
module Text {
  import opened Wrappers

  predicate IsUpperChar(c: char) { 'A' <= c <= 'Z' }
  predicate IsLowerChar(c: char) { 'a' <= c <= 'z' }
  predicate IsAlphaChar(c: char) { IsUpperChar(c) || IsLowerChar(c) }
  predicate IsDigitChar(c: char) { '0' <= c <= '9' }
  predicate IsAlnumChar(c: char) { IsAlphaChar(c) || IsDigitChar(c) }

  /** Python's `string.whitespace`: space, tab, newline, return, vertical tab, form feed. */
  predicate IsSpace(c: char) {
    c == ' ' || c == '\t' || c == '\n' || c == '\r' || c as int == 11 || c as int == 12
  }

  predicate HasCased(s: string) {
    exists i :: 0 <= i < |s| && IsAlphaChar(s[i])
  }

  /** `str.isupper`: some cased character, and no lower-case one. */
  predicate IsUpper(s: string) {
    HasCased(s) && forall i :: 0 <= i < |s| ==> !IsLowerChar(s[i])
  }

  /** `str.islower`: some cased character, and no upper-case one. */
  predicate IsLower(s: string) {
    HasCased(s) && forall i :: 0 <= i < |s| ==> !IsUpperChar(s[i])
  }

  /** `str.isalpha`: non-empty and letters only. */
  predicate IsAlpha(s: string) {
    |s| > 0 && forall i :: 0 <= i < |s| ==> IsAlphaChar(s[i])
  }

  predicate AllDigits(s: string) {
    forall i :: 0 <= i < |s| ==> IsDigitChar(s[i])
  }

  predicate StartsWith(s: string, prefix: string) {
    |prefix| <= |s| && s[..|prefix|] == prefix
  }

  predicate EndsWith(s: string, suffix: string) {
    |suffix| <= |s| && s[|s| - |suffix|..] == suffix
  }

  predicate OccursAt(s: string, sub: string, i: nat) {
    i + |sub| <= |s| && s[i..i + |sub|] == sub
  }

  /** Python's `sub in s` for strings. */
  predicate Contains(s: string, sub: string) {
    exists i: nat | i <= |s| :: OccursAt(s, sub, i)
  }

  /** `c + c in s`, by recursion so that it unfolds on literal names. */
  predicate HasPair(s: string, c: char)
    decreases |s|
  {
    |s| >= 2 && ((s[0] == c && s[1] == c) || HasPair(s[1..], c))
  }

  function Count(s: string, c: char): nat {
    if |s| == 0 then 0 else (if s[0] == c then 1 else 0) + Count(s[1..], c)
  }

  /** `s.split(sep)` for a one-character separator. */
  function Split(s: string, sep: char): (parts: seq<string>)
    ensures |parts| >= 1
  {
    if |s| == 0 then [""]
    else
      var rest := Split(s[1..], sep);
      if s[0] == sep then [""] + rest
      else [[s[0]] + rest[0]] + rest[1..]
  }

  /** `sep.join(parts)`. */
  function Join(parts: seq<string>, sep: string): string {
    if |parts| == 0 then ""
    else if |parts| == 1 then parts[0]
    else parts[0] + sep + Join(parts[1..], sep)
  }

  /** Every character of `s` satisfies `P`. */
  predicate AllChars(s: string, P: char -> bool) {
    forall k :: 0 <= k < |s| ==> P(s[k])
  }

  /** Each part preceded by the separator, all concatenated. */
  function Prefixed(parts: seq<string>, sep: string): string {
    if |parts| == 0 then "" else sep + parts[0] + Prefixed(parts[1..], sep)
  }

  /** Index of the last occurrence of `c`. */
  function LastIndexOf(s: string, c: char): (r: Option<nat>)
    ensures r.Some? ==> r.value < |s| && s[r.value] == c
                        && forall k :: r.value < k < |s| ==> s[k] != c
    ensures r.None? ==> c !in s
  {
    if |s| == 0 then None
    else if s[|s| - 1] == c then Some(|s| - 1)
    else LastIndexOf(s[..|s| - 1], c)
  }

  /** `s.rsplit(sep, 1)`. */
  function RSplitOnce(s: string, sep: char): (parts: seq<string>)
    ensures 1 <= |parts| <= 2
  {
    match LastIndexOf(s, sep)
    case None => [s]
    case Some(k) => [s[..k], s[k + 1..]]
  }

  /** Number of leading whitespace characters. */
  function LeadingSpaces(s: string): (n: nat)
    ensures n <= |s|
    ensures n < |s| ==> !IsSpace(s[n])
  {
    if |s| > 0 && IsSpace(s[0]) then 1 + LeadingSpaces(s[1..]) else 0
  }

  /** Number of trailing whitespace characters. */
  function TrailingSpaces(s: string): (n: nat)
    ensures n <= |s|
    ensures n < |s| ==> !IsSpace(s[|s| - 1 - n])
  {
    if |s| > 0 && IsSpace(s[|s| - 1]) then 1 + TrailingSpaces(s[..|s| - 1]) else 0
  }

  /** `s.strip()`: the slice left once leading and trailing whitespace is removed. */
  function Strip(s: string): (r: string)
    ensures |r| <= |s|
    ensures |r| > 0 ==> !IsSpace(r[0]) && !IsSpace(r[|r| - 1])
    ensures LeadingSpaces(s) + |r| <= |s| && r == s[LeadingSpaces(s)..LeadingSpaces(s) + |r|]
  {
    var t := s[LeadingSpaces(s)..];
    var r := t[..|t| - TrailingSpaces(t)];
    assert r == s[LeadingSpaces(s)..LeadingSpaces(s) + |r|];
    r
  }

  lemma StripOfSpaceFree(s: string)
    requires forall k :: 0 <= k < |s| ==> !IsSpace(s[k])
    ensures Strip(s) == s
  {
    assert LeadingSpaces(s) == 0;
    assert TrailingSpaces(s) == 0;
  }

  lemma {:induction false} LeadingSpacesBelow(s: string, k: nat)
    requires k < |s| && !IsSpace(s[k])
    ensures LeadingSpaces(s) <= k
    decreases k
  {
    if k > 0 && IsSpace(s[0]) {
      LeadingSpacesBelow(s[1..], k - 1);
    }
  }

  lemma {:induction false} TrailingSpacesBelow(s: string, k: nat)
    requires k < |s| && !IsSpace(s[k])
    ensures TrailingSpaces(s) <= |s| - 1 - k
    decreases |s|
  {
    if k < |s| - 1 && IsSpace(s[|s| - 1]) {
      TrailingSpacesBelow(s[..|s| - 1], k);
    }
  }

  /** Text holding a non-space character does not strip to nothing: the
      character survives at its place among the kept ones. */
  lemma NonSpaceSurvivesStrip(s: string, k: nat)
    requires k < |s| && !IsSpace(s[k])
    ensures LeadingSpaces(s) <= k < LeadingSpaces(s) + |Strip(s)|
    ensures Strip(s)[k - LeadingSpaces(s)] == s[k]
  {
    LeadingSpacesBelow(s, k);
    var t := s[LeadingSpaces(s)..];
    assert t[k - LeadingSpaces(s)] == s[k];
    TrailingSpacesBelow(t, k - LeadingSpaces(s));
  }

  function DigitChar(d: nat): (c: char)
    requires d < 10
    ensures IsDigitChar(c) && c as int - '0' as int == d
  {
    (('0' as int) + d) as char
  }

  /** `str(n)` for a natural number. */
  function NatToDecimal(n: nat): (r: string)
    ensures |r| >= 1 && AllDigits(r)
    ensures |r| > 1 ==> r[0] != '0'
  {
    if n < 10 then [DigitChar(n)] else NatToDecimal(n / 10) + [DigitChar(n % 10)]
  }

  /** `str(i)` / `'%d' % i` for an integer. */
  function IntToDecimal(i: int): string {
    if i < 0 then "-" + NatToDecimal(-i) else NatToDecimal(i)
  }

  /** The value of a string of decimal digits, most significant first. */
  function DigitsValue(ds: string): nat
    requires AllDigits(ds)
  {
    if |ds| == 0 then 0
    else DigitsValue(ds[..|ds| - 1]) * 10 + (ds[|ds| - 1] as int - '0' as int)
  }

  /** Python's `int(s)` on a byte string: surrounding whitespace, an optional
      sign, whitespace after the sign, then one or more decimal digits;
      anything else is a ValueError. */
  function ParseInt(s: string): Option<int> {
    ParseSigned(Strip(s))
  }

  /** What follows a sign and the whitespace after it. */
  function AfterSign(t: string): string
    requires |t| > 0
  {
    t[1..][LeadingSpaces(t[1..])..]
  }

  /** `int` of text already stripped of surrounding whitespace. */
  function ParseSigned(t: string): (r: Option<int>)
    ensures |t| > 0 && AllDigits(t) ==> r == Some(DigitsValue(t) as int)
    ensures |t| > 1 && t[0] == '-' && AllDigits(t[1..]) ==> r == Some(-(DigitsValue(t[1..]) as int))
    ensures r.Some? ==> |t| > 0
    ensures |t| > 0 && (t[0] == '-' || t[0] == '+') ==>
              (r.Some? <==> |AfterSign(t)| > 0 && AllDigits(AfterSign(t)))
  {
    if |t| > 0 && (t[0] == '-' || t[0] == '+') then
      var ds := AfterSign(t);
      if |ds| > 0 && AllDigits(ds) then
        Some(if t[0] == '-' then -(DigitsValue(ds) as int) else DigitsValue(ds) as int)
      else None
    else if |t| > 0 && AllDigits(t) then Some(DigitsValue(t) as int)
    else None
  }

  // ---------------------------------------------------------------------------
  // split / join

  lemma {:induction false} SplitJoin(s: string, sep: char)
    ensures Join(Split(s, sep), [sep]) == s
    decreases |s|
  {
    if |s| == 0 {
    } else {
      var rest := Split(s[1..], sep);
      SplitJoin(s[1..], sep);
      if s[0] == sep {
        assert Split(s, sep) == [""] + rest;
        assert ([""] + rest)[1..] == rest;
        assert s == [sep] + s[1..];
      } else if |rest| == 1 {
        assert Split(s, sep) == [[s[0]] + rest[0]];
        assert s == [s[0]] + s[1..];
      } else {
        var parts := [[s[0]] + rest[0]] + rest[1..];
        var tail := Join(rest[1..], [sep]);
        assert Split(s, sep) == parts;
        assert parts[1..] == rest[1..];
        calc {
          Join(parts, [sep]);
          ([s[0]] + rest[0]) + [sep] + tail;
          [s[0]] + (rest[0] + [sep] + tail);
          [s[0]] + Join(rest, [sep]);
          [s[0]] + s[1..];
          s;
        }
      }
    }
  }

  /** A concatenation starts with its first part and ends with its last. */
  lemma Affixes(head: string, middle: string, tail: string)
    ensures StartsWith(head + middle + tail, head)
    ensures EndsWith(head + middle + tail, tail)
  {
    var s := head + middle + tail;
    assert s[..|head|] == head;
    assert s[|s| - |tail|..] == tail;
  }

  /** Joining a head and more parts is the head followed by each part with
      its separator in front. */
  lemma {:induction false} JoinAfterHead(head: string, parts: seq<string>, sep: string)
    ensures Join([head] + parts, sep) == head + Prefixed(parts, sep)
    decreases |parts|
  {
    if |parts| > 0 {
      JoinAfterHead(parts[0], parts[1..], sep);
      assert ([head] + parts)[1..] == [parts[0]] + parts[1..];
    }
  }

  /** A property every character of the input has, every character of each
      piece has. */
  lemma {:induction false} SplitKeeps(s: string, sep: char, P: char -> bool)
    requires AllChars(s, P)
    ensures forall i :: 0 <= i < |Split(s, sep)| ==> AllChars(Split(s, sep)[i], P)
    decreases |s|
  {
    if |s| > 0 {
      SplitKeeps(s[1..], sep, P);
      var rest := Split(s[1..], sep);
      if s[0] != sep {
        assert AllChars([s[0]] + rest[0], P);
      }
    }
  }

  /** A property the separator and every piece's characters have, every
      character of the joined text has. */
  lemma {:induction false} JoinKeeps(parts: seq<string>, sep: string, P: char -> bool)
    requires AllChars(sep, P)
    requires forall i :: 0 <= i < |parts| ==> AllChars(parts[i], P)
    ensures AllChars(Join(parts, sep), P)
    decreases |parts|
  {
    if |parts| > 1 {
      JoinKeeps(parts[1..], sep, P);
      var rest := Join(parts[1..], sep);
      assert AllChars(parts[0] + sep, P);
      assert AllChars(parts[0] + sep + rest, P);
    }
  }

  lemma {:induction false} SplitPiecesLackSep(s: string, sep: char)
    ensures forall i :: 0 <= i < |Split(s, sep)| ==> sep !in Split(s, sep)[i]
    decreases |s|
  {
    if |s| > 0 {
      SplitPiecesLackSep(s[1..], sep);
    }
  }

  lemma {:induction false} SplitCount(s: string, sep: char)
    ensures |Split(s, sep)| == Count(s, sep) + 1
    decreases |s|
  {
    if |s| > 0 {
      SplitCount(s[1..], sep);
    }
  }

  lemma {:induction false} SplitOfSepFree(p: string, sep: char)
    requires sep !in p
    ensures Split(p, sep) == [p]
    decreases |p|
  {
    if |p| > 0 {
      assert sep !in p[1..];
      SplitOfSepFree(p[1..], sep);
      assert p == [p[0]] + p[1..];
    }
  }

  lemma {:induction false} SplitOfPieceThenSep(p: string, sep: char, t: string)
    requires sep !in p
    ensures Split(p + [sep] + t, sep) == [p] + Split(t, sep)
    decreases |p|
  {
    var s := p + [sep] + t;
    if |p| == 0 {
      assert s == [sep] + t;
      assert s[1..] == t;
    } else {
      assert s[1..] == p[1..] + [sep] + t;
      assert sep !in p[1..];
      SplitOfPieceThenSep(p[1..], sep, t);
      assert p == [p[0]] + p[1..];
    }
  }

  /** Splitting a join of separator-free pieces gives the pieces back. */
  lemma {:induction false} JoinSplit(parts: seq<string>, sep: char)
    requires |parts| >= 1
    requires forall i :: 0 <= i < |parts| ==> sep !in parts[i]
    ensures Split(Join(parts, [sep]), sep) == parts
    decreases |parts|
  {
    if |parts| == 1 {
      SplitOfSepFree(parts[0], sep);
    } else {
      JoinSplit(parts[1..], sep);
      SplitOfPieceThenSep(parts[0], sep, Join(parts[1..], [sep]));
      assert parts == [parts[0]] + parts[1..];
    }
  }

  /** The last piece of `rsplit(sep, 1)` is the last piece of `split(sep)`. */
  lemma {:induction false} RSplitLastIsSplitLast(s: string, sep: char)
    ensures RSplitOnce(s, sep)[|RSplitOnce(s, sep)| - 1] == Split(s, sep)[|Split(s, sep)| - 1]
  {
    match LastIndexOf(s, sep)
    case None =>
      SplitOfSepFree(s, sep);
    case Some(k) =>
      var tail := s[k + 1..];
      assert sep !in tail;
      SplitOfSepFree(tail, sep);
      SplitSuffixAfterSep(s[..k], sep, tail);
      assert s == s[..k] + [sep] + tail;
  }

  lemma {:induction false} SplitSuffixAfterSep(p: string, sep: char, t: string)
    requires sep !in t
    ensures Split(p + [sep] + t, sep)[|Split(p + [sep] + t, sep)| - 1] == t
    decreases |p|
  {
    var s := p + [sep] + t;
    SplitOfSepFree(t, sep);
    if |p| == 0 {
      assert s == [sep] + t;
      assert s[1..] == t;
    } else {
      assert s[1..] == p[1..] + [sep] + t;
      SplitSuffixAfterSep(p[1..], sep, t);
      var rest := Split(s[1..], sep);
      SplitCount(s[1..], sep);
      if s[0] != sep {
        assert Count(s[1..], sep) >= 1 by {
          CountPositive(p[1..], sep, t);
        }
      }
    }
  }

  lemma {:induction false} CountPositive(p: string, sep: char, t: string)
    ensures Count(p + [sep] + t, sep) >= 1
    decreases |p|
  {
    var s := p + [sep] + t;
    if |p| > 0 {
      assert s[1..] == p[1..] + [sep] + t;
      CountPositive(p[1..], sep, t);
    } else {
      assert s[0] == sep;
    }
  }

  /** `HasPair` is substring containment of the doubled character. */
  lemma {:induction false} HasPairIsContains(s: string, c: char)
    ensures HasPair(s, c) <==> Contains(s, [c, c])
    decreases |s|
  {
    if |s| >= 2 {
      HasPairIsContains(s[1..], c);
      if s[0] == c && s[1] == c {
        assert s[0..2] == [c, c];
        assert OccursAt(s, [c, c], 0);
      } else if HasPair(s[1..], c) {
        var i: nat :| i <= |s[1..]| && OccursAt(s[1..], [c, c], i);
        assert s[1..][i..i + 2] == s[i + 1..i + 3];
        assert OccursAt(s, [c, c], i + 1);
      }
      if Contains(s, [c, c]) {
        var i: nat :| i <= |s| && OccursAt(s, [c, c], i);
        if i > 0 {
          assert s[i..i + 2] == s[1..][i - 1..i + 1];
          assert OccursAt(s[1..], [c, c], i - 1);
        } else {
          assert s[0..2] == [c, c];
          assert s[0] == c && s[1] == c;
        }
      }
    } else {
      forall i: nat | i <= |s| ensures !OccursAt(s, [c, c], i) {
      }
    }
  }

  /** No two adjacent copies of `c`; checked index by index on literal names. */
  predicate NoAdjacent(s: string, c: char) {
    forall i :: 0 <= i < |s| - 1 ==> s[i] != c || s[i + 1] != c
  }

  lemma {:induction false} NoAdjacentNoPair(s: string, c: char)
    requires NoAdjacent(s, c)
    ensures !HasPair(s, c) && !Contains(s, [c, c])
    decreases |s|
  {
    HasPairIsContains(s, c);
    if |s| >= 2 {
      assert NoAdjacent(s[1..], c) by {
        forall i | 0 <= i < |s[1..]| - 1 ensures s[1..][i] != c || s[1..][i + 1] != c {
          assert s[1..][i] == s[i + 1] && s[1..][i + 1] == s[i + 2];
        }
      }
      NoAdjacentNoPair(s[1..], c);
    }
  }

  // ---------------------------------------------------------------------------
  // decimal

  lemma {:induction false} DigitsValueOfDecimal(n: nat)
    ensures DigitsValue(NatToDecimal(n)) == n
    decreases n
  {
    if n >= 10 {
      DigitsValueOfDecimal(n / 10);
      var r := NatToDecimal(n / 10) + [DigitChar(n % 10)];
      assert r[..|r| - 1] == NatToDecimal(n / 10);
    }
  }

  lemma ParseIntOfNatDecimal(n: nat)
    ensures ParseInt(NatToDecimal(n)) == Some(n)
  {
    var s := NatToDecimal(n);
    assert forall k :: 0 <= k < |s| ==> !IsSpace(s[k]) by {
      assert forall k :: 0 <= k < |s| ==> IsDigitChar(s[k]);
    }
    StripOfSpaceFree(s);
    assert s[0] != '-' && s[0] != '+' by { assert IsDigitChar(s[0]); }
    DigitsValueOfDecimal(n);
  }

  lemma StripOfNegDigits(ds: string)
    requires AllDigits(ds)
    ensures Strip("-" + ds) == "-" + ds
  {
    var s := "-" + ds;
    forall k | 0 <= k < |s|
      ensures !IsSpace(s[k])
    {
      if k > 0 {
        assert s[k] == ds[k - 1];
      }
    }
    StripOfSpaceFree(s);
  }

  lemma ParseSignedOfNegDigits(ds: string)
    requires |ds| > 0 && AllDigits(ds)
    ensures ParseSigned("-" + ds) == Some(-(DigitsValue(ds) as int))
  {
    var t := "-" + ds;
    assert t[1..] == ds;
    assert |t| > 1 && t[0] == '-' && AllDigits(t[1..]);
  }

  /** `int('-' + ds)` for a non-empty string of digits. */
  lemma ParseIntOfNegDigits(ds: string)
    requires |ds| > 0 && AllDigits(ds)
    ensures ParseInt("-" + ds) == Some(-(DigitsValue(ds) as int))
  {
    StripOfNegDigits(ds);
    ParseSignedOfNegDigits(ds);
  }

  lemma StripOfSignSpaceDigits(ds: string)
    requires |ds| > 0 && AllDigits(ds)
    ensures Strip("- " + ds) == "- " + ds
  {
    var s := "- " + ds;
    assert !IsSpace(s[0]);
    assert LeadingSpaces(s) == 0;
    assert !IsSpace(s[|s| - 1]) by { assert s[|s| - 1] == ds[|ds| - 1]; }
    assert TrailingSpaces(s) == 0;
  }

  lemma AfterSignSpace(ds: string)
    requires |ds| > 0 && AllDigits(ds)
    ensures AfterSign("- " + ds) == ds
  {
    var rest := ("- " + ds)[1..];
    assert rest == " " + ds;
    assert IsDigitChar(ds[0]);
    assert LeadingSpaces(rest) == 1 by {
      assert rest[1..] == ds;
      assert LeadingSpaces(ds) == 0;
    }
  }

  lemma ParseSignedSpaceDigits(ds: string)
    requires |ds| > 0 && AllDigits(ds)
    ensures ParseSigned("- " + ds) == Some(-(DigitsValue(ds) as int))
  {
    AfterSignSpace(ds);
    ParseSignedNegative("- " + ds, ds);
  }

  lemma ParseSignedNegative(t: string, ds: string)
    requires |t| > 0 && t[0] == '-' && AfterSign(t) == ds && |ds| > 0 && AllDigits(ds)
    ensures ParseSigned(t) == Some(-(DigitsValue(ds) as int))
  {
  }

  /** Whitespace between the sign and the digits is skipped: `int('- 5') == -5`. */
  lemma ParseIntSpaceAfterSign(ds: string)
    requires |ds| > 0 && AllDigits(ds)
    ensures ParseInt("- " + ds) == Some(-(DigitsValue(ds) as int))
  {
    StripOfSignSpaceDigits(ds);
    ParseSignedSpaceDigits(ds);
  }

  lemma {:induction false} ParseIntOfNegDecimal(n: nat)
    requires n > 0
    ensures ParseInt("-" + NatToDecimal(n)) == Some(-(n as int))
  {
    var ds := NatToDecimal(n);
    DigitsValueOfDecimal(n);
    assert DigitsValue(ds) == n;
    ParseIntOfNegDigits(ds);
  }

  /** `int(str(i)) == i`. */
  lemma ParseIntOfDecimal(i: int)
    ensures ParseInt(IntToDecimal(i)) == Some(i)
  {
    if i < 0 {
      ParseIntOfNegDecimal(-i);
    } else {
      ParseIntOfNatDecimal(i);
    }
  }
}

=== FILE: wrappers.dfy ===
/** Option and Result, the failure-compatible wrappers the rest of the model
    uses in place of Python's `None` and raised exceptions. */
module Wrappers {

  datatype Option<+T> = None | Some(value: T) {

    predicate IsFailure() {
      None?
    }

    function PropagateFailure<U>(): Option<U>
      requires None?
    {
      None
    }

    function Extract(): T
      requires Some?
    {
      value
    }

    /** Python's `d.get(k, default)` once the lookup has been turned into an Option. */
    function GetOr(default: T): T {
      match this
      case Some(v) => v
      case None => default
    }
  }

  datatype Result<+R, +E> = Success(value: R) | Failure(error: E) {

    predicate IsFailure() {
      Failure?
    }

    function PropagateFailure<U>(): Result<U, E>
      requires Failure?
    {
      Failure(this.error)
    }

    function Extract(): R
      requires Success?
    {
      value
    }
  }

  /** Dictionary lookup that does not raise. */
  function Get<K, V>(m: map<K, V>, k: K): Option<V> {
    if k in m then Some(m[k]) else None
  }
}
